=== FILE: README.md ===
# A Dafny model of the alpha-var-code core

alpha-var-code (VarConLib) looks for a change in the fine-structure constant α
by measuring the velocity separation of pairs of stellar absorption lines in
HARPS spectra. This project models the parts of it that carry the logic:

- **Transitions and pairs** (`TransitionLine`, `TransitionPair`, with the
  element and Roman-numeral tables in `Elements` and length units in `Units`).
  A transition is a wavelength, an element and an ionisation state. A pair
  holds two transitions of different wavelength, the shorter one first.
- **Air/vacuum conversions** (`Conversions`, `AirVacConversions`). These are
  the Edlén 1953 index, the ESO vacuum-to-air and the iterative air-to-vacuum
  conversions, and the Morton 2000 formulas, in both copies of the module.
- **The 2-D HARPS observation** (`Obs2d`). It covers the wavelength array
  built from the header's polynomial coefficients, the gain correction, the
  photon-noise error array, the blaze file path, the min/max header cards of
  the wavelength HDU, and the search for the echelle order holding a
  wavelength.
- **Miscellaneous helpers** (`Miscellaneous`). These are the echelle order
  table, the index search in a wavelength array, `date2index`, the Doppler
  shift and the velocity separation, and the q-coefficient shift of a
  transition for a change in α.
- **Line-pair selection** (`SelectLinePairs`). It covers the energy-unit
  conversions, spectral mask files, the Kurucz line lookup and the pair scan
  of `matchLines`.
- **The analysis scripts** (`PairSeparations`, `FitResults`,
  `StellarDependence`, and `ScriptCommon` for what they share). These cover
  the pair-label formatting, NaN-aware weighted means, binning, order
  boundaries and the pair dictionary. They also cover the CSV row of an
  observation's pair separations, the per-pair weighted statistics, and the
  walk for the systematic error σ_sys that brings χ²_ν to 1 in each
  stellar-parameter bin.

How the model is written:

- Python exceptions are a `Result` whose error names the exception. NaN is
  `None` or an explicit `Quotient` case.
- Floats are exact reals. Where the code truncates or rounds, the model says
  so explicitly. A velocity quotient that numpy would turn into an infinity
  or NaN is a `Quotient` with those cases. Where a member instead assumes a
  nonzero denominator, "## Left out" names it.
- Library routines the code only calls are function parameters of the model:
  `sqrt`, `weighted_mean_and_error`, `calc_chi_squared_nu`,
  `getwlseparation`, `float()`, and the Peck–Reeder conversion. The
  air-to-vacuum loops take the refractive index as a parameter `index`;
  `Conversions.EdlenIndex` is the Edlén index the code calls, and the
  `…EdlenLengthens` lemmas state the loops with it. Reading a blaze file's
  data is the parameter `readBlaze`, and whether a path exists is `exists_`.
- `utils/air_vac_conversions.py` repeats the Edlén and Morton formulas of
  `varconlib/conversions/conversions.py` word for word. Both copies are
  modelled by the `Conversions` members. `AirVacConversions` models only the
  two functions that differ.

## Model

| member | source | states |
|---|---|---|
| Elements.ElementSymbolRoundTrip | utils/transition_line.py:14-29 | Looking up the symbol of any atomic number 1..92 and then its number gives that number back. |
| Elements.ElementNumberRoundTrip | utils/transition_line.py:14-29 | Every symbol in the table has a number in 1..92, and that number's symbol is the symbol itself, so the table is a bijection. |
| Elements.RomanNumeralRoundTrip | utils/transition_line.py:31-32 | The numeral of each state 1..10 reads back as that state. |
| Elements.RomanValueRoundTrip | utils/transition_line.py:31-32 | Every numeral in the table stands for a state 1..10 whose numeral it is. |
| Units.SameLengthSameValue | utils/transition_line.py:65-70 | Two lengths in one unit are physically equal exactly when their numbers are equal. |
| Units.ConvertRoundTrip | varconlib/conversions/conversions.py:66-74 | Converting a length to another unit and back restores it exactly. |
| TransitionLine.ParseElement | utils/transition_line.py:73-100 | An int element is accepted iff it is 1..92, and the number and symbol then agree with the table. 0 or ≥119 fails the assertion, and 93..118 raises KeyError. A short numeric string is read as a number and any other short string as a symbol, with an unknown one raising KeyError. A string of three or more characters is read as a number or raises TypeError. Any other number is truncated toward zero and leaves no symbol. |
| TransitionLine.ParseIonization | utils/transition_line.py:103-111 | Anything `int()` accepts is used unchanged. Other text must be a Roman numeral I..X, which gives its value, and otherwise raises ValueError. |
| TransitionLine.MakeTransition | utils/transition_line.py:40-111 | A bare-number wavelength raises AttributeError. An element that does not parse raises its own error, and an ionisation state that does not parse then raises ValueError. With all three arguments valid, construction succeeds and stores the parsed number, symbol and state. The wavelength is stored in nanometres with the same physical length. |
| TransitionLine.ParseSpacedArguments | utils/transition_line.py:75-104 | `int()` skips whitespace, so the element ' 5' is atomic number 5 and the state ' 2' is 2. |
| TransitionLine.AtomicSpecies | utils/transition_line.py:120-122 | Succeeds exactly when a symbol is set and the state is 1..10. The result is the symbol, a space, and the state's numeral. |
| TransitionLine.Wavenumber | utils/transition_line.py:124-126 | The wavenumber times the wavelength in centimetres is 1. |
| TransitionLine.SetWavenumber | utils/transition_line.py:128-137 | Fails exactly for a quantity not in cm⁻¹, whatever its value. Otherwise the wavelength becomes 1/k centimetres and nothing else changes. |
| TransitionLine.WavenumberRoundTrip | utils/transition_line.py:124-137 | Setting the wavenumber to k and reading it back gives k. |
| TransitionLine.OrderingAgreesInOneUnit | utils/transition_line.py:155-165 | When both wavelengths are in one unit, the written comparison of bare values agrees with the physical comparison. |
| TransitionLine.MixedUnitComparison | utils/transition_line.py:155-165 | A 500 nm transition and a copy whose wavenumber is set to 20000 cm⁻¹ are the same length, yet the written `>` holds between them. |
| TransitionLine.OrderingIsStrict | utils/transition_line.py:155-165 | The physical `<` and `>` are irreflexive, asymmetric, converse and transitive. Exactly one of `<`, `>` and "same wavelength" holds for any two transitions. |
| TransitionPair.MakePair | varconlib/transition_pair/transition_pair.py:36-62 | Construction succeeds iff the two wavelengths differ, and otherwise raises SameWavelengthsError. The shorter wavelength becomes the higher-energy member, the two members are the given transitions, and no orders are set. |
| TransitionPair.MakePairAsWritten | varconlib/transition_pair/transition_pair.py:50-58 | On the written comparison of bare wavelength numbers: succeeds iff the two numbers differ, and otherwise raises SameWavelengthsError. The member with the smaller number becomes the higher-energy one. |
| TransitionPair.MakePairAgreesInOneUnit | varconlib/transition_pair/transition_pair.py:50-58 | When both wavelengths are in one unit, the written and the physical constructors build the same pair. |
| TransitionPair.MakePairMixedUnits | varconlib/transition_pair/transition_pair.py:50-58 | A 500 nm transition and its copy with wavenumber set to 20000 cm⁻¹ pair as written, the copy being the higher-energy member. The physical constructor refuses them as the same wavelength. |
| TransitionPair.MakePairSymmetric | varconlib/transition_pair/transition_pair.py:50-58 | The argument order does not change the pair. |
| TransitionPair.VelocitySeparation | varconlib/transition_pair/transition_pair.py:64-70 | Finite iff λ_high + λ_low ≠ 0 (otherwise infinite or NaN), and then v·(λ_high + λ_low) = 2c·(λ_low − λ_high). For a constructed pair of positive wavelengths it is finite and positive. |
| TransitionPair.LabelSplits | varconlib/transition_pair/transition_pair.py:72-77 | The label of two '_'-free transition labels splits on '_' back into exactly those two labels, higher first. |
| TransitionPair.BlendTuple | varconlib/transition_pair/transition_pair.py:79-89 | Raises AttributeError iff a member lacks a blendedness. Otherwise the result is ascending and holds the two blendedness values as a multiset. |
| TransitionPair.BlendTupleSymmetric | varconlib/transition_pair/transition_pair.py:79-89 | The blend tuple does not depend on the order the transitions were given in. |
| TransitionPair.IterSorted | varconlib/transition_pair/transition_pair.py:91-93 | Iterating a constructed pair yields the two given transitions, by strictly increasing wavelength. |
| TransitionPair.OrderBasics | varconlib/transition_pair/transition_pair.py:110-154 | Equal pairs are neither smaller nor greater. `<` and `>` are converse and never both hold. |
| TransitionPair.OrderIsLexicographic | varconlib/transition_pair/transition_pair.py:122-154 | When transitions are identified by wavelength, `<` and `>` are the lexicographic order on (higher, lower) wavelengths, and exactly one of `==`, `<`, `>` holds. |
| TransitionPair.OrderNotTotal | varconlib/transition_pair/transition_pair.py:122-154 | Two valid pairs whose higher members are different transitions at the same wavelength (Fe I and Ni I at 500 nm) are neither equal, smaller nor greater. |
| Conversions.AirIndexEdlen53 | varconlib/conversions/conversions.py:17-43 | Raises ZeroDivisionError exactly at the formula's poles. Otherwise n − 1 is the temperature/pressure scale times the dispersion term at σ² = (10⁴/λ)². |
| Conversions.DefaultScalePositive | varconlib/conversions/conversions.py:17-41 | At the default 15 °C and 760 mmHg the scale factor is defined and positive. |
| Conversions.DispersionPositive | varconlib/conversions/conversions.py:40-41 | Below σ² = 41 the dispersion term is positive. |
| Conversions.OpticalBelowPole | varconlib/conversions/conversions.py:40-41 | Every wavelength of at least 1562 Å has σ² < 41, clear of both poles. |
| Conversions.EdlenAboveOne | varconlib/conversions/conversions.py:17-43 | From 1562 Å up, at the defaults, the index is defined and greater than one. |
| Conversions.EdlenBelow | varconlib/conversions/conversions.py:17-43 | At 5000 Å the index is below 1.001. |
| Conversions.Vac2AirESOAsWritten | varconlib/conversions/conversions.py:46-74 | Succeeds iff the argument is a quantity or a float and the formula does not divide by zero. For a quantity, the angstrom number is multiplied by the original unit. |
| Conversions.Vac2AirAngstrom | varconlib/conversions/conversions.py:73 | Defined iff the index is defined and nonzero, and then air × n = vacuum. Otherwise raises ZeroDivisionError. |
| Conversions.Vac2AirESO | varconlib/conversions/conversions.py:46-74 | The intended version: the same success condition, and a quantity comes back in its own unit with the air length in angstroms. A float comes back as a float. |
| Conversions.Vac2AirESOUnitMixUp | varconlib/conversions/conversions.py:66-74 | For a quantity, the written result is the correct length times the number of angstroms per unit of the input. |
| Conversions.Vac2AirESOCounterexample | varconlib/conversions/conversions.py:66-74 | For 500 nm, the written version returns a number above 4000 in nanometres, while the intended one returns less than 500. |
| Conversions.AirBelowVacuum | varconlib/conversions/conversions.py:46-74 | From 1562 Å up, the air wavelength is positive and strictly shorter than the vacuum one. |
| Conversions.FirstConvergedSpec | varconlib/conversions/conversions.py:117-132 | The step found is the first in range whose iterate passes the exit test. None is found only when no step in range passes. |
| Conversions.FirstConvergedIs | varconlib/conversions/conversions.py:117-132 | The first passing step is exactly what the search returns. |
| Conversions.SearchFails | varconlib/conversions/conversions.py:117-132 | The capped loop raises iff none of the first cap + 1 iterates passes the test. |
| Conversions.SearchFixedPoint | varconlib/conversions/conversions.py:117-132 | The loop returns the input if it is already within tolerance of 0, and otherwise a value within tolerance of a fixed point of the step. |
| Conversions.Air2VacElement | varconlib/conversions/conversions.py:110-132 | An element's conversion either returns a value or raises RuntimeError. |
| Conversions.Air2VacElementFails | varconlib/conversions/conversions.py:110-132 | An element fails exactly when none of the air wavelength and its 100 iterates passes the 2e-12 test. |
| Conversions.Air2VacElementFixedPoint | varconlib/conversions/conversions.py:110-132 | A successful element is a tolerance-close fixed point of x ↦ a·n(x), or a itself near 0. |
| Conversions.Air2VacEdlenLengthens | varconlib/conversions/conversions.py:117-126 | With the Edlén index at 15 °C and 760 mmHg and an air wavelength of at least 1562 Å, the index is defined at every iterate. A converged vacuum wavelength is then longer than the air wavelength. |
| Conversions.Air2VacLoop | varconlib/conversions/conversions.py:117-132 | The imperative loop (old = 0, new = a, the iteration count checked after each step) computes exactly `Air2VacElement`. |
| Conversions.ConvertAll | varconlib/conversions/conversions.py:116-133 | The element loop over a flat list: one output per input, and the only error is RuntimeError. |
| Conversions.ConvertAllSucceeds | varconlib/conversions/conversions.py:116-133 | The list conversion succeeds iff every element's loop succeeds on its value in angstroms. |
| Conversions.ConvertAllElement | varconlib/conversions/conversions.py:116-133 | Output i, read in angstroms, is element i's loop result. |
| Conversions.Air2VacESO | varconlib/conversions/conversions.py:77-139 | A 0-d input raises TypeError and element failures raise RuntimeError. The output keeps the input's shape and unit. |
| Conversions.Air2VacESOSucceeds | varconlib/conversions/conversions.py:77-139 | A 1-d or 2-d input converts iff every element's loop succeeds. |
| Conversions.Air2VacESOElement | varconlib/conversions/conversions.py:77-139 | Each output element, in angstroms, is the vacuum wavelength of the matching input element. |
| Conversions.Vac2AirMorton00 | varconlib/conversions/conversions.py:142-153 | Defined iff no division by zero occurs, and then result × n_Morton = input. Otherwise raises ZeroDivisionError. |
| Conversions.Air2VacMortonIAU | varconlib/conversions/conversions.py:156-166 | Defined iff no division by zero occurs, and then the result is the input times the IAU index. |
| Conversions.BelowMortonPoles | varconlib/conversions/conversions.py:142-166 | From 1604 Å up, σ² is below both Morton poles. |
| Conversions.MortonDirections | varconlib/conversions/conversions.py:142-166 | From 1604 Å up, vac→air shortens and air→vac lengthens a wavelength. |
| AirVacConversions.Vac2AirESO | utils/air_vac_conversions.py:35-46 | The older float version agrees with the newer one on floats, and air × n = vacuum. |
| AirVacConversions.Vac2AirESOShortens | utils/air_vac_conversions.py:35-46 | From 1562 Å up, the air wavelength is positive and shorter. |
| AirVacConversions.SearchMoreFuel | utils/air_vac_conversions.py:69-75 | A loop that has stopped stops at the same iterate under any larger step budget. |
| AirVacConversions.SettleMoreFuel | utils/air_vac_conversions.py:69-75 | The older loop's answer does not depend on the step budget once it stops. |
| AirVacConversions.SettleEdlenLengthens | utils/air_vac_conversions.py:69-75 | With the Edlén index and an air wavelength of at least 1562 Å, a stopped loop ends above the air wavelength. |
| AirVacConversions.SettleStops | utils/air_vac_conversions.py:65-75 | The uncapped loop stops within the budget iff some iterate up to it passes the 1e-12 test. |
| AirVacConversions.SettleFixedPoint | utils/air_vac_conversions.py:65-75 | The older loop stops at a tolerance-close fixed point of x ↦ a·n(x), or at a itself near 0. |
| AirVacConversions.NewerSucceedsWhenOlderStops | utils/air_vac_conversions.py:65-75 | If the older (1e-12) loop stops within 100 steps, the newer capped (2e-12) loop succeeds. |
| AirVacConversions.Air2VacESO | utils/air_vac_conversions.py:49-80 | One output per input, in order. |
| AirVacConversions.Air2VacESOStops | utils/air_vac_conversions.py:49-80 | The list converts iff every element's loop stops. |
| AirVacConversions.Air2VacESOElement | utils/air_vac_conversions.py:69-77 | Output i is element i's loop result rounded to two decimals. |
| AirVacConversions.Air2VacESORounded | utils/air_vac_conversions.py:77 | Each output is within half a hundredth of its loop result and is a whole number of hundredths. |
| Miscellaneous.OrderOrdinal | varconlib/miscellaneous/miscellaneous.py:38-50 | The inverse order table returns an ordinal in 1..72, or nothing. |
| Miscellaneous.OrderNumberRoundTrip | varconlib/miscellaneous/miscellaneous.py:38-50 | Forward then inverse lookup gives the ordinal back. |
| Miscellaneous.OrderOrdinalRoundTrip | varconlib/miscellaneous/miscellaneous.py:38-50 | Inverse then forward lookup gives the order number back. |
| Miscellaneous.OrderNumberRange | varconlib/miscellaneous/miscellaneous.py:38-50 | The table's orders are exactly 89..161 without 115. |
| Miscellaneous.OrderNumberDecreasing | varconlib/miscellaneous/miscellaneous.py:38-50 | Order numbers strictly decrease with the ordinal. |
| Miscellaneous.ReversedTwice | varconlib/miscellaneous/miscellaneous.py:88-89 | Reversing the list twice restores it. |
| Miscellaneous.Wavelength2Index | varconlib/miscellaneous/miscellaneous.py:55-109 | A non-quantity fails the assertion, and the list is reversed in place when asked. An empty list raises IndexError. The call succeeds iff the wavelength is strictly inside the end values, and otherwise raises RuntimeError. The index returned is the first entry not below the wavelength or its predecessor, whichever is closer, the later one on a tie. |
| Miscellaneous.NearestInAscending | varconlib/miscellaneous/miscellaneous.py:97-109 | On an ascending array the chosen index is at least as close to the wavelength as every other entry. |
| Miscellaneous.FirstLater | varconlib/miscellaneous/miscellaneous.py:151-153 | The index is that of the first timestamp strictly after the date, with every earlier one not after it. |
| Miscellaneous.Date2Index | varconlib/miscellaneous/miscellaneous.py:112-153 | A non-date raises RuntimeError, and an empty list raises IndexError; any other call succeeds. A date at or before the first timestamp gives 0. A later date at or after the last timestamp gives None. None only comes from such a date, and 0 only from a date at or before the first. Any other index i is that of the first timestamp later than the date. |
| Miscellaneous.Date2IndexBrackets | varconlib/miscellaneous/miscellaneous.py:146-153 | On a chronological list, a date strictly inside it gets an index i with ds[i−1] ≤ date < ds[i]. |
| Miscellaneous.Velocity2Wavelength | varconlib/miscellaneous/miscellaneous.py:190-223 | Δλ·c = v·λ. |
| Miscellaneous.ShiftWavelength | varconlib/miscellaneous/miscellaneous.py:156-187 | Succeeds iff \|v\| < c, and otherwise fails the assertion. The result is λ + Δλ(v, λ). |
| Miscellaneous.ShiftByZero | varconlib/miscellaneous/miscellaneous.py:156-187 | Zero velocity leaves the wavelength unchanged. |
| Miscellaneous.ShiftPositive | varconlib/miscellaneous/miscellaneous.py:156-187 | A sub-light shift keeps a positive wavelength positive. |
| Miscellaneous.ShiftKeepsOrder | varconlib/miscellaneous/miscellaneous.py:156-187 | One shift keeps wavelengths in order. |
| Miscellaneous.ShiftIncreasing | varconlib/miscellaneous/miscellaneous.py:156-187 | A larger velocity gives a longer wavelength. |
| Miscellaneous.Wavelength2Velocity | varconlib/miscellaneous/miscellaneous.py:226-247 | Finite iff λ1 + λ2 ≠ 0, and NaN iff both are 0 (otherwise infinite). A finite velocity satisfies v·(λ1 + λ2) = 2c·(λ2 − λ1). |
| Miscellaneous.VelocityAntisymmetric | varconlib/miscellaneous/miscellaneous.py:226-247 | Swapping the wavelengths negates a finite velocity and keeps an infinity or NaN as it is. |
| Miscellaneous.VelocitySign | varconlib/miscellaneous/miscellaneous.py:226-247 | The velocity is a finite zero iff the wavelengths are equal and nonzero. For positive wavelengths it is finite, and positive iff the second is longer. |
| Miscellaneous.VelocityInverse | varconlib/miscellaneous/miscellaneous.py:226-247 | For positive wavelengths the velocity is finite with \|v\| < 2c, and λ2 is recovered from λ1 and v. |
| Miscellaneous.ShiftThenSeparation | varconlib/miscellaneous/miscellaneous.py:156-247 | The separation between λ and λ shifted by v is finite and equals 2cv/(2c + v): shift and separation are inverse to first order. |
| Miscellaneous.ToWavenumber | varconlib/miscellaneous/miscellaneous.py:282 | The spectral equivalence of a convertible value is a nonzero wavenumber. |
| Miscellaneous.QAlphaShift | varconlib/miscellaneous/miscellaneous.py:250-291 | A transition with a zero wavenumber or a zero wavelength gives NaN. Otherwise, with k0 its wavenumber and k1 = k0 + q(a² − 1), the result is NaN iff k1 = 0 and infinite iff k1 ≠ 0 and k0 + k1 = 0. A finite result satisfies v·(k0 + k1) = 2c·(k0 − k1), which `VelocityOfWavenumbers` shows is the velocity separation of 10⁸/k0 Å and 10⁸/k1 Å. |
| Miscellaneous.VelocityOfWavenumbers | varconlib/miscellaneous/miscellaneous.py:286-291 | In wavenumbers, v·(k0 + k1) = 2c·(k0 − k1). |
| Miscellaneous.NoAlphaChangeNoShift | varconlib/miscellaneous/miscellaneous.py:250-291 | An unchanged α (a = 1 or a = −1) gives a finite zero shift iff the transition's wavenumber and wavelength are both nonzero. |
| Obs2d.CoeffNumber | utils/obs2d.py:227-229 | Coefficient number 4·order + power determines the order (k div 4) and the power (k mod 4). |
| Obs2d.CoeffNumberBijective | utils/obs2d.py:227-229 | Each of the 288 numbers is used by exactly one (order, power). |
| Obs2d.CoeffKey | utils/obs2d.py:229 | The keyword is the fixed prefix followed by the decimal number. |
| Obs2d.CoeffKeyInjective | utils/obs2d.py:229 | Different coefficient numbers have different keywords. |
| Obs2d.CardNumber | utils/obs2d.py:230-232 | A card is usable as a number exactly when it is not text, and text raises TypeError. |
| Obs2d.ReadNumber | utils/obs2d.py:230 | A missing keyword raises KeyError, and otherwise the card's numeric value is returned. |
| Obs2d.CoefficientsFrom | utils/obs2d.py:226-232 | Reading cards k..287 yields 288 − k values, or KeyError/TypeError. |
| Obs2d.CoefficientsFromSucceeds | utils/obs2d.py:226-232 | Reading succeeds iff every card is present and numeric. |
| Obs2d.CoefficientsFromValues | utils/obs2d.py:226-232 | Value j is card j's number. |
| Obs2d.HeaderCoefficients | utils/obs2d.py:227-230 | Each order has four coefficients. |
| Obs2d.PartialPolyIsCubic | utils/obs2d.py:228-232 | Adding the terms one power at a time gives the cubic c0 + c1·p + c2·p² + c3·p³. |
| Obs2d.EvaluateOrder | utils/obs2d.py:228-232 | Every one of the 4096 pixels holds the cubic of its index. |
| Obs2d.OrderCoefficients | utils/obs2d.py:227-230 | Order o's coefficients are entries 4o..4o+3. |
| Obs2d.GetWavelengthArray | utils/obs2d.py:200-234 | Succeeds iff all 288 cards are readable, and otherwise raises KeyError/TypeError. There are 72 rows, each the cubic from its own order's cards. |
| Obs2d.BuildGrid | utils/obs2d.py:226-232 | The order loop yields 72 rows, each the cubic of its order's header coefficients. |
| Obs2d.OrderFromHeader | utils/obs2d.py:227-230 | Order o's slice of the coefficients read holds its four header cards. |
| Obs2d.Scaled | utils/obs2d.py:294 | Same shape, and each entry is multiplied by the gain. |
| Obs2d.GainCorrectedFlux | utils/obs2d.py:273-294 | A missing card raises KeyError, and a non-float gain fails the assertion. Otherwise the result is the raw flux times the gain. |
| Obs2d.GainCorrectionInvertible | utils/obs2d.py:291-294 | Dividing a nonzero gain back out recovers the raw flux. |
| Obs2d.PixelError | utils/obs2d.py:343-362 | Negative flux gives 1e5, and otherwise e ≥ 0 with e² = f + 12². |
| Obs2d.PixelErrorAtLeastDarkNoise | utils/obs2d.py:343-362 | No pixel error is below the dark noise of 12. |
| Obs2d.RowNegativesZero | utils/obs2d.py:351-357 | A row has no bad pixel iff none of its fluxes is negative. |
| Obs2d.NegativeCountZero | utils/obs2d.py:351-357 | The bad-pixel count is 0 iff no flux is negative. |
| Obs2d.PixelErrors | utils/obs2d.py:349-362 | Same shape, each entry is its pixel's error, and the count is the number of negative fluxes. |
| Numerics.Divide | utils/obs2d.py:370 | A float quotient is finite iff the divisor is nonzero, with q·b = x, and NaN iff both are 0. |
| Obs2d.BlazeCorrected | utils/obs2d.py:370 | Entry-wise division by the blaze. |
| Obs2d.GetErrorArray | utils/obs2d.py:320-372 | On a fresh gain-corrected flux: a failing gain correction raises its error first. In verbose mode a negative flux then raises AttributeError. Then a failing blaze lookup raises its error (KeyError, TypeError or RuntimeError), and a blaze of another shape raises ValueError. Otherwise each entry is the pixel error of the gain-corrected flux divided by the blaze file's data. Unless verbose mode raises, the bad count is the number of negative fluxes. |
| Obs2d.ErrorEntryFinite | utils/obs2d.py:356-370 | An error entry is never NaN, and it is infinite exactly where the blaze is 0. |
| Obs2d.ErrorAfterPhotonFlux | utils/obs2d.py:308-316 | The error of a pixel after `getPhotonFluxArray` has divided the cached flux by the blaze in place. For a nonzero blaze b it is finite and satisfies q·b = PixelError(f/b), so it is divided by b twice. For a zero blaze it is never finite, and it is NaN iff the flux is 0. |
| Obs2d.ErrorAfterPhotonFluxDiffers | utils/obs2d.py:308-370 | For a positive flux and a positive blaze other than 1, this error differs from the entry `GetErrorArray` gives. |
| Obs2d.ErrorsDividedTwice | utils/obs2d.py:308-370 | Flux 100 under blaze 4 gives the written error 13/4, not the single-division value. Flux 0 under blaze 0 gives NaN where the single division gives an infinity. |
| Obs2d.BlazeFilePath | utils/obs2d.py:175-198 | A missing card raises KeyError, and a non-text card TypeError. The call succeeds iff `<dir>/data/reduced/<name[6:16]>/<name>` exists, and otherwise raises RuntimeError. |
| Obs2d.BlazeDateOfName | utils/obs2d.py:188 | For `HARPS.<date>…`, the slice 6:16 is exactly the date. |
| Obs2d.BlazePathShape | utils/obs2d.py:190-192 | The path starts with the directory and ends with the file name. |
| Obs2d.LimitWord | utils/obs2d.py:402-403 | "MIN"/"MAX" have three letters. |
| Obs2d.LimitKeyword | utils/obs2d.py:403 | The keyword is "ORD", the order, then MIN or MAX. |
| Obs2d.LimitKeywordInjective | utils/obs2d.py:403 | Keywords name their order and kind uniquely. |
| Obs2d.LimitCard | utils/obs2d.py:402-407 | The card for the minimum holds pixel 0's wavelength, and the card for the maximum holds the last pixel's, within half a thousandth and on the three-decimal grid. Its comment is "Min/Max wavelength of order i". |
| Obs2d.WavelengthCards | utils/obs2d.py:400-407 | Cards 2i and 2i+1 are order i's minimum and maximum cards. |
| Obs2d.WavelengthCardsDistinct | utils/obs2d.py:400-408 | All 144 cards have distinct keywords. |
| Obs2d.OrdersContaining | utils/obs2d.py:551-556 | Exactly the orders whose first and last values enclose the wavelength, in increasing order. |
| Obs2d.FindWavelengthAsWritten | utils/obs2d.py:499-581 | Outside the barycentric array the assertion fails, and so it does for three or more orders. Without `closest_only` the result is the tuple of the orders holding the wavelength. With it, a single order is returned, and any other count raises TypeError. |
| Obs2d.TwoOrderChoiceAsWritten | utils/obs2d.py:576-579 | The written two-order branch returns one of the two pixel indices. |
| Obs2d.TwoOrderChoiceAsWrittenFarther | utils/obs2d.py:576-579 | The index it returns is never closer to pixel 2047.5 than the other one. |
| Obs2d.TwoOrderChoice | utils/obs2d.py:565-579 | The intended choice is one of the two orders. |
| Obs2d.TwoOrderChoiceCloser | utils/obs2d.py:565-579 | For two different orders, the chosen order's pixel is at least as close to pixel 2047.5 as the other's. |
| Obs2d.FindWavelength | utils/obs2d.py:499-581 | Outside the array the assertion fails. Inside it, the result is `ChooseAmong` of the orders holding the wavelength, so any success has fewer than three orders and any order returned contains the wavelength. |
| Obs2d.ChooseAmong | utils/obs2d.py:557-581 | Three or more orders fail the assertion. Without `closest_only` the result is the tuple of the orders. With it, one order is returned as is and none gives None. Two orders give the one whose pixel is nearer the centre, and a pixel lookup's error propagates, the first order's first. |
| Obs2d.FindWavelengthExtends | utils/obs2d.py:499-581 | Wherever the written code returns, the corrected one returns the same. |
| Obs2d.FindWavelengthTwoOrders | utils/obs2d.py:560-579 | For a wavelength in two orders, the written code raises TypeError while the corrected one returns the order nearer the detector centre. |
| Obs2d.PlotOrderData | utils/obs2d.py:583-606 | Succeeds iff the index is 0..71, and then returns that order's wavelengths and flux. Otherwise the assertion fails. |
| SelectLinePairs.EVMetre | selectLinePairs.py:34-63 | hc/e is positive. |
| SelectLinePairs.Wn2EV | selectLinePairs.py:34-49 | 0 gives a bare 0, and the result has the sign of the input. |
| SelectLinePairs.EV2Wn | selectLinePairs.py:52-63 | 0 gives a bare 0, and the result has the sign of the input. |
| SelectLinePairs.EnergyRoundTrip | selectLinePairs.py:34-63 | The two energy conversions undo each other. |
| SelectLinePairs.Vac2Air | selectLinePairs.py:66-75 | The only error is ZeroDivisionError. |
| SelectLinePairs.Vac2AirIsMorton | selectLinePairs.py:66-75 | The nanometre formula is `vac2airMorton00` in angstroms: both succeed together, and the results differ by a factor of 10. |
| SelectLinePairs.Uncommented | selectLinePairs.py:112-114 | The kept lines contain no '#'. |
| SelectLinePairs.ParseRegion | selectLinePairs.py:115-116 | A line that does not split on ',' into two pieces (after stripping newlines) raises ValueError. Otherwise the region is the two parsed numbers, and a piece that does not parse raises the parser's error, the start piece first. |
| SelectLinePairs.ParseSpectralMaskUncommented | selectLinePairs.py:92-118 | Parsing a mask file is parsing its non-comment lines. |
| SelectLinePairs.ParseEachLines | selectLinePairs.py:112-118 | Parsing succeeds iff every line parses, and then region k is line k's parse. |
| SelectLinePairs.ParseSpectralMaskLines | selectLinePairs.py:92-118 | The file parses iff every non-comment line does, and then the regions are in file order. |
| SelectLinePairs.LineIsMaskedExists | selectLinePairs.py:121-144 | A line is masked iff some region strictly contains it. |
| SelectLinePairs.CodeRoundTrip | selectLinePairs.py:173-174 | Decoding Z + (ion − 1)/100 gives Z and ion back. |
| SelectLinePairs.LowerUpper | selectLinePairs.py:180-193 | The lower level has the smaller energy (the second level on a tie). |
| SelectLinePairs.MatchOf | selectLinePairs.py:194-204 | The match carries the ordered levels and the rounded wavenumber, and the line's own wavelength in vacuum mode. |
| SelectLinePairs.Wavenumber | selectLinePairs.py:197 | The rounded wavenumber is within half a thousandth of 10⁸/(10·wl). |
| SelectLinePairs.MatchKurucz | selectLinePairs.py:147-204 | The only error is KeyError, raised for an unknown element. |
| SelectLinePairs.MatchKuruczFinds | selectLinePairs.py:147-204 | For a known element the lookup never raises, and it finds a line iff some line agrees in wavelength, species and lower energy. |
| SelectLinePairs.MatchKuruczFirst | selectLinePairs.py:166-204 | What it finds is built from the first agreeing line. |
| SelectLinePairs.KuruczLookup | selectLinePairs.py:281-316 | The only error that escapes the lookup is KeyError, and only for an unknown element. |
| SelectLinePairs.IronCountBound | selectLinePairs.py:317-319 | `n_iron` never exceeds `n`. |
| SelectLinePairs.Append | selectLinePairs.py:298-319 | Appending a pair adds its primary's key and element, and its iron count. |
| SelectLinePairs.FreshAppend | selectLinePairs.py:260-261 | A partner whose key no earlier primary has keeps the pair list fresh. |
| SelectLinePairs.AllSoundAppend | selectLinePairs.py:250-319 | Adding an accepted pair keeps every pair accepted. |
| SelectLinePairs.RecordSound | selectLinePairs.py:298-319 | Recording an accepted pair keeps the scan state sound. |
| SelectLinePairs.PrimaryKeysHas | selectLinePairs.py:298 | Each pair's primary key is among the remembered keys. |
| SelectLinePairs.ScanPartnersSound | selectLinePairs.py:250-319 | The inner loop keeps the state sound. |
| SelectLinePairs.ScanPartnersGrows | selectLinePairs.py:250-319 | The inner loop only grows the remembered keys and the pair list. |
| SelectLinePairs.ScanPartnersComplete | selectLinePairs.py:250-319 | Every passing partner of a primary with a lookup is accepted, unless its key is remembered. |
| SelectLinePairs.ScanLinesSound | selectLinePairs.py:228-319 | The outer loop keeps the state sound. |
| SelectLinePairs.ScanLinesGrows | selectLinePairs.py:228-319 | The outer loop only grows the state. |
| SelectLinePairs.ScanLinesComplete | selectLinePairs.py:228-319 | Every passing pair from line i on is accepted, unless its partner's key is remembered. |
| SelectLinePairs.MatchLinesPairs | selectLinePairs.py:207-330 | Every reported pair passed all the tests and was looked up, and no partner has an earlier primary's key. `prematchedLines` is the primaries' keys, and `n_iron` counts the Fe I pairs and is at most `n`. Every passing pair is reported unless its partner's key is remembered. |
| ScriptCommon.PairwiseConsecutive | varconlib/scripts/check_stellar_parameter_dependence.py:36-45 | `pairwise` yields \|s\| − 1 pairs (none for an empty sequence), and pair k is (s[k], s[k+1]). |
| ScriptCommon.PairwiseRebuild | varconlib/scripts/plot_pair_wise_separations.py:73-81 | The first members followed by the last element give the sequence back. |
| ScriptCommon.WhereSpec | varconlib/scripts/plot_pair_wise_separations.py:471-472 | A mask selects, in ascending order, exactly the indices where it holds. |
| ScriptCommon.MaskedElements | varconlib/scripts/check_stellar_parameter_dependence.py:389-393 | `a[mask]` keeps the selected elements in order. |
| ScriptCommon.NoSeparatorInInt | varconlib/scripts/plot_pair_wise_separations.py:1885 | `str(order)` holds no '_'. |
| ScriptCommon.OrderLabelIs | varconlib/scripts/plot_pair_wise_separations.py:1885 | `'_'.join([label, str(o)])` is label + "_" + str(o). |
| ScriptCommon.OrderLabelInjective | varconlib/scripts/plot_pair_wise_separations.py:1883-1886 | Distinct (label, order) combinations get distinct keys. |
| ScriptCommon.OrderLabelLastPiece | varconlib/scripts/plot_pair_wise_separations.py:1758 | The order is the last '_' piece of the key and reads back as the integer. |
| ScriptCommon.OrderLabelsSpec | varconlib/scripts/check_stellar_parameter_dependence.py:227-230 | One key per (transition, order), and the keys are exactly the label_order keys. |
| Text.ParseInt | utils/transition_line.py:104 | `int()` accepts exactly an optional sign and a numeral inside surrounding whitespace. Plain digits read as their value, and a signed numeral reads as its signed value. |
| Text.ParseIntLeadingSpace | utils/transition_line.py:104 | A space before a run of digits does not change the number read. |
| Text.ParseIntTrailingSpace | utils/transition_line.py:104 | A whitespace character after a run of digits does not change the number read. |
| Text.ParseIntDigitGroups | utils/transition_line.py:104 | '1_0' reads as 10 and '-1_0' as −10. |
| Text.ParseIntRejects | utils/transition_line.py:104 | '_1', '1__0' and '- 5' are rejected. |
| Text.ParseIntRoundTrip | varconlib/scripts/plot_pair_wise_separations.py:1885 | `int(str(n)) == n`. |
| Text.SplitJoin | varconlib/scripts/plot_pair_wise_separations.py:1758 | Splitting a join of separator-free pieces gives the pieces back. |
| Text.JoinSplit | varconlib/transition_pair/transition_pair.py:75-76 | Joining the pieces of a split gives the text back. |
| Text.RStrip | selectLinePairs.py:115 | Only trailing copies of the character are removed, and the result does not end with it. |
| Text.Capitalize | utils/obs2d.py:405 | The first character is upper-cased and every other one lower-cased. |
| Text.CharAt | varconlib/scripts/plot_pair_wise_separations.py:1762 | `s[i]` succeeds iff −len ≤ i < len. |
| PairSeparations.SplitTransitionLabel | varconlib/scripts/plot_pair_wise_separations.py:1759-1766 | Succeeds iff the label is longer than 8 characters, and otherwise raises IndexError. The label is wavelength(8) + element + state. |
| PairSeparations.OneCharInt | varconlib/scripts/plot_pair_wise_separations.py:1769 | `int(c)` of one character is its digit value, or a ValueError. |
| PairSeparations.StateNumeral | varconlib/scripts/plot_pair_wise_separations.py:1769-1777 | Succeeds iff the state is '1'..'9'. A non-digit raises ValueError and '0' raises KeyError. |
| PairSeparations.PairPieces | varconlib/scripts/plot_pair_wise_separations.py:1758-1766 | Succeeds iff the label splits on '_' into three pieces whose first two are longer than 8 characters and end in a state '1'..'9'. Any other piece count raises ValueError. |
| PairSeparations.FormatPairLabel | varconlib/scripts/plot_pair_wise_separations.py:1739-1777 | Succeeds iff the pieces can be cut, with the same error otherwise. |
| PairSeparations.FormatPairLabelRoundTrip | varconlib/scripts/plot_pair_wise_separations.py:1739-1777 | A label built as `<wl1><el1><s1>_<wl2><el2><s2>_<order>` formats as `el1 ROMAN1 wl1, el2 ROMAN2 wl2`, with the order dropped. |
| PairSeparations.TransitionPieces | varconlib/scripts/plot_pair_wise_separations.py:1759-1777 | A transition label is cut into the pieces it was built from. |
| PairSeparations.LatexSameOutcome | varconlib/scripts/plot_pair_wise_separations.py:1768-1777 | The LaTeX form fails iff the plain one does, with the same error. |
| PairSeparations.LatexOnlyWrapsWavelengths | varconlib/scripts/plot_pair_wise_separations.py:1768-1777 | The two forms differ only in how each wavelength is written. |
| PairSeparations.DropMissing | varconlib/scripts/plot_pair_wise_separations.py:1542-1544 | Values and errors stay aligned, and nothing is added. |
| PairSeparations.DropMissingKeepsPresent | varconlib/scripts/plot_pair_wise_separations.py:1542-1544 | With nothing missing, nothing is dropped. |
| PairSeparations.DropMissingIgnoresMissing | varconlib/scripts/plot_pair_wise_separations.py:1542-1544 | A missing value is dropped together with its error wherever it stands. |
| PairSeparations.GetWeightedMean | varconlib/scripts/plot_pair_wise_separations.py:1507-1549 | The result is (nan, nan) iff the library raises ZeroDivisionError on the present values. Any other error of the library is raised unchanged, and a library result is returned as the estimate. |
| PairSeparations.GetWeightedMeanIgnoresMissing | varconlib/scripts/plot_pair_wise_separations.py:1542-1549 | Missing entries do not change the weighted mean. |
| PairSeparations.InBinSpec | varconlib/scripts/plot_pair_wise_separations.py:471-472 | A bin's points are exactly those strictly inside its limits. |
| PairSeparations.BinOf | varconlib/scripts/plot_pair_wise_separations.py:471-484 | A bin is empty (all NaN) iff no point lies strictly inside. Otherwise its midpoint is the limits' centre and it holds the library's mean of its points. |
| PairSeparations.BinsSpec | varconlib/scripts/plot_pair_wise_separations.py:467-484 | The bin loop succeeds iff each bin does, and bin k is `BinOf` of limit pair k. |
| PairSeparations.BinSeriesShape | varconlib/scripts/plot_pair_wise_separations.py:467-484 | There are len(limits) − 1 bins, and bin k covers (limits[k], limits[k+1]). |
| PairSeparations.HalvesOfChanges | varconlib/scripts/plot_pair_wise_separations.py:1240-1245 | The boundaries are i − 0.5 for exactly the indices where the order changes. |
| PairSeparations.OrderBoundaries | varconlib/scripts/plot_pair_wise_separations.py:1240-1245 | i − 0.5 is a boundary iff orders[i−1] ≠ orders[i]. The boundaries are strictly increasing and within the plotted range. |
| PairSeparations.PairsDictKeys | varconlib/scripts/plot_pair_wise_separations.py:1882-1886 | The dictionary's keys are exactly the label_order keys. |
| PairSeparations.PairsDictValues | varconlib/scripts/plot_pair_wise_separations.py:1882-1886 | Each key leads to a pair measured in that key's order. |
| PairSeparations.PairsDictFinds | varconlib/scripts/plot_pair_wise_separations.py:1882-1886 | With distinct labels, label_order leads to that pair for each of its orders. |
| PairSeparations.ResultRow | varconlib/scripts/plot_pair_wise_separations.py:1088-1092 | A results row has one cell per header column. |
| PairSeparations.ResultRowRoundTrip | varconlib/scripts/plot_pair_wise_separations.py:1922-1931 | A results row reads back into the result it came from. |
| FitResults.LongestMatchEnd | varconlib/scripts/analyze_fit_results.py:130 | Finds the greediest end of a `HARPS.*_e2ds_A` match, or reports that there is none. |
| FitResults.ObservationName | varconlib/scripts/analyze_fit_results.py:130-138 | `.group()` succeeds iff the stem matches at its start, and otherwise raises AttributeError. The result is the longest match. |
| FitResults.ObservationNameOfFile | varconlib/scripts/analyze_fit_results.py:130-138 | For `HARPS<mid>_e2ds_A<ext>` with no '_' in ext, the name is `HARPS<mid>_e2ds_A`. |
| FitResults.PairCells | varconlib/scripts/analyze_fit_results.py:171-197 | A missing fit gives N/A and an error that is not a number gives NaN. Otherwise the cells are the velocity separation of the two means, r·(λ1 + λ2) = 2c(λ2 − λ1), and an error e ≥ 0 with e² = e1² + e2². |
| FitResults.PairCellsAsWritten | varconlib/scripts/analyze_fit_results.py:183-191 | As written, the NaN branch raises AttributeError (`fits_pair.label` of a list). Otherwise the cells are the corrected ones. |
| FitResults.NaNErrorRaises | varconlib/scripts/analyze_fit_results.py:183-191 | A concrete fit with a NaN error makes the written code raise. |
| FitResults.ConcatPairs | varconlib/scripts/analyze_fit_results.py:173-197 | Concatenating two-cell blocks puts block j at columns 2j, 2j+1. |
| FitResults.PairBlocks | varconlib/scripts/analyze_fit_results.py:172-197 | Block j is pair j's two cells. |
| FitResults.ColumnNamesSpec | varconlib/scripts/analyze_fit_results.py:171-173 | The header is Observation, Time, then each pair's label and label_err. |
| FitResults.RowMatchesHeader | varconlib/scripts/analyze_fit_results.py:168-197 | The row and the header have equal length, and columns 2+2j, 3+2j of the row hold pair j's cells under its label and label_err. |
| FitResults.KeptPairsSpec | varconlib/scripts/analyze_fit_results.py:167-200 | `pairs_dict` has a label iff that pair was fitted with both errors present, and its entry carries both errors. |
| FitResults.RowCheck | varconlib/scripts/analyze_fit_results.py:213 | The check passes iff there is a row and its length matches the header. With no rows it raises IndexError, and otherwise a mismatch fails the assertion. |
| FitResults.RowCheckPasses | varconlib/scripts/analyze_fit_results.py:168-213 | The assertion always holds for a row built this way. |
| FitResults.Weights | varconlib/scripts/analyze_fit_results.py:279 | The weights are positive, with w·e² = 1. |
| FitResults.ChiTerms | varconlib/scripts/analyze_fit_results.py:285-286 | Each χ² term is non-negative, with t·e² = (x − mean)². |
| FitResults.MeanError | varconlib/scripts/analyze_fit_results.py:288 | err > 0 and err²·Σw = 1. |
| FitResults.ReducedChiSquared | varconlib/scripts/analyze_fit_results.py:295 | χ²_ν is finite iff n ≠ 1, and for n > 1 it equals χ²/(n − 1). |
| FitResults.PairStatistics | varconlib/scripts/analyze_fit_results.py:279-295 | Succeeds iff there are offsets, and otherwise raises ZeroDivisionError. The mean is `np.average` of the offsets with weights 1/e², and χ² is the sum of ((x − mean)/e)² over the offsets, so χ² ≥ 0. The mean error satisfies err²·Σw = 1. χ²_ν is finite iff there are at least 2 offsets, and then equals χ²/(n − 1). |
| FitResults.PairStatisticsMeanBalances | varconlib/scripts/analyze_fit_results.py:279-284 | The offsets' residuals from the weighted mean, weighted by 1/e², sum to zero. |
| FitResults.PairStatisticsMeanBetween | varconlib/scripts/analyze_fit_results.py:279-280 | The weighted mean lies between any bounds of the offsets. |
| FitResults.ChiSquaredZeroWhenFlat | varconlib/scripts/analyze_fit_results.py:285-286 | Offsets all equal to the mean give χ² = 0. |
| FitResults.FoldDate | varconlib/scripts/analyze_fit_results.py:277 | A folded date is a valid date in 2000 with the same month, day and time. |
| FitResults.FoldDateTotal | varconlib/scripts/analyze_fit_results.py:277 | Every valid date folds, and folding is idempotent. |
| StellarDependence.InitialParams | varconlib/scripts/check_stellar_parameter_dependence.py:207-209 | There are n − 1 parameters, the first the mean and the rest 0. Fewer than 2 raise IndexError (at line 339). |
| StellarDependence.InitialParamsReused | varconlib/scripts/check_stellar_parameter_dependence.py:339 | Overwriting the first parameter in a later round gives that round's fresh list. |
| StellarDependence.IncreasingBins | varconlib/scripts/check_stellar_parameter_dependence.py:377 | Increasing limits give len − 1 proper bins. |
| StellarDependence.TempBins | varconlib/scripts/check_stellar_parameter_dependence.py:238-240 | The temperature limits give 9 proper bins. |
| StellarDependence.MtlBins | varconlib/scripts/check_stellar_parameter_dependence.py:242-243 | The metallicity limits give 8 proper bins. |
| StellarDependence.LoggBins | varconlib/scripts/check_stellar_parameter_dependence.py:245-246 | The log g limits give 6 proper bins. |
| StellarDependence.BinMembersSpec | varconlib/scripts/check_stellar_parameter_dependence.py:381-382 | `masked_outside` keeps exactly the points within the closed limits, in order. |
| StellarDependence.SharedLimitInBoth | varconlib/scripts/check_stellar_parameter_dependence.py:381-382 | A value on a shared limit is in both neighbouring bins. |
| StellarDependence.SysVariancesPositive | varconlib/scripts/check_stellar_parameter_dependence.py:403-407 | Variances plus σ_sys² are positive. |
| StellarDependence.VariancesGrow | varconlib/scripts/check_stellar_parameter_dependence.py:403-407 | The variances grow with σ_sys, strictly when it grows strictly. |
| StellarDependence.SysWeights | varconlib/scripts/check_stellar_parameter_dependence.py:410 | The weights are positive. |
| StellarDependence.WalkMeanBetween | varconlib/scripts/check_stellar_parameter_dependence.py:410-413 | The weighted mean of the residuals lies between their bounds. |
| StellarDependence.SigmaSysWalk | varconlib/scripts/check_stellar_parameter_dependence.py:400-417 | When the walk stops, σ_sys is 0.01·(steps − 1) ≥ 0, χ²_ν ≤ 1 there, and every earlier σ_sys had χ²_ν > 1. Otherwise every step within the budget had χ²_ν > 1. |
| StellarDependence.SelectNonZero | varconlib/scripts/check_stellar_parameter_dependence.py:393 | Errors selected from nonzero errors are nonzero. |
| StellarDependence.BinSigmaSys | varconlib/scripts/check_stellar_parameter_dependence.py:376-419 | The midpoint is the limits' centre. The bin is skipped iff it has fewer than 7 points. A settled bin's σ_sys is the first on the 0.01 walk that gives χ²_ν ≤ 1. A bin is unsettled only if it has at least 7 points and every one of the first `fuel` steps leaves χ²_ν above 1. |
| StellarDependence.ParameterSigmaSys | varconlib/scripts/check_stellar_parameter_dependence.py:369-419 | There is one result per consecutive limit pair, each as `BinSigmaSys` describes. |
| Numerics.WeightedAverage | varconlib/scripts/analyze_fit_results.py:280 | `np.average` raises ZeroDivisionError iff the weights sum to 0. Otherwise mean·Σw = Σw·x. |
| Numerics.WeightedResidualsVanish | varconlib/scripts/analyze_fit_results.py:280 | The residuals from a weighted average, weighted, sum to zero. |
| Numerics.WeightedAverageBetween | varconlib/scripts/analyze_fit_results.py:280 | With positive weights the average lies between any bounds of the values. |
| Numerics.Trunc | selectLinePairs.py:173 | `trunc`/`int` round toward zero. |
| Numerics.RoundHalfEven | utils/air_vac_conversions.py:77 | `round` lands within 0.5, and on the even integer at a tie. |
| Numerics.RoundToNearest | utils/air_vac_conversions.py:77 | `round(x, d)` is within half a unit of the last place and a whole number of units. |

## Left out

- Plotting, argparse, progress bars, pickling, CSV and FITS reading and writing, and the configuration file. These are user interface and I/O; the model keeps the values they would show or store, except where `Obs2d.ErrorAfterPhotonFlux` says otherwise.
- The constructor `HARPSFile2DScience.__init__`, `getVacuumArray`, `getBarycentricArray`, `shiftWavelengthArray`, `getPhotonFluxArray`, `writePhotonFluxHDU` and `writeErrorHDU` are left out. They read files, cache arrays and chain the modelled conversions (`Conversions.Air2VacESO`, `Miscellaneous.ShiftWavelength`, `Obs2d.GainCorrectedFlux`, `Obs2d.BlazeCorrected`). Their one effect beyond that is that `getPhotonFluxArray` divides the cached gain-corrected array in place. Whenever the constructor writes the flux HDU it does so before the error HDU, so the errors it then stores are those of `Obs2d.ErrorAfterPhotonFlux` (see Findings).
- `vac2airPeckReeder` uses a real power `s ** s`, which Dafny has no operator for. The Kurucz lookup takes it as a parameter.
- `curve_fit`, `weighted_mean_and_error`, `calc_chi_squared_nu`, `remove_nans` as a library routine, `getwlseparation`, `np.sqrt` and `float()` are library numerics. They are parameters of the model.
- The Kurucz element code is read from an IEEE double. The model decodes exact reals, so the rounding of, say, 26.01 is not modelled.
- The α-change script's `np.std`, its `σ_sys/σ > 1.2` debug exit, the exit on an unknown label, the quantile bins of `--nbins`, the error array `np.maximum(eotwms, eotms)` and the final per-bin means and standard deviations are left out. They are diagnostics and plotting around the modelled σ_sys walk.
- `get_params_file` in `varconlib/miscellaneous/miscellaneous.py` only reads files.
- The mutation of the caller's quantities by `convert_to_units` in `shift_wavelength` is not modelled: the model returns values.
- Miscellaneous.ShiftWavelength: the velocity is taken to be a quantity. A bare float or int velocity raises AttributeError at `shift_velocity.convert_to_units` (varconlib/miscellaneous/miscellaneous.py:179). The model's real `v` stands only for a velocity quantity and does not model that error.
- StellarDependence.SigmaSysWalk: the Python loop is unbounded. The model takes a step budget `fuel`, and a walk that has not settled within it is reported as unsettled. σ_sys is exact, so floating-point drift of the repeated `+= 0.01` is not modelled.
- StellarDependence.ParameterSigmaSys: same step budget. It also assumes the errors are nonzero, where a zero error would give an infinite weight in Python.
- AirVacConversions.Air2VacESO: the older loop has no iteration cap. The model gives each element a step budget and returns `None` when some loop has not stopped.
- FitResults.PairCells: assumes positive fitted means, which wavelengths are. Means whose sum is 0 would divide by zero in Python.
- FitResults.PairStatistics: assumes nonzero errors, since a zero error gives an infinite weight in Python.
- TransitionLine.Wavenumber: assumes a nonzero wavelength, where Python would give an infinity.
- TransitionLine.SetWavenumber: requires a nonzero wavenumber unless the call raises for its unit. `1 / (0 cm⁻¹)` is numpy division and stores an infinite wavelength, which a real cannot hold.
- Text.ParseInt: models `int()` on ASCII text only. Non-ASCII digits and non-ASCII whitespace, which `int()` also accepts, are not modelled. This carries over to TransitionLine.ParseElement, TransitionLine.ParseIonization, PairSeparations.StateNumeral, PairSeparations.PairPieces and PairSeparations.FormatPairLabel.
- TransitionPair.MakePair: builds on the physical comparison of wavelengths. The source's `>` and `<` compare bare `wavelength.value` numbers, so for transitions stored in different units the two diverge. `MakePairAsWritten` is the written version, and `MakePairAgreesInOneUnit` shows the two agree when both transitions share a unit.
- TransitionPair.Eq: transitions are identified by value. `Transition` defines no `__eq__`, so the source's `==` in the pair's `__eq__`, `__gt__` and `__lt__` is object identity. Two separately built transitions with equal fields are different there and the same here. This also applies to TransitionPair.Lt, TransitionPair.Gt and TransitionPair.OrderIsLexicographic.
- Conversions.Vac2AirESOAsWritten: `ll.convert_to_units(u.angstrom)` (conversions.py:68) converts the caller's quantity to Å in place. The model returns values and leaves the argument unchanged.
- Conversions.Air2VacESO: `air_wavelengths_array.convert_to_units(u.angstrom)` (conversions.py:108) converts a 1-d argument to Å in place, since only a 2-d one is copied by `flatten()`. The model leaves the argument unchanged.
- Obs2d.GetErrorArray: a blaze array of another shape is taken to raise ValueError. numpy would broadcast a blaze of a compatible shape, such as a single row; this is not modelled. The blaze file the observation has already cached is taken to be the one `getBlazeFile` would find. The method is modelled on an untouched gain-corrected cache. After `getPhotonFluxArray`, as on the constructor's path, the cache is already divided by the blaze, and the entries are `Obs2d.ErrorAfterPhotonFlux`.
- Obs2d.LimitCard: the source stores the value as a text card, `'{:.3f}'` of the wavelength. The model keeps the number that text denotes.
- Conversions.EdlenIndex: reads 0 at the poles of the Edlén formula, where numpy gives an infinity with a warning. The modelled properties hold from 1562 Å, away from the poles.
- Miscellaneous.QAlphaShift: an energy given as `omega` is not modelled, only a wavenumber or a wavelength.
- Miscellaneous.Velocity2Wavelength: the optional `unit` argument is dropped. The result is in the wavelength's unit, as when `unit` is None; a conversion to another unit is `Units.Length.To`.
- SelectLinePairs.MatchLines: the text lines written to the output file are not modelled. The counters and the accepted pairs are.
- Miscellaneous.Date2Index: per its docstring it looks for the closest earlier timestamp, but it returns the first later one. The model follows the code, and `Date2IndexBrackets` states what it returns.
- PairSeparations.BinOf: the per-bin annotation `calc_chi_squared_nu(m_diffs[mask], m_errs[mask], 1)` (varconlib/scripts/plot_pair_wise_separations.py:481-482) is dropped, because it only labels the plot. The source can fail there when that library routine raises, which the model does not follow. The routine is not part of this model.
- SelectLinePairs.MatchKurucz: assumes positive line wavelengths, as in the Kurucz list, because the wavenumber `1e8 / (10 wl)` divides by the wavelength. This also applies to SelectLinePairs.MatchOf, SelectLinePairs.Wavenumber, SelectLinePairs.MatchKuruczFinds, SelectLinePairs.MatchKuruczFirst and SelectLinePairs.KuruczLookup.
- TransitionPair.OrderNotTotal: pair ordering is not a total order when different transitions share a wavelength. The model states the code's behaviour rather than an intended order.

## Findings

| source | as written | input that shows it | evidently intended | confidence | as-written member | corrected member |
|---|---|---|---|---|---|---|
| utils/transition_line.py:155-165 | `__lt__`/`__gt__` compare `wavelength.value`, but the wavenumber setter stores the wavelength in cm | a 500 nm Fe I transition and a copy with wavenumber set to 20000 cm⁻¹: the written `>` holds though both are the same length | compare physical lengths | not executed | TransitionLine.GreaterAsWritten, TransitionLine.MixedUnitComparison | TransitionLine.Greater, TransitionLine.OrderingIsStrict |
| varconlib/conversions/conversions.py:66-74 | a quantity is converted to Å, and then the Å result is multiplied by the original unit | 500 nm gives about 4998.6 nm instead of about 499.86 nm | return the air length in the caller's units | not executed | Conversions.Vac2AirESOAsWritten, Conversions.Vac2AirESOCounterexample | Conversions.Vac2AirESO, Conversions.Vac2AirESOUnitMixUp |
| utils/obs2d.py:308-370 | `getPhotonFluxArray` divides the cached gain-corrected array by the blaze in place (`photon_flux_array /=`), and `getErrorArray` then builds its errors from that cache and divides by the blaze again | a pixel with gain-corrected flux 100 under blaze 4, after the constructor has written the flux HDU: error sqrt(25 + 144)/4 = 13/4 instead of sqrt(244)/4. Flux 0 under blaze 0 gives NaN | errors of the gain-corrected flux, divided by the blaze once | not executed | Obs2d.ErrorAfterPhotonFlux, Obs2d.ErrorsDividedTwice | Obs2d.GetErrorArray, Obs2d.ErrorEntryFinite |
| utils/obs2d.py:568 | `len(orders == 2)` takes the length of a boolean and raises TypeError | any wavelength inside the barycentric array that lies in the ranges of two orders, with `closest_only` | `len(orders) == 2` | not executed | Obs2d.FindWavelengthAsWritten, Obs2d.FindWavelengthTwoOrders | Obs2d.FindWavelength, Obs2d.FindWavelengthExtends |
| utils/obs2d.py:576-579 | the two-order branch returns a pixel index, the one FARTHER from pixel 2047.5 | index1 = 100, index2 = 2000 returns 100 | return the order whose pixel is closer to the centre | not executed | Obs2d.TwoOrderChoiceAsWritten, Obs2d.TwoOrderChoiceAsWrittenFarther | Obs2d.TwoOrderChoice, Obs2d.TwoOrderChoiceCloser |
| varconlib/scripts/analyze_fit_results.py:186-187 | the NaN branch formats `fits_pair.label`, but `fits_pair` is a list, which raises AttributeError | a pair whose first fit has a NaN velocity error, with both fits present | write "NaN" cells and continue | not executed | FitResults.PairCellsAsWritten, FitResults.NaNErrorRaises | FitResults.PairCells, FitResults.RowMatchesHeader |

=== FILE: air_vac_conversions.dfy ===
/** The older air/vacuum conversions (utils/air_vac_conversions.py). Its
    Edlén index and Morton formulas are the same text as the varconlib copy
    and are taken from `Conversions`; what differs is that `vac2airESO` works
    on bare numbers of angstroms, and that `air2vacESO` iterates with a
    tolerance of 1e-12, has no iteration cap, and rounds every result to two
    decimals.

    A loop without a cap need not stop, so the element loop is modelled with
    a step budget `fuel`: `None` means "still running after `fuel` steps".
    `SettleMoreFuel` shows the answer does not depend on the budget once the
    loop has stopped.
 */
module AirVacConversions {
  import opened Wrappers
  import opened Numerics
  import Conversions

  /** The loop tolerance of the older `air2vacESO`. */
  const OldTolerance: real := 0.000000000001

  /** Two decimal places, as the scale `RoundTo` takes. */
  const Hundredths: real := 100.0

  /** `vac2airESO(ll)`: `ll / air_indexEdlen53(ll)` on a number of angstroms.
      It agrees with the newer version given a float. */
  function Vac2AirESO(ll: real): (r: Result<real>)
    ensures r.Ok? <==> Conversions.Vac2AirESO(Conversions.FloatInput(ll)).Ok?
    ensures r.Ok? ==> Conversions.Vac2AirESO(Conversions.FloatInput(ll)).value == Conversions.FloatOutput(r.value)
    ensures r.Ok? ==> r.value * Conversions.AirIndexEdlen53(ll, Conversions.DefaultT, Conversions.DefaultP).value == ll
  {
    Conversions.Vac2AirAngstrom(ll)
  }

  /** Over the optical range the older vacuum-to-air conversion shortens the
      wavelength. */
  lemma Vac2AirESOShortens(ll: real)
    requires ll >= 1562.0
    ensures Vac2AirESO(ll).Ok? && 0.0 < Vac2AirESO(ll).value < ll
  {
    Conversions.AirBelowVacuum(ll);
  }

  // ----------------------------------------------------------- element loop

  /** The element loop of the older `air2vacESO`, run for at most `fuel`
      steps: the first iterate of `x -> a * n(x)` that passes the exit test
      `|old - new| <= 1e-12`, before rounding. */
  function Settle(a: real, index: real -> real, fuel: nat): (r: Option<real>)
  {
    match Conversions.Search(a, Conversions.Step(a, index), OldTolerance, fuel)
    case Ok(v) => Some(v)
    case Raise(_) => None
  }

  /** A search that has found its iterate finds the same one with any larger
      step budget. */
  lemma SearchMoreFuel(a: real, next: real -> real, tol: real, fuel: nat, more: nat)
    requires Conversions.Search(a, next, tol, fuel).Ok? && fuel <= more
    ensures Conversions.Search(a, next, tol, more) == Conversions.Search(a, next, tol, fuel)
  {
    var k := Conversions.FirstConverged(a, next, tol, Conversions.NoSteps(), fuel).value;
    Conversions.FirstConvergedSpec(a, next, tol, Conversions.NoSteps(), fuel);
    Conversions.FirstConvergedIs(a, next, tol, Conversions.NoSteps(), more, k);
  }

  /** Once the loop has stopped, a larger budget gives the same answer: the
      budget only says how long the model waits, not what the loop computes. */
  lemma SettleMoreFuel(a: real, index: real -> real, fuel: nat, more: nat)
    requires Settle(a, index, fuel).Some? && fuel <= more
    ensures Settle(a, index, more) == Settle(a, index, fuel)
  {
    SearchMoreFuel(a, Conversions.Step(a, index), OldTolerance, fuel, more);
  }

  /** The loop stops within `fuel` steps exactly when one of the first
      `fuel + 1` iterates passes the exit test. */
  lemma SettleStops(a: real, index: real -> real, fuel: nat)
    ensures Settle(a, index, fuel).Some? <==>
      exists j :: 0 <= j <= fuel && Conversions.Converged(a, Conversions.Step(a, index), OldTolerance, j)
  {
    Conversions.SearchFails(a, Conversions.Step(a, index), OldTolerance, fuel);
  }

  /** What the loop stops at is the air wavelength itself when that is within
      the tolerance of 0, and otherwise a tolerance-close fixed point of
      `x -> a * index(x)`. */
  lemma SettleFixedPoint(a: real, index: real -> real, fuel: nat)
    requires Settle(a, index, fuel).Some?
    ensures Abs(a) <= OldTolerance ==> Settle(a, index, fuel).value == a
    ensures Abs(a) > OldTolerance ==>
      Conversions.NearFixedPoint(Settle(a, index, fuel).value, Conversions.Step(a, index), OldTolerance)
  {
    Conversions.SearchFixedPoint(a, Conversions.Step(a, index), OldTolerance, fuel);
  }

  /** The older loop's exit test is the stricter one: whenever it stops within
      100 steps, the newer capped loop (tolerance 2e-12) succeeds too. */
  lemma NewerSucceedsWhenOlderStops(a: real, index: real -> real)
    requires Settle(a, index, Conversions.MaxIterations).Some?
    ensures Conversions.Air2VacElement(a, index).Ok?
  {
    var next := Conversions.Step(a, index);
    var k := Conversions.FirstConverged(a, next, OldTolerance, Conversions.NoSteps(), Conversions.StepCap()).value;
    Conversions.FirstConvergedSpec(a, next, OldTolerance, Conversions.NoSteps(), Conversions.StepCap());
    assert Conversions.Converged(a, next, Conversions.Tolerance, k);
    Conversions.Air2VacElementFails(a, index);
  }

  /** With the Edlén index the older loop, too, ends above an optical air
      wavelength whenever it stops. */
  lemma SettleEdlenLengthens(a: real, fuel: nat)
    requires a >= 1562.0 && Settle(a, Conversions.EdlenIndex, fuel).Some?
    ensures Settle(a, Conversions.EdlenIndex, fuel).value > a
  {
    Conversions.EdlenStepAbove(a);
    Conversions.SearchAbove(a, Conversions.Step(a, Conversions.EdlenIndex), OldTolerance, fuel);
  }

  // ------------------------------------------------------------- air2vacESO

  /** `air2vacESO(air_arr)` with every element's loop given `fuel` steps: one
      output per input, in input order, each the loop result rounded to two
      decimals (`round(newwl, 2)`). `None` when some element's loop has not
      stopped within the budget. */
  function Air2VacESO(xs: seq<real>, index: real -> real, fuel: nat): (r: Option<seq<real>>)
    ensures r.Some? ==> |r.value| == |xs|
  {
    if |xs| == 0 then Some([])
    else
      var head :- Settle(xs[0], index, fuel);
      var tail :- Air2VacESO(xs[1..], index, fuel);
      Some([RoundTo(head, Hundredths)] + tail)
  }

  /** The list conversion finishes exactly when every element's loop does. */
  lemma {:induction false} Air2VacESOStops(xs: seq<real>, index: real -> real, fuel: nat)
    ensures Air2VacESO(xs, index, fuel).Some? <==>
      forall i :: 0 <= i < |xs| ==> Settle(xs[i], index, fuel).Some?
  {
    if |xs| > 0 {
      var rest := xs[1..];
      Air2VacESOStops(rest, index, fuel);
      assert forall j :: 0 <= j < |rest| ==> rest[j] == xs[j + 1];
    }
  }

  /** Output `i` is the rounded loop result of input `i`. */
  lemma {:induction false} Air2VacESOElement(xs: seq<real>, index: real -> real, fuel: nat, i: int)
    requires Air2VacESO(xs, index, fuel).Some? && 0 <= i < |xs|
    ensures Settle(xs[i], index, fuel).Some?
    ensures Air2VacESO(xs, index, fuel).value[i] == RoundTo(Settle(xs[i], index, fuel).value, Hundredths)
  {
    var t := Air2VacESO(xs[1..], index, fuel);
    assert Settle(xs[0], index, fuel).Some? && t.Some?;
    assert Air2VacESO(xs, index, fuel).value
        == [RoundTo(Settle(xs[0], index, fuel).value, Hundredths)] + t.value;
    if i > 0 {
      Air2VacESOElement(xs[1..], index, fuel, i - 1);
      assert xs[1..][i - 1] == xs[i];
    }
  }

  /** Each output is within half a hundredth of its loop result and is a whole
      number of hundredths. */
  lemma Air2VacESORounded(xs: seq<real>, index: real -> real, fuel: nat, i: int)
    requires Air2VacESO(xs, index, fuel).Some? && 0 <= i < |xs|
    ensures Settle(xs[i], index, fuel).Some?
    ensures Abs(Settle(xs[i], index, fuel).value - Air2VacESO(xs, index, fuel).value[i]) * Hundredths <= 0.5
    ensures (Air2VacESO(xs, index, fuel).value[i] * Hundredths).Floor as real
         == Air2VacESO(xs, index, fuel).value[i] * Hundredths
  {
    Air2VacESOElement(xs, index, fuel, i);
    RoundToNearest(Settle(xs[i], index, fuel).value, Hundredths);
  }
}

=== FILE: conversions.dfy ===
/** Air/vacuum wavelength conversion (varconlib/conversions/conversions.py):
    the Edlén (1953) refractive index of air, vacuum-to-air division by that
    index, the air-to-vacuum fixed-point iteration with its tolerance and
    iteration cap, and the Morton (2000) closed forms. Wavelengths given to the
    formulas are in angstroms.

    The iteration is stated for any index function `index: real -> real`;
    the Edlén index is one such function away from its poles.
 */
module Conversions {
  import opened Wrappers
  import opened Numerics
  import opened Units

  // ------------------------------------------------------------ Edlén index

  /** `(1e4 / l)^2`, the squared wavenumber in inverse micrometres. */
  function S2(l: real): (r: real)
    requires l != 0.0
    ensures r >= 0.0 && r * l * l == 100000000.0
  {
    var s := 10000.0 / l;
    assert s * l == 10000.0;
    s * s
  }

  /** The temperature and pressure factor of the Edlén formula. */
  function EdlenScale(t: real, p: real): real
    requires 1.0 + 0.003661 * t != 0.0
  {
    0.000001 * p * (1.0 + (1.049 - 0.0157 * t) * 0.000001 * p) / 720.883 / (1.0 + 0.003661 * t)
  }

  /** The dispersion term of the Edlén formula. */
  function EdlenDispersion(s2: real): real
    requires s2 != 146.0 && s2 != 41.0
  {
    64.328 + 29498.1 / (146.0 - s2) + 255.4 / (41.0 - s2)
  }

  /** Where the Edlén formula divides by zero: Python float division then
      raises `ZeroDivisionError`. */
  predicate EdlenPole(l: real, t: real) {
    1.0 + 0.003661 * t == 0.0 || l == 0.0 || S2(l) == 146.0 || S2(l) == 41.0
  }

  /** `air_indexEdlen53(l, t, p)`: one plus the scale times the dispersion. The
      same formula is copied in utils/air_vac_conversions.py. */
  function AirIndexEdlen53(l: real, t: real, p: real): (r: Result<real>)
    ensures r.Raise? <==> EdlenPole(l, t)
    ensures r.Raise? ==> r.error == ZeroDivisionError
    ensures r.Ok? ==> r.value - 1.0 == EdlenScale(t, p) * EdlenDispersion(S2(l))
  {
    if EdlenPole(l, t) then Raise(ZeroDivisionError)
    else Ok(EdlenScale(t, p) * EdlenDispersion(S2(l)) + 1.0)
  }

  /** The default temperature (degrees Celsius) and pressure (mmHg). */
  const DefaultT: real := 15.0
  const DefaultP: real := 760.0

  /** At the default temperature and pressure the scale is positive. */
  lemma DefaultScalePositive()
    ensures 1.0 + 0.003661 * DefaultT != 0.0 && EdlenScale(DefaultT, DefaultP) > 0.0
  {
  }

  /** Whenever the squared wavenumber is below 41 the dispersion is positive. */
  lemma DispersionPositive(s2: real)
    requires 0.0 <= s2 < 41.0
    ensures EdlenDispersion(s2) > 0.0
  {
    assert 29498.1 / (146.0 - s2) > 0.0;
    assert 255.4 / (41.0 - s2) > 0.0;
  }

  /** Every wavelength of at least 1562 angstroms has a squared wavenumber
      below 41, so the whole optical range is clear of both poles. */
  lemma OpticalBelowPole(l: real)
    requires l >= 1562.0
    ensures S2(l) < 41.0
  {
    var s := 10000.0 / l;
    assert s * l == 10000.0;
    assert s > 0.0;
    assert (6.403 - s) * l == 6.403 * l - 10000.0;
    assert 6.403 * l >= 6.403 * 1562.0;
    assert (6.403 - s) * l > 0.0;
    assert 6.403 - s > 0.0;
    assert s * s < 6.403 * s < 6.403 * 6.403;
  }

  /** At the defaults, air is optically denser than vacuum over the optical
      range: the Edlén index exceeds one. */
  lemma EdlenAboveOne(l: real)
    requires l >= 1562.0
    ensures AirIndexEdlen53(l, DefaultT, DefaultP).Ok?
    ensures AirIndexEdlen53(l, DefaultT, DefaultP).value > 1.0
  {
    OpticalBelowPole(l);
    DefaultScalePositive();
    DispersionPositive(S2(l));
    var k := EdlenScale(DefaultT, DefaultP);
    var d := EdlenDispersion(S2(l));
    assert k * d > 0.0;
  }

  // ------------------------------------------------------------ vac2airESO

  /** The argument of `vac2airESO`: a unit-carrying quantity, a float (taken to
      be in angstroms), or anything else (e.g. a Python `int`). */
  datatype WavelengthInput = QuantityInput(q: Length) | FloatInput(x: real) | OtherInput(y: real)

  /** Its result: a quantity, or a float for a float argument. */
  datatype WavelengthOutput = QuantityOutput(q: Length) | FloatOutput(x: real)

  /** The number in angstroms the formula is applied to. */
  function InputAngstroms(w: WavelengthInput): real {
    match w
    case QuantityInput(q) => q.InAngstrom()
    case FloatInput(x) => x
    case OtherInput(y) => y
  }

  /** `vac2airESO` as written: a quantity is converted to angstroms, the air
      wavelength is computed as a bare number, and that number is multiplied
      by the ORIGINAL units. A float stays a float; any other argument
      leaves `original_units` unbound (`UnboundLocalError`) once the formula
      has been evaluated. */
  function Vac2AirESOAsWritten(w: WavelengthInput): (r: Result<WavelengthOutput>)
    ensures r.Ok? <==> !w.OtherInput? && Vac2AirAngstrom(InputAngstroms(w)).Ok?
    ensures r.Ok? && w.QuantityInput? ==>
      r.value == QuantityOutput(Length(Vac2AirAngstrom(InputAngstroms(w)).value, w.q.unit))
  {
    var air :- Vac2AirAngstrom(InputAngstroms(w));
    match w
    case QuantityInput(q) => Ok(QuantityOutput(Length(air, q.unit)))
    case FloatInput(_) => Ok(FloatOutput(air))
    case OtherInput(_) => Raise(UnboundLocalError)
  }

  /** `ll / air_indexEdlen53(ll)` on a number of angstroms. */
  function Vac2AirAngstrom(ll: real): (r: Result<real>)
    ensures r.Ok? <==> AirIndexEdlen53(ll, DefaultT, DefaultP).Ok? && AirIndexEdlen53(ll, DefaultT, DefaultP).value != 0.0
    ensures r.Raise? ==> r.error == ZeroDivisionError
    ensures r.Ok? ==> r.value * AirIndexEdlen53(ll, DefaultT, DefaultP).value == ll
  {
    var n :- AirIndexEdlen53(ll, DefaultT, DefaultP);
    if n == 0.0 then Raise(ZeroDivisionError) else Ok(ll / n)
  }

  /** `vac2airESO` as intended: the air wavelength is a length in angstroms,
      returned in the caller's units. */
  function Vac2AirESO(w: WavelengthInput): (r: Result<WavelengthOutput>)
    ensures r.Ok? <==> !w.OtherInput? && Vac2AirAngstrom(InputAngstroms(w)).Ok?
    ensures r.Ok? && w.QuantityInput? ==>
      r.value.QuantityOutput? && r.value.q.unit == w.q.unit
      && r.value.q.InAngstrom() == Vac2AirAngstrom(InputAngstroms(w)).value
    ensures r.Ok? && w.FloatInput? ==> r.value == FloatOutput(Vac2AirAngstrom(w.x).value)
  {
    var air :- Vac2AirAngstrom(InputAngstroms(w));
    match w
    case QuantityInput(q) => Ok(QuantityOutput(Length(air, Angstrom).To(q.unit)))
    case FloatInput(_) => Ok(FloatOutput(air))
    case OtherInput(_) => Raise(UnboundLocalError)
  }

  /** The written version returns a length `AngstromsPer(unit)` times the
      correct one whenever the argument is a quantity: ten times too long for
      nanometres, and exactly right only for angstroms. */
  lemma Vac2AirESOUnitMixUp(q: Length)
    requires Vac2AirAngstrom(q.InAngstrom()).Ok?
    ensures var asWritten := Vac2AirESOAsWritten(QuantityInput(q)).value.q;
            var intended := Vac2AirESO(QuantityInput(q)).value.q;
            asWritten.InAngstrom() == intended.InAngstrom() * AngstromsPer(q.unit)
            && (q.unit == Angstrom ==> asWritten == intended)
  {
    var intended := Vac2AirESO(QuantityInput(q)).value.q;
    if q.unit == Angstrom {
      assert intended == Length(Vac2AirAngstrom(q.InAngstrom()).value, Angstrom);
    }
  }

  /** A concrete instance: 500 nm. The written version answers about 4998.6 nm,
      the intended one about 499.86 nm. */
  lemma Vac2AirESOCounterexample()
    ensures var q := Length(500.0, Nanometre);
            Vac2AirAngstrom(q.InAngstrom()).Ok?
            && Vac2AirESOAsWritten(QuantityInput(q)).value.q.value > 4000.0
            && Vac2AirESO(QuantityInput(q)).value.q.value < 500.0
  {
    var q := Length(500.0, Nanometre);
    EdlenAboveOne(5000.0);
    var n := AirIndexEdlen53(5000.0, DefaultT, DefaultP).value;
    AirBelowVacuum(5000.0);
    var air := Vac2AirAngstrom(5000.0).value;
    assert air * n == 5000.0;
    assert n < 1.001 by { EdlenBelow(5000.0); }
    assert air > 4000.0;
  }

  /** Near 5000 angstroms the index is below 1.001. */
  lemma EdlenBelow(l: real)
    requires l == 5000.0
    ensures AirIndexEdlen53(l, DefaultT, DefaultP).Ok?
    ensures AirIndexEdlen53(l, DefaultT, DefaultP).value < 1.001
  {
    assert S2(l) == 4.0;
  }

  /** At the defaults and over the optical range, the air wavelength is
      strictly shorter than the vacuum one. */
  lemma AirBelowVacuum(ll: real)
    requires ll >= 1562.0
    ensures Vac2AirAngstrom(ll).Ok? && 0.0 < Vac2AirAngstrom(ll).value < ll
  {
    EdlenAboveOne(ll);
    var n := AirIndexEdlen53(ll, DefaultT, DefaultP).value;
    var air := Vac2AirAngstrom(ll).value;
    assert air * n == ll;
    assert air > 0.0;
    assert air * n > air * 1.0;
  }

  // ------------------------------------------------------------ air2vacESO

  /** The tolerance and the iteration cap of `air2vacESO`. */
  const Tolerance: real := 0.000000000002
  const MaxIterations: nat := 100

  /** One step of the loop for air wavelength `a`: `x -> a * n(x)`. */
  function Step(a: real, index: real -> real): (next: real -> real)
    ensures forall x :: next(x) == a * index(x)
  {
    x => a * index(x)
  }

  /** The `k`-th iterate from the air wavelength `a` under the step `next`. */
  function Iterate(a: real, next: real -> real, k: nat): real {
    if k == 0 then a else next(Iterate(a, next, k - 1))
  }

  /** The value `old_wavelength` holds next to the `k`-th iterate: 0 at the
      start, then the iterate before. */
  function Previous(a: real, next: real -> real, k: nat): real {
    if k == 0 then 0.0 else Iterate(a, next, k - 1)
  }

  /** The loop's exit test holds after `k` steps. */
  predicate Converged(a: real, next: real -> real, tol: real, k: nat) {
    Abs(Previous(a, next, k) - Iterate(a, next, k)) <= tol
  }

  /** The first step count in `k..cap` whose iterate passes the exit test. */
  function FirstConverged(a: real, next: real -> real, tol: real, k: nat, cap: nat): (r: Option<nat>)
    ensures r.Some? ==> k <= r.value <= cap
    decreases cap + 1 - k
  {
    if k > cap then None
    else if Converged(a, next, tol, k) then Some(k)
    else FirstConverged(a, next, tol, k + 1, cap)
  }

  /** What `FirstConverged` finds is the first step in range that passes the
      exit test, and it finds nothing only when no step in range does. */
  lemma {:induction false} FirstConvergedSpec(a: real, next: real -> real, tol: real, k: nat, cap: nat)
    ensures var r := FirstConverged(a, next, tol, k, cap);
      r.Some? ==> Converged(a, next, tol, r.value) && forall j :: k <= j < r.value ==> !Converged(a, next, tol, j)
    ensures var r := FirstConverged(a, next, tol, k, cap);
      r.None? ==> forall j :: k <= j <= cap ==> !Converged(a, next, tol, j)
    decreases cap + 1 - k
  {
    if k <= cap && !Converged(a, next, tol, k) {
      FirstConvergedSpec(a, next, tol, k + 1, cap);
    }
  }

  /** The first converged step, when found, is what `FirstConverged` returns. */
  lemma {:induction false} FirstConvergedIs(a: real, next: real -> real, tol: real, k: nat, cap: nat, m: nat)
    requires k <= m <= cap && Converged(a, next, tol, m)
    requires forall j :: k <= j < m ==> !Converged(a, next, tol, j)
    ensures FirstConverged(a, next, tol, k, cap) == Some(m)
    decreases m - k
  {
    if k < m {
      FirstConvergedIs(a, next, tol, k + 1, cap, m);
    }
  }

  /** The bounds of the step search, as functions rather than literals so
      that the verifier does not unfold the search one step at a time. */
  function NoSteps(): nat { 0 }
  function StepCap(): nat { MaxIterations }

  /** The first iterate from `a` under `next` that passes the exit test within
      `cap` steps, else `RuntimeError`. */
  function Search(a: real, next: real -> real, tol: real, cap: nat): (r: Result<real>)
    ensures r.Raise? ==> r.error == RuntimeError
  {
    match FirstConverged(a, next, tol, NoSteps(), cap)
    case Some(k) => Ok(Iterate(a, next, k))
    case None => Raise(RuntimeError)
  }

  /** The search fails exactly when none of the first `cap + 1` iterates passes
      the exit test. */
  lemma SearchFails(a: real, next: real -> real, tol: real, cap: nat)
    ensures Search(a, next, tol, cap).Raise? <==> forall j :: 0 <= j <= cap ==> !Converged(a, next, tol, j)
  {
    FirstConvergedSpec(a, next, tol, NoSteps(), cap);
  }

  /** What the search returns is `a` itself when `a` already passes the exit
      test, and otherwise a tolerance-close fixed point of `next`. */
  lemma SearchFixedPoint(a: real, next: real -> real, tol: real, cap: nat)
    requires Search(a, next, tol, cap).Ok?
    ensures Abs(a) <= tol ==> Search(a, next, tol, cap).value == a
    ensures Abs(a) > tol ==> NearFixedPoint(Search(a, next, tol, cap).value, next, tol)
  {
    var k := FirstConverged(a, next, tol, NoSteps(), cap).value;
    FirstConvergedSpec(a, next, tol, NoSteps(), cap);
    assert Abs(Previous(a, next, 0) - Iterate(a, next, 0)) == Abs(a);
    if Abs(a) > tol {
      Witness(Iterate(a, next, k), next, tol, Previous(a, next, k));
    }
  }

  /** `v` is the image under `next` of some `x` within `tol` of `v`: a fixed
      point of `next` up to the tolerance. */
  ghost predicate NearFixedPoint(v: real, next: real -> real, tol: real) {
    exists x: real :: v == next(x) && Abs(x - v) <= tol
  }

  /** A concrete `x` shows `NearFixedPoint`. */
  lemma Witness(v: real, next: real -> real, tol: real, x: real)
    requires v == next(x) && Abs(x - v) <= tol
    ensures NearFixedPoint(v, next, tol)
  {
  }

  /** One element of `air2vacESO`: the first iterate of `x -> a * n(x)` that
      passes the exit test within 100 steps, else `RuntimeError`. */
  function Air2VacElement(a: real, index: real -> real): (r: Result<real>)
    ensures r.Raise? ==> r.error == RuntimeError
  {
    Search(a, Step(a, index), Tolerance, StepCap())
  }

  /** The element conversion fails exactly when none of the first 101 iterates
      (the air wavelength and 100 steps) passes the exit test. */
  lemma Air2VacElementFails(a: real, index: real -> real)
    ensures Air2VacElement(a, index).Raise? <==>
      forall j :: 0 <= j <= MaxIterations ==> !Converged(a, Step(a, index), Tolerance, j)
  {
    SearchFails(a, Step(a, index), Tolerance, StepCap());
  }

  /** When the loop ran at least once, the result is a tolerance-close fixed
      point of `x -> a * index(x)`; when the air wavelength itself is within
      the tolerance of 0 it is returned unchanged. */
  lemma Air2VacElementFixedPoint(a: real, index: real -> real)
    requires Air2VacElement(a, index).Ok?
    ensures Abs(a) <= Tolerance ==> Air2VacElement(a, index).value == a
    ensures Abs(a) > Tolerance ==> NearFixedPoint(Air2VacElement(a, index).value, Step(a, index), Tolerance)
  {
    SearchFixedPoint(a, Step(a, index), Tolerance, StepCap());
  }

  /** The per-element loop of `air2vacESO`: `old` starts at 0 and `new` at the
      air wavelength; each step sets `old := new` and `new := a * n(old)`,
      and a step count above 100 raises `RuntimeError` even if that step
      converged. */
  method Air2VacLoop(a: real, index: real -> real) returns (r: Result<real>)
    ensures r == Air2VacElement(a, index)
  {
    ghost var next := Step(a, index);
    var newW := a;
    var oldW := 0.0;
    var iterations: nat := 0;
    while Abs(oldW - newW) > Tolerance
      invariant iterations <= MaxIterations
      invariant newW == Iterate(a, next, iterations) && oldW == Previous(a, next, iterations)
      invariant forall j :: 0 <= j < iterations ==> !Converged(a, next, Tolerance, j)
      decreases MaxIterations - iterations
    {
      oldW := newW;
      newW := a * index(newW);
      iterations := iterations + 1;
      if iterations > MaxIterations {
        assert forall j :: 0 <= j <= MaxIterations ==> !Converged(a, next, Tolerance, j);
        Air2VacElementFails(a, index);
        return Raise(RuntimeError);
      }
    }
    FirstConvergedIs(a, next, Tolerance, NoSteps(), StepCap(), iterations);
    r := Ok(newW);
  }

  /** The index `air2vacESO` iterates with: `air_indexEdlen53` at its default
      temperature and pressure. At the poles of the formula this reads 0,
      where numpy would give an infinity; the lemmas below never reach them. */
  function EdlenIndex(x: real): real {
    match AirIndexEdlen53(x, DefaultT, DefaultP)
    case Ok(n) => n
    case Raise(_) => 0.0
  }

  /** When a step takes every value from `a` up strictly above `a`, every
      iterate from `a` stays at or above it, strictly after the first step. */
  lemma {:induction false} IteratesAbove(a: real, next: real -> real, k: nat)
    requires forall x :: x >= a ==> next(x) > a
    ensures Iterate(a, next, k) >= a
    ensures k > 0 ==> Iterate(a, next, k) > a
  {
    if k > 0 {
      IteratesAbove(a, next, k - 1);
    }
  }

  /** Scaling by an index above one lengthens a positive wavelength. */
  lemma ScaleAboveOne(a: real, n: real, y: real)
    requires a > 0.0 && n > 1.0 && y == a * n
    ensures y > a
  {
  }

  /** With the Edlén index, each step of the loop for an optical air
      wavelength lands above it, clear of the index's poles. */
  lemma EdlenStepAbove(a: real)
    requires a >= 1562.0
    ensures forall x :: x >= a ==> Step(a, EdlenIndex)(x) > a
  {
    var next := Step(a, EdlenIndex);
    forall x | x >= a
      ensures next(x) > a
    {
      EdlenAboveOne(x);
      ScaleAboveOne(a, EdlenIndex(x), next(x));
    }
  }

  /** The loop of `air2vacESO` with the Edlén index, for an air wavelength in
      the optical range: the index is defined at every iterate, and a
      converged vacuum wavelength is longer than the air wavelength (the
      first iterate, the air wavelength itself, never passes the exit test,
      since the loop starts from 0). */
  lemma Air2VacEdlenLengthens(a: real)
    requires a >= 1562.0
    ensures forall k: nat :: AirIndexEdlen53(Iterate(a, Step(a, EdlenIndex), k), DefaultT, DefaultP).Ok?
    ensures Air2VacElement(a, EdlenIndex).Ok? ==> Air2VacElement(a, EdlenIndex).value > a
  {
    var next := Step(a, EdlenIndex);
    EdlenStepAbove(a);
    forall k: nat
      ensures AirIndexEdlen53(Iterate(a, next, k), DefaultT, DefaultP).Ok?
    {
      IteratesAbove(a, next, k);
      EdlenAboveOne(Iterate(a, next, k));
    }
    if Air2VacElement(a, EdlenIndex).Ok? {
      SearchAbove(a, next, Tolerance, StepCap());
    }
  }

  /** A search from a positive `a` beyond the tolerance, under a step that
      takes every value from `a` up strictly above `a`, ends above `a`. */
  lemma SearchAbove(a: real, next: real -> real, tol: real, cap: nat)
    requires a > tol >= 0.0
    requires forall x :: x >= a ==> next(x) > a
    requires Search(a, next, tol, cap).Ok?
    ensures Search(a, next, tol, cap).value > a
  {
    var k := FirstConverged(a, next, tol, NoSteps(), cap).value;
    FirstConvergedSpec(a, next, tol, NoSteps(), cap);
    assert Previous(a, next, 0) == 0.0 && Iterate(a, next, 0) == a;
    assert k > 0;
    IteratesAbove(a, next, k);
  }

  /** The shapes `air2vacESO` distinguishes: a 0-d quantity, a 1-d array, and
      a 2-d array stored row by row. */
  datatype Shape = Scalar | OneD(n: nat) | TwoD(rows: nat, cols: nat)

  function Size(s: Shape): nat {
    match s
    case Scalar => 1
    case OneD(n) => n
    case TwoD(r, c) => r * c
  }

  /** A unit-carrying array of wavelengths, flattened in row order. */
  datatype LengthArray = LengthArray(shape: Shape, values: seq<real>, unit: LengthUnit)

  predicate WellShaped(a: LengthArray) {
    |a.values| == Size(a.shape)
  }

  /** The element loop applied to every value of a flat list in unit `u`:
      each value is read in angstroms, converted, and expressed in `u`
      again. The first element whose loop fails makes the whole call fail. */
  function ConvertAll(vs: seq<real>, u: LengthUnit, index: real -> real): (r: Result<seq<real>>)
    ensures r.Ok? ==> |r.value| == |vs|
    ensures r.Raise? ==> r.error == RuntimeError
  {
    if |vs| == 0 then Ok([])
    else
      var head :- Air2VacElement(Length(vs[0], u).InAngstrom(), index);
      var tail :- ConvertAll(vs[1..], u, index);
      Ok([Length(head, Angstrom).To(u).value] + tail)
  }

  /** The list conversion succeeds exactly when every element's loop does. */
  lemma {:induction false} ConvertAllSucceeds(vs: seq<real>, u: LengthUnit, index: real -> real)
    ensures ConvertAll(vs, u, index).Ok? <==>
      forall i :: 0 <= i < |vs| ==> Air2VacElement(Length(vs[i], u).InAngstrom(), index).Ok?
  {
    if |vs| > 0 {
      var rest := vs[1..];
      ConvertAllSucceeds(rest, u, index);
      assert forall j :: 0 <= j < |rest| ==> rest[j] == vs[j + 1];
    }
  }

  /** Each converted value, read in angstroms, is its element's loop result. */
  lemma {:induction false} ConvertAllElement(vs: seq<real>, u: LengthUnit, index: real -> real, i: int)
    requires ConvertAll(vs, u, index).Ok? && 0 <= i < |vs|
    ensures Air2VacElement(Length(vs[i], u).InAngstrom(), index).Ok?
    ensures Length(ConvertAll(vs, u, index).value[i], u).InAngstrom()
         == Air2VacElement(Length(vs[i], u).InAngstrom(), index).value
  {
    var h := Air2VacElement(Length(vs[0], u).InAngstrom(), index);
    var t := ConvertAll(vs[1..], u, index);
    assert h.Ok? && t.Ok?;
    var back := Length(h.value, Angstrom).To(u);
    assert ConvertAll(vs, u, index).value == [back.value] + t.value;
    if i > 0 {
      ConvertAllElement(vs[1..], u, index, i - 1);
      assert vs[1..][i - 1] == vs[i];
    } else {
      assert Length(back.value, u) == back;
    }
  }

  /** `air2vacESO`: the array (flattened if 2-d) is converted to angstroms,
      each element goes through the loop, and the result is reshaped and
      returned in the original units. A 0-d quantity has no length, so
      `len()` raises `TypeError`. */
  function Air2VacESO(arr: LengthArray, index: real -> real): (r: Result<LengthArray>)
    requires WellShaped(arr)
    ensures arr.shape.Scalar? ==> r == Raise(TypeError)
    ensures r.Raise? && !arr.shape.Scalar? ==> r.error == RuntimeError
    ensures r.Ok? ==> WellShaped(r.value) && r.value.shape == arr.shape && r.value.unit == arr.unit
  {
    if arr.shape.Scalar? then Raise(TypeError)
    else
      var out :- ConvertAll(arr.values, arr.unit, index);
      Ok(LengthArray(arr.shape, out, arr.unit))
  }

  /** `air2vacESO` on a 1-d or 2-d array: it succeeds exactly when the
      element loop of every element, in angstroms, succeeds. */
  lemma Air2VacESOSucceeds(arr: LengthArray, index: real -> real)
    requires WellShaped(arr) && !arr.shape.Scalar?
    ensures Air2VacESO(arr, index).Ok? <==>
      forall i :: 0 <= i < |arr.values| ==> Air2VacElement(Length(arr.values[i], arr.unit).InAngstrom(), index).Ok?
  {
    ConvertAllSucceeds(arr.values, arr.unit, index);
  }

  /** Each output element of `air2vacESO`, read in angstroms, is the vacuum
      wavelength of the matching input element read in angstroms. */
  lemma Air2VacESOElement(arr: LengthArray, index: real -> real, i: int)
    requires WellShaped(arr) && Air2VacESO(arr, index).Ok? && 0 <= i < |arr.values|
    ensures Air2VacElement(Length(arr.values[i], arr.unit).InAngstrom(), index).Ok?
    ensures Length(Air2VacESO(arr, index).value.values[i], arr.unit).InAngstrom()
         == Air2VacElement(Length(arr.values[i], arr.unit).InAngstrom(), index).value
  {
    ConvertAllElement(arr.values, arr.unit, index, i);
  }

  // --------------------------------------------------------- Morton formulas

  /** The refractive index of `vac2airMorton00` at squared wavenumber `s2`. */
  function MortonIndex(s2: real): real
    requires s2 != 130.0 && s2 != 38.9
  {
    1.0 + 0.0000834254 + 0.02406147 / (130.0 - s2) + 0.00015998 / (38.9 - s2)
  }

  /** The refractive index of `air2vacMortonIAU` at squared wavenumber `s2`. */
  function MortonIAUIndex(s2: real): real
    requires s2 != 130.1065924522 && s2 != 38.92568793293
  {
    1.0 + 0.00008336624212083 + 0.02408926869968 / (130.1065924522 - s2)
      + 0.0001599740894897 / (38.92568793293 - s2)
  }

  /** `vac2airMorton00`: the vacuum wavelength divided by the Morton index. */
  function Vac2AirMorton00(w: real): (r: Result<real>)
    ensures r.Raise? ==> r.error == ZeroDivisionError
    ensures r.Ok? <==> w != 0.0 && S2(w) != 130.0 && S2(w) != 38.9 && MortonIndex(S2(w)) != 0.0
    ensures r.Ok? ==> r.value * MortonIndex(S2(w)) == w
  {
    if w == 0.0 then Raise(ZeroDivisionError)
    else
      var s2 := S2(w);
      if s2 == 130.0 || s2 == 38.9 then Raise(ZeroDivisionError)
      else
        var n := MortonIndex(s2);
        if n == 0.0 then Raise(ZeroDivisionError) else Ok(w / n)
  }

  /** `air2vacMortonIAU`: the air wavelength times the IAU index. */
  function Air2VacMortonIAU(w: real): (r: Result<real>)
    ensures r.Raise? ==> r.error == ZeroDivisionError
    ensures r.Ok? <==> w != 0.0 && S2(w) != 130.1065924522 && S2(w) != 38.92568793293
    ensures r.Ok? ==> r.value == w * MortonIAUIndex(S2(w))
  {
    if w == 0.0 then Raise(ZeroDivisionError)
    else
      var s2 := S2(w);
      if s2 == 130.1065924522 || s2 == 38.92568793293 then Raise(ZeroDivisionError)
      else Ok(w * MortonIAUIndex(s2))
  }

  /** Every wavelength of at least 1604 angstroms has a squared wavenumber
      below 38.9, clear of the poles of both Morton indices. */
  lemma BelowMortonPoles(l: real)
    requires l >= 1604.0
    ensures S2(l) < 38.88
  {
    var s := 10000.0 / l;
    assert s * l == 10000.0;
    assert s > 0.0;
    assert (6.235 - s) * l == 6.235 * l - 10000.0;
    assert 6.235 * l >= 6.235 * 1604.0;
    assert (6.235 - s) * l > 0.0;
    assert 6.235 - s > 0.0;
    assert s * s < 6.235 * s < 6.235 * 6.235;
  }

  /** From 1604 angstroms up, the Morton vacuum-to-air conversion shortens
      and the IAU air-to-vacuum conversion lengthens a wavelength. */
  lemma MortonDirections(w: real)
    requires w >= 1604.0
    ensures Vac2AirMorton00(w).Ok? && 0.0 < Vac2AirMorton00(w).value < w
    ensures Air2VacMortonIAU(w).Ok? && Air2VacMortonIAU(w).value > w
  {
    BelowMortonPoles(w);
    var s2 := S2(w);
    assert 0.02406147 / (130.0 - s2) > 0.0;
    assert 0.00015998 / (38.9 - s2) > 0.0;
    var n := MortonIndex(s2);
    assert n > 1.0;
    var r := Vac2AirMorton00(w).value;
    assert r * n == w;
    assert r > 0.0;
    assert r * n > r * 1.0;
    assert 0.02408926869968 / (130.1065924522 - s2) > 0.0;
    assert 0.0001599740894897 / (38.92568793293 - s2) > 0.0;
    assert MortonIAUIndex(s2) > 1.0;
    assert w * MortonIAUIndex(s2) > w * 1.0;
  }
}

=== FILE: elements.dfy ===
/** The fixed tables of utils/transition_line.py: atomic numbers 1..92 to
    chemical symbols, and ionisation states 1..10 to Roman numerals. Both are
    bidirectional dictionaries in the source; here each direction is a
    function and the round-trip lemmas show the two directions are inverse.
 */
module Elements {
  import opened Wrappers

  /** The `elements` table: atomic numbers 1..92 to chemical symbols, looked
      up one period of the periodic table at a time. */
  function ElementSymbol(n: int): (s: string)
    requires 1 <= n <= 92
  {
    if n <= 2 then Period1Symbol(n)
    else if n <= 10 then Period2Symbol(n)
    else if n <= 18 then Period3Symbol(n)
    else if n <= 36 then Period4Symbol(n)
    else if n <= 54 then Period5Symbol(n)
    else if n <= 86 then Period6Symbol(n)
    else Period7Symbol(n)
  }

  function Period1Symbol(n: int): string
    requires 1 <= n <= 2
  {
    match n
    case 1 => "H"
    case 2 => "He"
  }

  function Period2Symbol(n: int): string
    requires 3 <= n <= 10
  {
    match n
    case 3 => "Li"
    case 4 => "Be"
    case 5 => "B"
    case 6 => "C"
    case 7 => "N"
    case 8 => "O"
    case 9 => "F"
    case 10 => "Ne"
  }

  function Period3Symbol(n: int): string
    requires 11 <= n <= 18
  {
    match n
    case 11 => "Na"
    case 12 => "Mg"
    case 13 => "Al"
    case 14 => "Si"
    case 15 => "P"
    case 16 => "S"
    case 17 => "Cl"
    case 18 => "Ar"
  }

  function Period4Symbol(n: int): string
    requires 19 <= n <= 36
  {
    match n
    case 19 => "K"
    case 20 => "Ca"
    case 21 => "Sc"
    case 22 => "Ti"
    case 23 => "V"
    case 24 => "Cr"
    case 25 => "Mn"
    case 26 => "Fe"
    case 27 => "Co"
    case 28 => "Ni"
    case 29 => "Cu"
    case 30 => "Zn"
    case 31 => "Ga"
    case 32 => "Ge"
    case 33 => "As"
    case 34 => "Se"
    case 35 => "Br"
    case 36 => "Kr"
  }

  function Period5Symbol(n: int): string
    requires 37 <= n <= 54
  {
    match n
    case 37 => "Rb"
    case 38 => "Sr"
    case 39 => "Y"
    case 40 => "Zr"
    case 41 => "Nb"
    case 42 => "Mo"
    case 43 => "Tc"
    case 44 => "Ru"
    case 45 => "Rh"
    case 46 => "Pd"
    case 47 => "Ag"
    case 48 => "Cd"
    case 49 => "In"
    case 50 => "Sn"
    case 51 => "Sb"
    case 52 => "Te"
    case 53 => "I"
    case 54 => "Xe"
  }

  function Period6Symbol(n: int): string
    requires 55 <= n <= 86
  {
    match n
    case 55 => "Cs"
    case 56 => "Ba"
    case 57 => "La"
    case 58 => "Ce"
    case 59 => "Pr"
    case 60 => "Nd"
    case 61 => "Pm"
    case 62 => "Sm"
    case 63 => "Eu"
    case 64 => "Gd"
    case 65 => "Tb"
    case 66 => "Dy"
    case 67 => "Ho"
    case 68 => "Er"
    case 69 => "Tm"
    case 70 => "Yb"
    case 71 => "Lu"
    case 72 => "Hf"
    case 73 => "Ta"
    case 74 => "W"
    case 75 => "Re"
    case 76 => "Os"
    case 77 => "Ir"
    case 78 => "Pt"
    case 79 => "Au"
    case 80 => "Hg"
    case 81 => "Tl"
    case 82 => "Pb"
    case 83 => "Bi"
    case 84 => "Po"
    case 85 => "At"
    case 86 => "Rn"
  }

  function Period7Symbol(n: int): string
    requires 87 <= n <= 92
  {
    match n
    case 87 => "Fr"
    case 88 => "Ra"
    case 89 => "Ac"
    case 90 => "Th"
    case 91 => "Pa"
    case 92 => "U"
  }

  /** The inverse direction of `elements`, looked up by the characters of the
      symbol. Text that is not one of the 92 symbols is absent (`KeyError`). */
  function ElementNumber(s: string): (r: Option<int>)
  {
    if |s| == 1 then
      match s[0]
      case 'H' => Some(1)
      case 'B' => Some(5)
      case 'C' => Some(6)
      case 'N' => Some(7)
      case 'O' => Some(8)
      case 'F' => Some(9)
      case 'P' => Some(15)
      case 'S' => Some(16)
      case 'K' => Some(19)
      case 'V' => Some(23)
      case 'Y' => Some(39)
      case 'I' => Some(53)
      case 'W' => Some(74)
      case 'U' => Some(92)
      case _ => None
    else if |s| == 2 then
      match s[0]
      case 'A' => (match s[1] case 'l' => Some(13) case 'r' => Some(18) case 's' => Some(33) case 'g' => Some(47) case 'u' => Some(79) case 't' => Some(85) case 'c' => Some(89) case _ => None)
      case 'B' => (match s[1] case 'e' => Some(4) case 'r' => Some(35) case 'a' => Some(56) case 'i' => Some(83) case _ => None)
      case 'C' => (match s[1] case 'l' => Some(17) case 'a' => Some(20) case 'r' => Some(24) case 'o' => Some(27) case 'u' => Some(29) case 'd' => Some(48) case 's' => Some(55) case 'e' => Some(58) case _ => None)
      case 'D' => (match s[1] case 'y' => Some(66) case _ => None)
      case 'E' => (match s[1] case 'u' => Some(63) case 'r' => Some(68) case _ => None)
      case 'F' => (match s[1] case 'e' => Some(26) case 'r' => Some(87) case _ => None)
      case 'G' => (match s[1] case 'a' => Some(31) case 'e' => Some(32) case 'd' => Some(64) case _ => None)
      case 'H' => (match s[1] case 'e' => Some(2) case 'o' => Some(67) case 'f' => Some(72) case 'g' => Some(80) case _ => None)
      case 'I' => (match s[1] case 'n' => Some(49) case 'r' => Some(77) case _ => None)
      case 'K' => (match s[1] case 'r' => Some(36) case _ => None)
      case 'L' => (match s[1] case 'i' => Some(3) case 'a' => Some(57) case 'u' => Some(71) case _ => None)
      case 'M' => (match s[1] case 'g' => Some(12) case 'n' => Some(25) case 'o' => Some(42) case _ => None)
      case 'N' => (match s[1] case 'e' => Some(10) case 'a' => Some(11) case 'i' => Some(28) case 'b' => Some(41) case 'd' => Some(60) case _ => None)
      case 'O' => (match s[1] case 's' => Some(76) case _ => None)
      case 'P' => (match s[1] case 'd' => Some(46) case 'r' => Some(59) case 'm' => Some(61) case 't' => Some(78) case 'b' => Some(82) case 'o' => Some(84) case 'a' => Some(91) case _ => None)
      case 'R' => (match s[1] case 'b' => Some(37) case 'u' => Some(44) case 'h' => Some(45) case 'e' => Some(75) case 'n' => Some(86) case 'a' => Some(88) case _ => None)
      case 'S' => (match s[1] case 'i' => Some(14) case 'c' => Some(21) case 'e' => Some(34) case 'r' => Some(38) case 'n' => Some(50) case 'b' => Some(51) case 'm' => Some(62) case _ => None)
      case 'T' => (match s[1] case 'i' => Some(22) case 'c' => Some(43) case 'e' => Some(52) case 'b' => Some(65) case 'm' => Some(69) case 'a' => Some(73) case 'l' => Some(81) case 'h' => Some(90) case _ => None)
      case 'X' => (match s[1] case 'e' => Some(54) case _ => None)
      case 'Y' => (match s[1] case 'b' => Some(70) case _ => None)
      case 'Z' => (match s[1] case 'n' => Some(30) case 'r' => Some(40) case _ => None)
      case _ => None
    else
      None
  }


  /** Every atomic number in the table has a symbol that maps back to it. */
  lemma ElementSymbolRoundTrip(n: int)
    requires 1 <= n <= 92
    ensures ElementNumber(ElementSymbol(n)) == Some(n)
  {
    if n <= 2 {
      Period1RoundTrip(n);
    } else if n <= 10 {
      Period2RoundTrip(n);
    } else if n <= 18 {
      Period3RoundTrip(n);
    } else if n <= 36 {
      Period4RoundTrip(n);
    } else if n <= 54 {
      Period5RoundTrip(n);
    } else if n <= 86 {
      Period6RoundTrip(n);
    } else {
      Period7RoundTrip(n);
    }
  }

  lemma Period1RoundTrip(n: int)
    requires 1 <= n <= 2
    ensures ElementNumber(ElementSymbol(n)) == Some(n)
  {
    match n
    case 1 =>
    case 2 =>
  }

  lemma Period2RoundTrip(n: int)
    requires 3 <= n <= 10
    ensures ElementNumber(ElementSymbol(n)) == Some(n)
  {
    match n
    case 3 =>
    case 4 =>
    case 5 =>
    case 6 =>
    case 7 =>
    case 8 =>
    case 9 =>
    case 10 =>
  }

  lemma Period3RoundTrip(n: int)
    requires 11 <= n <= 18
    ensures ElementNumber(ElementSymbol(n)) == Some(n)
  {
    match n
    case 11 =>
    case 12 =>
    case 13 =>
    case 14 =>
    case 15 =>
    case 16 =>
    case 17 =>
    case 18 =>
  }

  lemma Period4RoundTrip(n: int)
    requires 19 <= n <= 36
    ensures ElementNumber(ElementSymbol(n)) == Some(n)
  {
    match n
    case 19 =>
    case 20 =>
    case 21 =>
    case 22 =>
    case 23 =>
    case 24 =>
    case 25 =>
    case 26 =>
    case 27 =>
    case 28 =>
    case 29 =>
    case 30 =>
    case 31 =>
    case 32 =>
    case 33 =>
    case 34 =>
    case 35 =>
    case 36 =>
  }

  lemma Period5RoundTrip(n: int)
    requires 37 <= n <= 54
    ensures ElementNumber(ElementSymbol(n)) == Some(n)
  {
    match n
    case 37 =>
    case 38 =>
    case 39 =>
    case 40 =>
    case 41 =>
    case 42 =>
    case 43 =>
    case 44 =>
    case 45 =>
    case 46 =>
    case 47 =>
    case 48 =>
    case 49 =>
    case 50 =>
    case 51 =>
    case 52 =>
    case 53 =>
    case 54 =>
  }

  lemma Period6RoundTrip(n: int)
    requires 55 <= n <= 86
    ensures ElementNumber(ElementSymbol(n)) == Some(n)
  {
    match n
    case 55 =>
    case 56 =>
    case 57 =>
    case 58 =>
    case 59 =>
    case 60 =>
    case 61 =>
    case 62 =>
    case 63 =>
    case 64 =>
    case 65 =>
    case 66 =>
    case 67 =>
    case 68 =>
    case 69 =>
    case 70 =>
    case 71 =>
    case 72 =>
    case 73 =>
    case 74 =>
    case 75 =>
    case 76 =>
    case 77 =>
    case 78 =>
    case 79 =>
    case 80 =>
    case 81 =>
    case 82 =>
    case 83 =>
    case 84 =>
    case 85 =>
    case 86 =>
  }

  lemma Period7RoundTrip(n: int)
    requires 87 <= n <= 92
    ensures ElementNumber(ElementSymbol(n)) == Some(n)
  {
    match n
    case 87 =>
    case 88 =>
    case 89 =>
    case 90 =>
    case 91 =>
    case 92 =>
  }

  /** Every symbol the inverse table knows comes from the forward table, so the
      two directions form a bijection between 1..92 and the 92 symbols. */
  lemma ElementNumberRoundTrip(s: string)
    requires ElementNumber(s).Some?
    ensures 1 <= ElementNumber(s).value <= 92
    ensures ElementSymbol(ElementNumber(s).value) == s
  {
    if |s| == 1 {
      OneLetterRoundTrip(s);
    } else {
      TwoLetterRoundTrip(s);
    }
  }

  lemma OneLetterRoundTrip(s: string)
    requires |s| == 1 && ElementNumber(s).Some?
    ensures 1 <= ElementNumber(s).value <= 92
    ensures ElementSymbol(ElementNumber(s).value) == s
  {
  }

  lemma TwoLetterRoundTrip(s: string)
    requires |s| == 2 && ElementNumber(s).Some?
    ensures 1 <= ElementNumber(s).value <= 92
    ensures ElementSymbol(ElementNumber(s).value) == s
  {
    assert s == [s[0], s[1]];
    match s[0]
    case 'A' =>
    case 'B' =>
    case 'C' =>
    case 'D' =>
    case 'E' =>
    case 'F' =>
    case 'G' =>
    case 'H' =>
    case 'I' =>
    case 'K' =>
    case 'L' =>
    case 'M' =>
    case 'N' =>
    case 'O' =>
    case 'P' =>
    case 'R' =>
    case 'S' =>
    case 'T' =>
    case 'X' =>
    case 'Y' =>
    case 'Z' =>
    case _ =>
  }

  /** The `roman_numerals` table: ionisation states 1..10 to 'I'..'X'. */
  function RomanNumeral(k: int): string
    requires 1 <= k <= 10
  {
    match k
    case 1 => "I"
    case 2 => "II"
    case 3 => "III"
    case 4 => "IV"
    case 5 => "V"
    case 6 => "VI"
    case 7 => "VII"
    case 8 => "VIII"
    case 9 => "IX"
    case 10 => "X"
  }

  /** The inverse direction of `roman_numerals` (exact text, no case folding). */
  function RomanValue(s: string): Option<int> {
    if s == "I" then Some(1)
    else if s == "II" then Some(2)
    else if s == "III" then Some(3)
    else if s == "IV" then Some(4)
    else if s == "V" then Some(5)
    else if s == "VI" then Some(6)
    else if s == "VII" then Some(7)
    else if s == "VIII" then Some(8)
    else if s == "IX" then Some(9)
    else if s == "X" then Some(10)
    else None
  }

  lemma RomanNumeralRoundTrip(k: int)
    requires 1 <= k <= 10
    ensures RomanValue(RomanNumeral(k)) == Some(k)
  {
    match k
    case 1 =>
    case 2 =>
    case 3 =>
    case 4 =>
    case 5 =>
    case 6 =>
    case 7 =>
    case 8 =>
    case 9 =>
    case 10 =>
  }

  lemma RomanValueRoundTrip(s: string)
    requires RomanValue(s).Some?
    ensures 1 <= RomanValue(s).value <= 10
    ensures RomanNumeral(RomanValue(s).value) == s
  {
  }
}

=== FILE: fit_results.dfy ===
/** The pure parts of the fit-results script
    (varconlib/scripts/analyze_fit_results.py): the observation name taken
    from a file name, the per-observation CSV row of pair separations built
    in lock-step with its header, the statistics of one pair's offsets across
    observations, and the date folding used for the seasonal plot.

    The row as written raises `AttributeError` whenever a fit has a NaN
    velocity error; `ObservationRow` is the row the code evidently means
    (placeholder cells, as for a missing fit), and `PairCellsAsWritten` keeps
    the written behaviour for comparison.
 */
module FitResults {
  import opened Wrappers
  import opened Numerics
  import opened ScriptCommon
  import Miscellaneous
  import Obs2d

  // -------------------------------------------------------- observation name

  const NamePrefix: string := "HARPS"
  const NameSuffix: string := "_e2ds_A"

  /** `HARPS.*_e2ds_A` matches `stem[..e]`: the prefix, then characters other
      than a newline (what `.` matches), then the suffix. */
  predicate MatchEnd(stem: string, e: int) {
    |NamePrefix| + |NameSuffix| <= e <= |stem|
    && stem[..|NamePrefix|] == NamePrefix
    && stem[e - |NameSuffix|..e] == NameSuffix
    && '\n' !in stem[|NamePrefix|..e - |NameSuffix|]
  }

  /** The largest match end at or below `e`. */
  function LongestMatchEnd(stem: string, e: nat): (r: Option<nat>)
    requires e <= |stem|
    ensures r.Some? ==> MatchEnd(stem, r.value) && r.value <= e
    ensures r.Some? ==> forall f :: r.value < f <= e ==> !MatchEnd(stem, f)
    ensures r.None? ==> forall f :: 0 <= f <= e ==> !MatchEnd(stem, f)
    decreases e
  {
    if MatchEnd(stem, e) then Some(e)
    else if e == 0 then None
    else LongestMatchEnd(stem, e - 1)
  }

  /** `obs_name_re.match(stem).group()`: the match is anchored at the start
      and `.*` is greedy, so it is the longest matching prefix; without a
      match, `.group()` is called on `None` and raises `AttributeError`. */
  function ObservationName(stem: string): (r: Result<string>)
    ensures r.Ok? <==> exists e :: MatchEnd(stem, e)
    ensures r.Raise? ==> r.error == AttributeError
    ensures r.Ok? ==> exists e :: (MatchEnd(stem, e) && r.value == stem[..e]
      && forall f :: MatchEnd(stem, f) ==> f <= e)
  {
    match LongestMatchEnd(stem, |stem|)
    case None => Raise(AttributeError)
    case Some(e) => Ok(stem[..e])
  }

  /** The name of a file `HARPS…_e2ds_A` followed by an extension without
      '_' (such as `.fits`) is everything up to the extension. */
  lemma ObservationNameOfFile(middle: string, extension: string)
    requires '\n' !in middle && '_' !in extension
    ensures ObservationName(NamePrefix + middle + NameSuffix + extension) == Ok(NamePrefix + middle + NameSuffix)
  {
    var stem := NamePrefix + middle + NameSuffix + extension;
    var e := |NamePrefix + middle + NameSuffix|;
    assert stem[..e] == NamePrefix + middle + NameSuffix;
    assert stem[..|NamePrefix|] == NamePrefix;
    assert stem[e - |NameSuffix|..e] == NameSuffix;
    assert stem[|NamePrefix|..e - |NameSuffix|] == middle;
    assert MatchEnd(stem, e);
    forall f | e < f <= |stem|
      ensures !MatchEnd(stem, f)
    {
      SuffixNotLater(middle, extension, f);
    }
  }

  /** The suffix cannot end past the first one when the extension has no
      '_': a later window either starts in the extension, or inside the
      suffix where it would read `_A…` or a letter for the leading '_'. */
  lemma SuffixNotLater(middle: string, extension: string, f: int)
    requires '_' !in extension
    requires |NamePrefix + middle + NameSuffix| < f <= |NamePrefix + middle + NameSuffix + extension|
    ensures (NamePrefix + middle + NameSuffix + extension)[f - |NameSuffix|..f] != NameSuffix
  {
    var stem := NamePrefix + middle + NameSuffix + extension;
    var e := |NamePrefix + middle + NameSuffix|;
    var c := f - |NameSuffix|;
    var window := stem[c..f];
    if c >= e {
      assert window[0] == extension[c - e];
      assert window[0] != NameSuffix[0];
    } else if c == e - 2 {
      assert window[1] == NameSuffix[6];
      assert window[1] != NameSuffix[1];
    } else {
      assert window[0] == NameSuffix[c - (e - |NameSuffix|)];
      assert window[0] != NameSuffix[0];
    }
  }

  // ------------------------------------------------------------ the CSV row

  /** A transition fit as far as the row uses it: the fitted wavelength and
      the velocity error of the mean, `None` when that is NaN. */
  datatype Fit = Fit(mean: real, meanErrVel: Option<real>)

  /** A pair: its label and the labels of its higher- and lower-energy
      transitions. */
  datatype PairNames = PairNames(name: string, higher: string, lower: string)

  /** Fitted line wavelengths are positive. */
  predicate PositiveMeans(fits: map<string, Fit>) {
    forall t :: t in fits ==> fits[t].mean > 0.0
  }

  /** Both transitions of the pair were fitted. */
  predicate Fitted(p: PairNames, fits: map<string, Fit>) {
    p.higher in fits && p.lower in fits
  }

  /** Both fits have a velocity error (not NaN). */
  predicate Measurable(p: PairNames, fits: map<string, Fit>) {
    Fitted(p, fits) && fits[p.higher].meanErrVel.Some? && fits[p.lower].meanErrVel.Some?
  }

  const Missing: seq<Cell> := [TextCell("N/A"), TextCell(" N/A")]
  const NaNCells: seq<Cell> := [TextCell("NaN"), TextCell(" NaN")]

  /** The two cells of one pair: placeholders when a fit is missing or has a
      NaN error, else the velocity separation of the two fitted wavelengths
      and the two velocity errors added in quadrature. */
  function PairCells(p: PairNames, fits: map<string, Fit>, sqrt: real -> real): (cells: seq<Cell>)
    requires IsSquareRoot(sqrt) && PositiveMeans(fits)
    ensures |cells| == 2
    ensures cells == Missing <==> !Fitted(p, fits)
    ensures cells == NaNCells <==> Fitted(p, fits) && !Measurable(p, fits)
    ensures Measurable(p, fits) ==>
      var e1, e2 := fits[p.higher].meanErrVel.value, fits[p.lower].meanErrVel.value;
      && cells[0].RealCell? && cells[1].RealCell?
      && cells[0].x * (fits[p.higher].mean + fits[p.lower].mean)
         == 2.0 * Miscellaneous.C * (fits[p.lower].mean - fits[p.higher].mean)
      && cells[1].x >= 0.0 && cells[1].x * cells[1].x == e1 * e1 + e2 * e2
  {
    if !Fitted(p, fits) then Missing
    else if !Measurable(p, fits) then NaNCells
    else
      var h, l := fits[p.higher], fits[p.lower];
      var e1, e2 := h.meanErrVel.value, l.meanErrVel.value;
      assert e1 * e1 >= 0.0 && e2 * e2 >= 0.0;
      assert h.mean + l.mean > 0.0;
      [RealCell(Miscellaneous.Wavelength2Velocity(h.mean, l.mean).v), RealCell(sqrt(e1 * e1 + e2 * e2))]
  }

  /** The same two cells as the code writes them: a NaN error reaches a log
      line that reads `.label` from the list of the two fits, which raises
      `AttributeError` before the placeholders are added. */
  function PairCellsAsWritten(p: PairNames, fits: map<string, Fit>, sqrt: real -> real): (r: Result<seq<Cell>>)
    requires IsSquareRoot(sqrt) && PositiveMeans(fits)
    ensures r.Raise? <==> Fitted(p, fits) && !Measurable(p, fits)
    ensures r.Raise? ==> r.error == AttributeError
    ensures r.Ok? ==> r.value == PairCells(p, fits, sqrt)
  {
    if Fitted(p, fits) && !Measurable(p, fits) then Raise(AttributeError) else Ok(PairCells(p, fits, sqrt))
  }

  /** One fit with a NaN velocity error is enough: the written code raises
      where the placeholders were meant to go. */
  lemma NaNErrorRaises(sqrt: real -> real)
    requires IsSquareRoot(sqrt)
    ensures var fits := map["5571.164Fe1" := Fit(5571.164, None), "5577.637Fe1" := Fit(5577.637, Some(1.0))];
      var p := PairNames("5571.164Fe1_5577.637Fe1", "5571.164Fe1", "5577.637Fe1");
      && PositiveMeans(fits)
      && PairCellsAsWritten(p, fits, sqrt) == Raise(AttributeError)
      && PairCells(p, fits, sqrt) == NaNCells
  {
  }

  /** The header: two leading columns, then a value and an error column per
      pair. */
  function ColumnNames(pairs: seq<PairNames>): seq<string>
    decreases |pairs|
  {
    if |pairs| == 0 then ["Observation", "Time"]
    else
      var p := pairs[|pairs| - 1];
      ColumnNames(pairs[..|pairs| - 1]) + [p.name, p.name + "_err"]
  }

  /** The blocks one after another. */
  function Concat<T>(blocks: seq<seq<T>>): seq<T>
    decreases |blocks|
  {
    if |blocks| == 0 then [] else Concat(blocks[..|blocks| - 1]) + blocks[|blocks| - 1]
  }

  /** Blocks of two lie at even offsets. */
  lemma {:induction false} ConcatPairs<T>(blocks: seq<seq<T>>)
    requires forall j :: 0 <= j < |blocks| ==> |blocks[j]| == 2
    ensures |Concat(blocks)| == 2 * |blocks|
    ensures forall j :: 0 <= j < |blocks| ==> Concat(blocks)[2 * j..2 * j + 2] == blocks[j]
    decreases |blocks|
  {
    if |blocks| > 0 {
      var front := blocks[..|blocks| - 1];
      ConcatPairs(front);
      forall j | 0 <= j < |blocks|
        ensures Concat(blocks)[2 * j..2 * j + 2] == blocks[j]
      {
        if j < |blocks| - 1 {
          assert blocks[j] == front[j];
          assert Concat(blocks)[2 * j..2 * j + 2] == Concat(front)[2 * j..2 * j + 2];
        }
      }
    }
  }

  /** The two cells of each pair, in order. */
  function PairBlocks(pairs: seq<PairNames>, fits: map<string, Fit>, sqrt: real -> real): (blocks: seq<seq<Cell>>)
    requires IsSquareRoot(sqrt) && PositiveMeans(fits)
    ensures |blocks| == |pairs|
    ensures forall j :: 0 <= j < |pairs| ==> blocks[j] == PairCells(pairs[j], fits, sqrt) && |blocks[j]| == 2
  {
    seq(|pairs|, j requires 0 <= j < |pairs| => PairCells(pairs[j], fits, sqrt))
  }

  /** Two leading cells and blocks of two: block `j` sits at `2 + 2 * j`. */
  lemma RowBlocks<T>(head: seq<T>, blocks: seq<seq<T>>)
    requires |head| == 2 && forall j :: 0 <= j < |blocks| ==> |blocks[j]| == 2
    ensures |head + Concat(blocks)| == 2 + 2 * |blocks|
    ensures forall j :: 0 <= j < |blocks| ==> (head + Concat(blocks))[2 + 2 * j..4 + 2 * j] == blocks[j]
  {
    ConcatPairs(blocks);
    forall j | 0 <= j < |blocks|
      ensures (head + Concat(blocks))[2 + 2 * j..4 + 2 * j] == blocks[j]
    {
      assert (head + Concat(blocks))[2 + 2 * j..4 + 2 * j] == Concat(blocks)[2 * j..2 * j + 2];
    }
  }

  /** The row of one observation: its name, its time, and two cells per
      pair. */
  function ObservationRow(obsName: string, time: string, pairs: seq<PairNames>, fits: map<string, Fit>,
                          sqrt: real -> real): seq<Cell>
    requires IsSquareRoot(sqrt) && PositiveMeans(fits)
  {
    [TextCell(obsName), TextCell(time)] + Concat(PairBlocks(pairs, fits, sqrt))
  }

  /** Two leading columns, then pair `j`'s label and label + `_err` at
      columns `2 + 2 * j` and `3 + 2 * j`. */
  lemma {:induction false} ColumnNamesSpec(pairs: seq<PairNames>)
    ensures |ColumnNames(pairs)| == 2 + 2 * |pairs|
    ensures ColumnNames(pairs)[..2] == ["Observation", "Time"]
    ensures forall j :: 0 <= j < |pairs| ==>
      ColumnNames(pairs)[2 + 2 * j] == pairs[j].name && ColumnNames(pairs)[3 + 2 * j] == pairs[j].name + "_err"
    decreases |pairs|
  {
    if |pairs| > 0 {
      var front := pairs[..|pairs| - 1];
      ColumnNamesSpec(front);
      var names, names' := ColumnNames(pairs), ColumnNames(front);
      forall j | 0 <= j < |pairs|
        ensures names[2 + 2 * j] == pairs[j].name && names[3 + 2 * j] == pairs[j].name + "_err"
      {
        if j < |pairs| - 1 {
          assert pairs[j] == front[j];
          assert names[2 + 2 * j] == names'[2 + 2 * j] && names[3 + 2 * j] == names'[3 + 2 * j];
        }
      }
    }
  }

  /** Header and row stay in lock-step: both have `2 + 2 * len(pairs)`
      entries, and the two columns of pair `j` are its label and label +
      `_err` over exactly that pair's two cells. */
  lemma RowMatchesHeader(obsName: string, time: string, pairs: seq<PairNames>,
                         fits: map<string, Fit>, sqrt: real -> real)
    requires IsSquareRoot(sqrt) && PositiveMeans(fits)
    ensures |ColumnNames(pairs)| == |ObservationRow(obsName, time, pairs, fits, sqrt)| == 2 + 2 * |pairs|
    ensures forall j :: 0 <= j < |pairs| ==>
      && ColumnNames(pairs)[2 + 2 * j] == pairs[j].name
      && ColumnNames(pairs)[3 + 2 * j] == pairs[j].name + "_err"
      && ObservationRow(obsName, time, pairs, fits, sqrt)[2 + 2 * j..4 + 2 * j] == PairCells(pairs[j], fits, sqrt)
  {
    ColumnNamesSpec(pairs);
    RowBlocks([TextCell(obsName), TextCell(time)], PairBlocks(pairs, fits, sqrt));
  }

  /** The pairs kept for the plots (`pairs_dict`): each measurable pair
      under its label, with its higher- and lower-energy fits. */
  function KeptPairs(pairs: seq<PairNames>, fits: map<string, Fit>): map<string, (Fit, Fit)>
    decreases |pairs|
  {
    if |pairs| == 0 then map[]
    else
      var p := pairs[|pairs| - 1];
      var front := KeptPairs(pairs[..|pairs| - 1], fits);
      if Measurable(p, fits) then front[p.name := (fits[p.higher], fits[p.lower])] else front
  }

  /** A label is kept exactly when some pair with that label is measurable,
      and what is kept are two fits with velocity errors. */
  lemma {:induction false} KeptPairsSpec(pairs: seq<PairNames>, fits: map<string, Fit>)
    ensures forall key :: key in KeptPairs(pairs, fits) <==>
      exists j :: 0 <= j < |pairs| && pairs[j].name == key && Measurable(pairs[j], fits)
    ensures forall key :: key in KeptPairs(pairs, fits) ==>
      KeptPairs(pairs, fits)[key].0.meanErrVel.Some? && KeptPairs(pairs, fits)[key].1.meanErrVel.Some?
    decreases |pairs|
  {
    if |pairs| > 0 {
      var front := pairs[..|pairs| - 1];
      KeptPairsSpec(front, fits);
      forall key
        ensures key in KeptPairs(pairs, fits) <==>
          exists j :: 0 <= j < |pairs| && pairs[j].name == key && Measurable(pairs[j], fits)
      {
        if exists j :: 0 <= j < |front| && front[j].name == key && Measurable(front[j], fits) {
          var j :| 0 <= j < |front| && front[j].name == key && Measurable(front[j], fits);
          assert pairs[j] == front[j];
        }
        if exists j :: 0 <= j < |pairs| && pairs[j].name == key && Measurable(pairs[j], fits) {
          var j :| 0 <= j < |pairs| && pairs[j].name == key && Measurable(pairs[j], fits);
          if j < |pairs| - 1 {
            assert front[j] == pairs[j];
          }
        }
      }
    }
  }

  /** The check before writing the file: the first row must exist (else
      `IndexError`) and be as long as the header (else `AssertionError`). */
  function RowCheck(rows: seq<seq<Cell>>, header: seq<string>): (r: Result<()>)
    ensures r.Ok? <==> |rows| > 0 && |rows[0]| == |header|
    ensures r.Raise? ==> (r.error == IndexError <==> |rows| == 0)
  {
    if |rows| == 0 then Raise(IndexError)
    else if |rows[0]| != |header| then Raise(AssertionError)
    else Ok(())
  }

  /** With at least one observation the check passes. */
  lemma RowCheckPasses(obsName: string, time: string, pairs: seq<PairNames>, fits: map<string, Fit>,
                       sqrt: real -> real, others: seq<seq<Cell>>)
    requires IsSquareRoot(sqrt) && PositiveMeans(fits)
    ensures RowCheck([ObservationRow(obsName, time, pairs, fits, sqrt)] + others, ColumnNames(pairs)).Ok?
  {
    RowMatchesHeader(obsName, time, pairs, fits, sqrt);
  }

  // ---------------------------------------------------- one pair's statistics

  /** The statistics of one pair over the observations: the weighted mean of
      the offsets, its error `1 / sqrt(sum(weights))`, χ² of the offsets
      about the mean, and χ²_ν = χ² / (n - 1), which is infinite or NaN for
      a single observation. */
  datatype PairStats = PairStats(weightedMean: real, weightedMeanErr: real, chiSquared: real,
                                 chiSquaredNu: Quotient)

  lemma WeightsPositive(es: seq<real>)
    requires NonZero(es)
    ensures forall i :: 0 <= i < |es| ==> Squares(es)[i] > 0.0
    ensures AllPositive(InverseOf(Squares(es)))
  {
    var vs := Squares(es);
    forall i | 0 <= i < |es|
      ensures vs[i] > 0.0
    {
      SquarePositive(es[i], vs[i]);
    }
    var ws := InverseOf(vs);
    forall i | 0 <= i < |ws|
      ensures ws[i] > 0.0
    {
      InversePositive(ws[i], vs[i]);
    }
  }

  /** The weights `1 / error**2`. */
  function Weights(es: seq<real>): (ws: seq<real>)
    requires NonZero(es)
    ensures |ws| == |es| && AllPositive(ws)
    ensures forall i :: 0 <= i < |es| ==> ws[i] * (es[i] * es[i]) == 1.0
  {
    WeightsPositive(es);
    InverseOf(Squares(es))
  }

  /** Each observation's term `((x - mean) / error)**2`. */
  function ChiTerms(xs: seq<real>, es: seq<real>, mean: real): (ts: seq<real>)
    requires |xs| == |es| && NonZero(es)
    ensures |ts| == |xs|
    ensures forall i :: 0 <= i < |xs| ==> ts[i] >= 0.0 && ts[i] * es[i] * es[i] == (xs[i] - mean) * (xs[i] - mean)
  {
    seq(|xs|, i requires 0 <= i < |xs| => Squares([(xs[i] - mean) / es[i]])[0])
  }

  lemma {:induction false} SumNonNegative(ts: seq<real>)
    requires forall i :: 0 <= i < |ts| ==> ts[i] >= 0.0
    ensures Sum(ts) >= 0.0
    decreases |ts|
  {
    if |ts| > 0 {
      SumNonNegative(ts[..|ts| - 1]);
    }
  }

  /** The error of a weighted mean: one over the root of the weight sum. */
  lemma InverseRoot(s: real, sqrt: real -> real)
    requires IsSquareRoot(sqrt) && s > 0.0
    ensures sqrt(s) > 0.0 && 1.0 / sqrt(s) > 0.0
    ensures (1.0 / sqrt(s)) * (1.0 / sqrt(s)) * s == 1.0
  {
    var r := sqrt(s);
    assert r * r == s;
    assert r != 0.0;
    var e := 1.0 / r;
    assert e * r == 1.0;
    assert e * e * s == (e * r) * (e * r);
  }

  /** `err` is the error of a weighted mean whose weights sum to
      `weightSum`: positive, with `err**2 == 1 / weightSum`. */
  predicate IsMeanError(err: real, weightSum: real) {
    err > 0.0 && err * err * weightSum == 1.0
  }

  /** `q` is `x / d` over a nonzero whole denominator `d`. */
  predicate IsRatio(q: Quotient, x: real, d: nat) {
    q.Finite? && q.v * d as real == x
  }

  /** `1 / sqrt(sum(weights))`. */
  function MeanError(weightSum: real, sqrt: real -> real): (err: real)
    requires IsSquareRoot(sqrt) && weightSum > 0.0
    ensures IsMeanError(err, weightSum)
  {
    InverseRoot(weightSum, sqrt);
    1.0 / sqrt(weightSum)
  }

  /** χ² over `n - 1` degrees of freedom. */
  function ReducedChiSquared(chi: real, n: nat): (q: Quotient)
    ensures q.Finite? <==> n != 1
    ensures n > 1 ==> IsRatio(q, chi, n - 1)
  {
    Divide(chi, (n - 1) as real)
  }

  /** The statistics of lines 279-295. There are no weights at all without
      observations, and the weighted average then raises
      `ZeroDivisionError`. */
  function PairStatistics(xs: seq<real>, es: seq<real>, sqrt: real -> real): (r: Result<PairStats>)
    requires |xs| == |es| && NonZero(es) && IsSquareRoot(sqrt)
    ensures r.Ok? <==> |xs| > 0
    ensures r.Raise? ==> r.error == ZeroDivisionError
    ensures r.Ok? ==> r.value.chiSquared >= 0.0 && IsMeanError(r.value.weightedMeanErr, Sum(Weights(es)))
    ensures r.Ok? ==> (r.value.chiSquaredNu.Finite? <==> |xs| > 1)
    ensures r.Ok? && |xs| > 1 ==> IsRatio(r.value.chiSquaredNu, r.value.chiSquared, |xs| - 1)
    // the mean is numpy's weighted average with weights 1 / e**2, and χ² sums the
    // squared normalised offsets from it
    ensures r.Ok? ==> WeightedAverage(xs, Weights(es)) == Ok(r.value.weightedMean)
    ensures r.Ok? ==> r.value.chiSquared == Sum(ChiTerms(xs, es, r.value.weightedMean))
  {
    var ws := Weights(es);
    if |xs| == 0 then Raise(ZeroDivisionError)
    else
      SumPositive(ws);
      var mean := WeightedAverage(xs, ws).value;
      var terms := ChiTerms(xs, es, mean);
      SumNonNegative(terms);
      var chi := Sum(terms);
      Ok(PairStats(mean, MeanError(Sum(ws), sqrt), chi, ReducedChiSquared(chi, |xs|)))
  }

  /** The weighted mean lies between any bounds of the offsets. */
  lemma PairStatisticsMeanBetween(xs: seq<real>, es: seq<real>, sqrt: real -> real, lo: real, hi: real)
    requires |xs| == |es| && NonZero(es) && IsSquareRoot(sqrt) && |xs| > 0
    requires forall i :: 0 <= i < |xs| ==> lo <= xs[i] <= hi
    ensures PairStatistics(xs, es, sqrt).Ok?
    ensures lo <= PairStatistics(xs, es, sqrt).value.weightedMean <= hi
  {
    WeightedAverageBetween(xs, Weights(es), lo, hi);
  }

  /** The weighted mean balances the offsets: the residuals from it, weighted
      by `1 / e**2`, sum to zero. */
  lemma PairStatisticsMeanBalances(xs: seq<real>, es: seq<real>, sqrt: real -> real)
    requires |xs| == |es| && NonZero(es) && IsSquareRoot(sqrt)
    requires PairStatistics(xs, es, sqrt).Ok?
    ensures WeightedSum(Shifted(xs, PairStatistics(xs, es, sqrt).value.weightedMean), Weights(es)) == 0.0
  {
    WeightedResidualsVanish(xs, Weights(es));
  }

  /** Offsets that all agree with their weighted mean give χ² = 0. */
  lemma {:induction false} ChiSquaredZeroWhenFlat(xs: seq<real>, es: seq<real>, mean: real)
    requires |xs| == |es| && NonZero(es)
    requires forall i :: 0 <= i < |xs| ==> xs[i] == mean
    ensures Sum(ChiTerms(xs, es, mean)) == 0.0
    decreases |xs|
  {
    if |xs| > 0 {
      var n := |xs| - 1;
      var ts := ChiTerms(xs, es, mean);
      ChiSquaredZeroWhenFlat(xs[..n], es[..n], mean);
      assert ts[..n] == ChiTerms(xs[..n], es[..n], mean);
      assert (xs[n] - mean) / es[n] == 0.0;
      assert ts[n] == 0.0;
    }
  }

  // -------------------------------------------------------------- date fold

  /** An observation date: calendar date and time of day in seconds. */
  datatype ObsDate = ObsDate(year: int, month: int, day: int, seconds: real)

  predicate LeapYear(y: int) {
    y % 4 == 0 && (y % 100 != 0 || y % 400 == 0)
  }

  function DaysInMonth(y: int, m: int): int
    requires 1 <= m <= 12
  {
    if m == 2 then (if LeapYear(y) then 29 else 28)
    else if m == 4 || m == 6 || m == 9 || m == 11 then 30
    else 31
  }

  predicate ValidDate(d: ObsDate) {
    1 <= d.month <= 12 && 1 <= d.day <= DaysInMonth(d.year, d.month)
  }

  /** `date.replace(year=2000)`, which raises `ValueError` when the day does
      not exist in the new year. */
  function FoldDate(d: ObsDate): (r: Result<ObsDate>)
    ensures r.Ok? ==> r.value.year == 2000 && ValidDate(r.value)
    ensures r.Ok? ==> r.value.month == d.month && r.value.day == d.day && r.value.seconds == d.seconds
  {
    var folded := d.(year := 2000);
    if ValidDate(folded) then Ok(folded) else Raise(ValueError)
  }

  /** 2000 is a leap year, so every valid date folds, 29 February included;
      folding twice is folding once. */
  lemma FoldDateTotal(d: ObsDate)
    requires ValidDate(d)
    ensures FoldDate(d).Ok?
    ensures FoldDate(FoldDate(d).value) == FoldDate(d)
  {
    assert LeapYear(2000);
  }
}

=== FILE: miscellaneous.dfy ===
/** The catch-all helpers of varconlib/miscellaneous/miscellaneous.py: the
    HARPS order-number table, the nearest-index search in a wavelength array,
    the "first later date" search, and the Doppler arithmetic relating
    wavelengths and velocities. Velocities are in metres per second;
    wavelengths are bare numbers in whatever length unit the caller uses, since
    every formula here depends only on their ratios.
 */
module Miscellaneous {
  import opened Wrappers
  import opened Numerics
  import Units

  /** The speed of light in vacuum, in metres per second. */
  const C: real := 299792458.0

  // ----------------------------------------------------------- order numbers

  /** The `order_numbers` table: ordinal 1..72 to HARPS echelle order number.
      Ordinals 1..46 are orders 161..116 (the blue chip), 47..72 are orders
      114..89 (the red chip); order 115 falls in the gap between the chips. */
  function OrderNumber(k: int): int
    requires 1 <= k <= 72
  {
    if k <= 46 then 162 - k else 161 - k
  }

  /** The inverse table `order_numbers.inv`: `None` for a number not in it. */
  function OrderOrdinal(o: int): (r: Option<int>)
    ensures r.Some? ==> 1 <= r.value <= 72
  {
    if 116 <= o <= 161 then Some(162 - o)
    else if 89 <= o <= 114 then Some(161 - o)
    else None
  }

  /** Reading the table forwards then backwards gives the ordinal back. */
  lemma OrderNumberRoundTrip(k: int)
    requires 1 <= k <= 72
    ensures OrderOrdinal(OrderNumber(k)) == Some(k)
  {
  }

  /** Every number the inverse table knows is an order of the forward table. */
  lemma OrderOrdinalRoundTrip(o: int)
    requires OrderOrdinal(o).Some?
    ensures OrderNumber(OrderOrdinal(o).value) == o
  {
  }

  /** The image of the table is exactly 89..161 without 115. */
  lemma OrderNumberRange(o: int)
    ensures OrderOrdinal(o).Some? <==> 89 <= o <= 161 && o != 115
  {
  }

  /** Order numbers strictly decrease with the ordinal, so the table is
      injective. */
  lemma OrderNumberDecreasing(j: int, k: int)
    requires 1 <= j < k <= 72
    ensures OrderNumber(j) > OrderNumber(k)
  {
  }

  // ------------------------------------------------------------- index search

  /** A wavelength argument: only a unit-carrying quantity passes the type
      assertion. */
  datatype WavelengthValue = Quantity(v: real) | NotQuantity

  /** `list.reverse()` as a value. */
  function Reversed<T>(a: seq<T>): (r: seq<T>)
    ensures |r| == |a|
    ensures forall i :: 0 <= i < |a| ==> r[i] == a[|a| - 1 - i]
  {
    seq(|a|, i requires 0 <= i < |a| => a[|a| - 1 - i])
  }

  /** Reversing twice restores the list. */
  lemma ReversedTwice<T>(a: seq<T>)
    ensures Reversed(Reversed(a)) == a
  {
  }

  /** `i` is the first index whose value is at least `x`. */
  predicate IsFirstAtLeast(a: seq<real>, x: real, i: int) {
    0 <= i < |a| && a[i] >= x && forall j :: 0 <= j < i ==> a[j] < x
  }

  /** Ascending order. */
  predicate Ascending(a: seq<real>) {
    forall i, j :: 0 <= i < j < |a| ==> a[i] <= a[j]
  }

  /** `wavelength2index`: the array is reversed first when asked (in the
      caller's list, so it is returned as `searched`); the wavelength must lie
      strictly between the first and last entries; then the first entry not
      below the wavelength is found and the index of it or of its predecessor
      is returned, whichever value is closer, the later one on a tie. */
  method Wavelength2Index(wl: WavelengthValue, arr: seq<real>, reverse: bool)
    returns (r: Result<int>, searched: seq<real>)
    ensures wl.NotQuantity? ==> r == Raise(AssertionError) && searched == arr
    ensures wl.Quantity? ==> searched == if reverse then Reversed(arr) else arr
    ensures wl.Quantity? && |searched| == 0 ==> r == Raise(IndexError)
    ensures r.Ok? <==> wl.Quantity? && |searched| > 0 && searched[0] < wl.v < searched[|searched| - 1]
    ensures r.Raise? && wl.Quantity? && |searched| > 0 ==> r.error == RuntimeError
    ensures r.Ok? ==> exists i ::
      1 <= i < |searched| && IsFirstAtLeast(searched, wl.v, i)
      && (r.value == i - 1 <==> Abs(searched[i] - wl.v) > Abs(wl.v - searched[i - 1]))
      && (r.value == i - 1 || r.value == i)
  {
    if wl.NotQuantity? {
      return Raise(AssertionError), arr;
    }
    var x := wl.v;
    searched := if reverse then Reversed(arr) else arr;
    if |searched| == 0 {
      return Raise(IndexError), searched;
    }
    if !(searched[0] < x < searched[|searched| - 1]) {
      return Raise(RuntimeError), searched;
    }
    var i := 0;
    while searched[i] < x
      invariant 0 <= i < |searched|
      invariant forall j :: 0 <= j < i ==> searched[j] < x
      decreases |searched| - i
    {
      i := i + 1;
    }
    assert IsFirstAtLeast(searched, x, i);
    if Abs(searched[i] - x) > Abs(x - searched[i - 1]) {
      r := Ok(i - 1);
    } else {
      r := Ok(i);
    }
  }

  /** On an ascending array, the index the search picks holds a value at least
      as close to `x` as any other entry. */
  lemma NearestInAscending(a: seq<real>, x: real, i: int, k: int)
    requires Ascending(a) && 1 <= i < |a| && IsFirstAtLeast(a, x, i)
    requires k == if Abs(a[i] - x) > Abs(x - a[i - 1]) then i - 1 else i
    ensures forall j :: 0 <= j < |a| ==> Abs(a[k] - x) <= Abs(a[j] - x)
  {
    forall j | 0 <= j < |a|
      ensures Abs(a[k] - x) <= Abs(a[j] - x)
    {
      if j < i {
        assert a[j] <= a[i - 1] < x;
      } else {
        assert x <= a[i] <= a[j];
      }
    }
  }

  // -------------------------------------------------------------- date search

  /** Seconds in a day: a plain date stands for midnight at its start. */
  const SecondsPerDay: int := 86400

  /** A date argument: a `datetime` (an instant, in seconds), a `date` (a day
      number), or anything else. */
  datatype DateValue = DateTime(t: int) | Date(day: int) | OtherValue

  /** Index of the first instant strictly later than `t`, or `|ds|`. */
  function FirstLater(ds: seq<int>, t: int): (i: nat)
    ensures i <= |ds|
    ensures i < |ds| ==> t < ds[i]
    ensures forall j :: 0 <= j < i ==> ds[j] <= t
  {
    if |ds| == 0 then 0
    else if t < ds[0] then 0
    else 1 + FirstLater(ds[1..], t)
  }

  /** `date2index`: 0 when the date is at or before the first timestamp, `None`
      when at or after the last, otherwise the index of the first timestamp
      strictly after the date. A date is taken at midnight; any other value
      raises `RuntimeError`, and an empty list `IndexError`. */
  function Date2Index(d: DateValue, ds: seq<int>): (r: Result<Option<int>>)
    ensures d.OtherValue? ==> r == Raise(RuntimeError)
    ensures !d.OtherValue? && |ds| == 0 ==> r == Raise(IndexError)
    ensures !d.OtherValue? && |ds| > 0 ==> r.Ok?
    ensures r.Ok? && r.value.None? ==> ds[|ds| - 1] <= Instant(d)
    ensures !d.OtherValue? && |ds| > 0 && Instant(d) <= ds[0] ==> r == Ok(Some(0))
    ensures !d.OtherValue? && |ds| > 0 && ds[0] < Instant(d) && ds[|ds| - 1] <= Instant(d) ==> r == Ok(None)
    ensures r == Ok(Some(0)) ==> Instant(d) <= ds[0]
    ensures r.Ok? && r.value.Some? && r.value.value > 0 ==>
      var i := r.value.value;
      i < |ds| && Instant(d) < ds[i] && forall j :: 0 <= j < i ==> ds[j] <= Instant(d)
  {
    if d.OtherValue? then Raise(RuntimeError)
    else if |ds| == 0 then Raise(IndexError)
    else
      var t := Instant(d);
      if t <= ds[0] then Ok(Some(0))
      else if t >= ds[|ds| - 1] then Ok(None)
      else Ok(Some(FirstLater(ds, t)))
  }

  /** The instant a date argument stands for. */
  function Instant(d: DateValue): int
    requires !d.OtherValue?
  {
    match d
    case DateTime(t) => t
    case Date(day) => day * SecondsPerDay
  }

  /** On a chronological list and a date strictly inside it, the index found
      brackets the date from above: the entry before it is not later than
      the date, the entry at it is. So it is the first later timestamp, not
      the closest earlier one. */
  lemma Date2IndexBrackets(d: DateValue, ds: seq<int>)
    requires !d.OtherValue? && |ds| > 0 && ds[0] < Instant(d) < ds[|ds| - 1]
    ensures Date2Index(d, ds).Ok? && Date2Index(d, ds).value.Some?
    ensures var i := Date2Index(d, ds).value.value;
      1 <= i < |ds| && ds[i - 1] <= Instant(d) < ds[i]
  {
  }

  // -------------------------------------------------------- Doppler arithmetic

  /** `velocity2wavelength`: the wavelength offset a velocity corresponds to at
      wavelength `w`, in the units of `w`. */
  function Velocity2Wavelength(v: real, w: real): (r: real)
    ensures r * C == v * w
  {
    v * w / C
  }

  /** `shift_wavelength`: the wavelength Doppler-shifted by velocity `v`; the
      velocity must be below the speed of light by assertion. */
  function ShiftWavelength(w: real, v: real): (r: Result<real>)
    ensures r.Ok? <==> Abs(v) < C
    ensures r.Raise? ==> r.error == AssertionError
    ensures r.Ok? ==> r.value == w + Velocity2Wavelength(v, w)
  {
    if Abs(v) >= C then Raise(AssertionError)
    else Ok((v / C) * w + w)
  }

  /** Zero velocity leaves the wavelength unchanged. */
  lemma ShiftByZero(w: real)
    ensures ShiftWavelength(w, 0.0) == Ok(w)
  {
  }

  /** A shift keeps a positive wavelength positive. */
  lemma ShiftPositive(w: real, v: real)
    requires 0.0 < w && Abs(v) < C
    ensures ShiftWavelength(w, v).value > 0.0
  {
    var f := 1.0 + v / C;
    assert f > 0.0;
    assert ShiftWavelength(w, v).value == w * f;
  }

  /** A shift by one velocity keeps wavelengths in order. */
  lemma ShiftKeepsOrder(w1: real, w2: real, v: real)
    requires w1 < w2 && Abs(v) < C
    ensures ShiftWavelength(w1, v).value < ShiftWavelength(w2, v).value
  {
    var f := 1.0 + v / C;
    assert f > 0.0;
    assert ShiftWavelength(w1, v).value == w1 * f;
    assert ShiftWavelength(w2, v).value == w2 * f;
    assert (w2 - w1) * f > 0.0;
  }

  /** At a positive wavelength a larger velocity gives a longer wavelength. */
  lemma ShiftIncreasing(w: real, v1: real, v2: real)
    requires 0.0 < w && v1 < v2 && Abs(v1) < C && Abs(v2) < C
    ensures ShiftWavelength(w, v1).value < ShiftWavelength(w, v2).value
  {
    var d := v2 / C - v1 / C;
    assert d > 0.0;
    assert ShiftWavelength(w, v2).value - ShiftWavelength(w, v1).value == d * w;
    assert d * w > 0.0;
  }

  /** `wavelength2velocity`: the velocity of `w2` relative to `w1`, measured
      against their mean. unyt divides as numpy does: wavelengths that sum to
      zero give an infinite velocity, or NaN when both are zero. */
  function Wavelength2Velocity(w1: real, w2: real): (r: Quotient)
    ensures r.Finite? <==> w1 + w2 != 0.0
    ensures r.Finite? ==> r.v * (w1 + w2) == 2.0 * C * (w2 - w1)
    ensures r.NotANumber? <==> w1 == 0.0 && w2 == 0.0
  {
    Divide((w2 - w1) * C, (w1 + w2) / 2.0)
  }

  /** Swapping the wavelengths negates the velocity, and keeps an infinity or
      a NaN as it is. */
  lemma VelocityAntisymmetric(w1: real, w2: real)
    ensures var a, b := Wavelength2Velocity(w1, w2), Wavelength2Velocity(w2, w1);
      (a.Finite? <==> b.Finite?) && (a.NotANumber? <==> b.NotANumber?)
      && (a.Finite? ==> a.v == -b.v)
  {
    var a, b := Wavelength2Velocity(w1, w2), Wavelength2Velocity(w2, w1);
    if a.Finite? {
      assert (a.v + b.v) * (w1 + w2) == 0.0;
    }
  }

  /** The velocity is zero exactly for equal nonzero wavelengths, and for
      positive wavelengths it is finite and positive exactly when the second
      is longer. */
  lemma VelocitySign(w1: real, w2: real)
    ensures Wavelength2Velocity(w1, w2) == Finite(0.0) <==> w1 == w2 && w1 != 0.0
    ensures w1 > 0.0 && w2 > 0.0 ==>
      Wavelength2Velocity(w1, w2).Finite? && (Wavelength2Velocity(w1, w2).v > 0.0 <==> w2 > w1)
  {
    var r := Wavelength2Velocity(w1, w2);
    if r.Finite? {
      var v := r.v;
      if w1 > 0.0 && w2 > 0.0 {
        if v > 0.0 {
          assert v * (w1 + w2) > 0.0;
        } else {
          assert v * (w1 + w2) <= 0.0;
        }
      }
    }
  }

  /** For positive wavelengths the velocity is below twice the speed of light
      in size, and `w2` can be recovered from `w1` and the velocity. */
  lemma VelocityInverse(w1: real, w2: real)
    requires w1 > 0.0 && w2 > 0.0
    ensures Wavelength2Velocity(w1, w2).Finite?
    ensures Abs(Wavelength2Velocity(w1, w2).v) < 2.0 * C
    ensures w2 * (2.0 * C - Wavelength2Velocity(w1, w2).v) == w1 * (2.0 * C + Wavelength2Velocity(w1, w2).v)
  {
    var v := Wavelength2Velocity(w1, w2).v;
    var s := w1 + w2;
    assert v * s == 2.0 * C * (w2 - w1);
    assert (2.0 * C - v) * s == 4.0 * C * w1;
    assert (2.0 * C + v) * s == 4.0 * C * w2;
    assert (w2 * (2.0 * C - v)) * s == (w1 * (2.0 * C + v)) * s;
    assert s > 0.0 && 4.0 * C * w1 > 0.0 && 4.0 * C * w2 > 0.0;
    assert 2.0 * C - v == (4.0 * C * w1) / s;
    assert 2.0 * C + v == (4.0 * C * w2) / s;
  }

  /** The velocity separation of a wavelength and its Doppler shift by `v` is
      `2cv / (2c + v)`: the shift and the separation are inverse to first
      order in `v / c`. */
  lemma ShiftThenSeparation(w: real, v: real)
    requires w > 0.0 && Abs(v) < C
    ensures Wavelength2Velocity(w, ShiftWavelength(w, v).value).Finite?
    ensures Wavelength2Velocity(w, ShiftWavelength(w, v).value).v * (2.0 * C + v) == 2.0 * C * v
  {
    var s := ShiftWavelength(w, v).value;
    assert s * C == w * (C + v);
    assert s > 0.0 by { ShiftPositive(w, v); }
    var u := Wavelength2Velocity(w, s).v;
  }

  // ----------------------------------------------------------- alpha shifts

  /** A transition given by its wavenumber (cm^-1) or its wavelength. */
  datatype SpectralValue = Wavenumber(k: real) | Wavelength(l: Units.Length)

  predicate Convertible(o: SpectralValue) {
    match o
    case Wavenumber(k) => k != 0.0
    case Wavelength(l) => l.value != 0.0
  }

  /** The spectral equivalence to a wavenumber in cm^-1. */
  function ToWavenumber(o: SpectralValue): (k: real)
    requires Convertible(o)
    ensures k != 0.0
  {
    match o
    case Wavenumber(k) => k
    case Wavelength(l) => 1.0 / l.To(Units.Centimetre).value
  }

  /** `q_alpha_shift`: the wavenumber moves by `q * (a^2 - 1)`, where `a` is
      the ratio of the new to the old fine-structure constant, and the result
      is the velocity separation of the two corresponding wavelengths in
      angstroms. A zero wavenumber is an infinite wavelength and a zero
      wavelength an infinite wavenumber; either way numpy ends in `inf - inf`,
      `inf / inf` or `0 / 0`, NaN. Wavenumbers summing to zero give
      wavelengths summing to zero, an infinite velocity. */
  function QAlphaShift(omega: SpectralValue, q: real, a: real): (r: Quotient)
    ensures !Convertible(omega) ==> r.NotANumber?
    ensures Convertible(omega) ==>
      var k0 := ToWavenumber(omega); var k1 := k0 + q * (a * a - 1.0);
      && (r.NotANumber? <==> k1 == 0.0)
      && (r.Infinite? <==> k1 != 0.0 && k0 + k1 == 0.0)
      && (r.Finite? ==> r.v * (k0 + k1) == 2.0 * C * (k0 - k1))
  {
    if !Convertible(omega) then NotANumber
    else
      var k0 := ToWavenumber(omega);
      var k1 := k0 + q * (a * a - 1.0);
      if k1 == 0.0 then NotANumber
      else
        WavenumberSumToWavelengthSum(k0, k1);
        var r := Wavelength2Velocity(100000000.0 / k0, 100000000.0 / k1);
        if k0 + k1 != 0.0 then
          VelocityOfWavenumbers(k0, k1);
          r
        else r
  }

  /** Wavelengths sum to zero exactly when their wavenumbers do. */
  lemma WavenumberSumToWavelengthSum(k0: real, k1: real)
    requires k0 != 0.0 && k1 != 0.0
    ensures 100000000.0 / k0 + 100000000.0 / k1 == 0.0 <==> k0 + k1 == 0.0
    ensures 100000000.0 / k0 != 0.0
  {
    var l0 := 100000000.0 / k0;
    var l1 := 100000000.0 / k1;
    assert l0 * k0 == 100000000.0;
    assert (l0 + l1) * k0 * k1 == 100000000.0 * (k0 + k1);
  }

  /** The velocity between two wavelengths, written with their wavenumbers. */
  lemma VelocityOfWavenumbers(k0: real, k1: real)
    requires k0 != 0.0 && k1 != 0.0 && k0 + k1 != 0.0
    ensures Wavelength2Velocity(100000000.0 / k0, 100000000.0 / k1).Finite?
    ensures Wavelength2Velocity(100000000.0 / k0, 100000000.0 / k1).v * (k0 + k1) == 2.0 * C * (k0 - k1)
  {
    WavenumberSumToWavelengthSum(k0, k1);
    var l0 := 100000000.0 / k0;
    var l1 := 100000000.0 / k1;
    var v := Wavelength2Velocity(l0, l1).v;
    assert l0 * k0 == 100000000.0 && l1 * k1 == 100000000.0;
    assert v * (l0 + l1) == 2.0 * C * (l1 - l0);
    assert (l0 + l1) * k0 * k1 == 100000000.0 * (k0 + k1);
    assert (l1 - l0) * k0 * k1 == 100000000.0 * (k0 - k1);
    assert v * 100000000.0 * (k0 + k1) == 2.0 * C * 100000000.0 * (k0 - k1);
  }

  /** An unchanged fine-structure constant (`a` = 1 or -1) gives no shift,
      for every transition whose wavenumber and wavelength are both finite. */
  lemma NoAlphaChangeNoShift(omega: SpectralValue, q: real)
    ensures QAlphaShift(omega, q, 1.0) == Finite(0.0) <==> Convertible(omega)
    ensures QAlphaShift(omega, q, -1.0) == Finite(0.0) <==> Convertible(omega)
  {
    if Convertible(omega) {
      var k0 := ToWavenumber(omega);
      assert k0 + k0 != 0.0;
      assert QAlphaShift(omega, q, 1.0).v * (k0 + k0) == 0.0;
      assert QAlphaShift(omega, q, -1.0).v * (k0 + k0) == 0.0;
    }
  }
}

=== FILE: numerics.dfy ===
/** Real-number helpers standing in for the numeric library calls the modelled
    code makes: absolute value, sums, Python's truncating `int()`, `round()`
    to a number of decimals, `numpy.average` with weights, and a square-root
    function known only through the property that defines it.
 */
module Numerics {
  import opened Wrappers

  function Abs(x: real): (r: real)
    ensures r >= 0.0 && (r == x || r == -x)
  {
    if x < 0.0 then -x else x
  }

  function Sum(xs: seq<real>): real
    decreases |xs|
  {
    if |xs| == 0 then 0.0 else Sum(xs[..|xs| - 1]) + xs[|xs| - 1]
  }

  /** A float quotient, as numpy computes it: dividing a non-zero value by zero gives an infinity,
      and zero by zero gives NaN. */
  datatype Quotient = Finite(v: real) | Infinite | NotANumber

  function Divide(x: real, b: real): (q: Quotient)
    ensures q.Finite? <==> b != 0.0
    ensures q.Finite? ==> q.v * b == x
    ensures q.NotANumber? <==> b == 0.0 && x == 0.0
  {
    if b != 0.0 then Finite(x / b) else if x == 0.0 then NotANumber else Infinite
  }

  /** Sum of `ws[i] * xs[i]`. */
  function WeightedSum(xs: seq<real>, ws: seq<real>): real
    requires |xs| == |ws|
    decreases |xs|
  {
    if |xs| == 0 then 0.0
    else WeightedSum(xs[..|xs| - 1], ws[..|ws| - 1]) + ws[|ws| - 1] * xs[|xs| - 1]
  }

  /** `numpy.average(xs, weights=ws)`, which raises `ZeroDivisionError` when the
      weights sum to zero. */
  function WeightedAverage(xs: seq<real>, ws: seq<real>): (r: Result<real>)
    requires |xs| == |ws|
    ensures r.Raise? <==> Sum(ws) == 0.0
    ensures r.Raise? ==> r.error == ZeroDivisionError
    ensures r.Ok? ==> r.value * Sum(ws) == WeightedSum(xs, ws)
  {
    if Sum(ws) == 0.0 then Raise(ZeroDivisionError) else Ok(WeightedSum(xs, ws) / Sum(ws))
  }

  /** Each value minus `m`, as in `offsets - weighted_mean`. */
  function Shifted(xs: seq<real>, m: real): (ys: seq<real>)
    ensures |ys| == |xs|
    ensures forall i :: 0 <= i < |xs| ==> ys[i] == xs[i] - m
  {
    seq(|xs|, i requires 0 <= i < |xs| => xs[i] - m)
  }

  /** Shifting every value by `m` shifts the weighted sum by `m` times the
      weight sum. */
  lemma {:induction false} WeightedSumShifted(xs: seq<real>, ws: seq<real>, m: real)
    requires |xs| == |ws|
    ensures WeightedSum(Shifted(xs, m), ws) == WeightedSum(xs, ws) - m * Sum(ws)
    decreases |xs|
  {
    if |xs| > 0 {
      var n := |xs| - 1;
      var ys := Shifted(xs, m);
      WeightedSumShifted(xs[..n], ws[..n], m);
      assert ys[..n] == Shifted(xs[..n], m);
      assert ws[n] * ys[n] == ws[n] * xs[n] - m * ws[n];
      assert m * Sum(ws) == m * Sum(ws[..n]) + m * ws[n];
    }
  }

  /** The weighted average is the value the weighted residuals balance on:
      `sum(w * (x - mean)) == 0`. */
  lemma WeightedResidualsVanish(xs: seq<real>, ws: seq<real>)
    requires |xs| == |ws| && WeightedAverage(xs, ws).Ok?
    ensures WeightedSum(Shifted(xs, WeightedAverage(xs, ws).value), ws) == 0.0
  {
    var m := WeightedAverage(xs, ws).value;
    WeightedSumShifted(xs, ws, m);
    assert m * Sum(ws) == WeightedSum(xs, ws);
  }

  /** The weights `1 / v` for a sequence of variances `v`. */
  function InverseOf(vs: seq<real>): (ws: seq<real>)
    requires forall i :: 0 <= i < |vs| ==> vs[i] != 0.0
    ensures |ws| == |vs|
    ensures forall i :: 0 <= i < |vs| ==> ws[i] * vs[i] == 1.0
  {
    seq(|vs|, i requires 0 <= i < |vs| => 1.0 / vs[i])
  }

  /** The squares of a sequence, e.g. errors to variances. */
  function Squares(es: seq<real>): (vs: seq<real>)
    ensures |vs| == |es|
    ensures forall i :: 0 <= i < |es| ==> vs[i] == es[i] * es[i] && vs[i] >= 0.0
  {
    seq(|es|, i requires 0 <= i < |es| => es[i] * es[i])
  }

  predicate AllPositive(ws: seq<real>) {
    forall i :: 0 <= i < |ws| ==> ws[i] > 0.0
  }

  lemma {:induction false} SumPositive(ws: seq<real>)
    requires |ws| > 0 && AllPositive(ws)
    ensures Sum(ws) > 0.0
    decreases |ws|
  {
    if |ws| > 1 {
      SumPositive(ws[..|ws| - 1]);
    }
  }

  lemma {:induction false} WeightedSumBelow(xs: seq<real>, ws: seq<real>, hi: real)
    requires |xs| == |ws| && AllPositive(ws)
    requires forall i :: 0 <= i < |xs| ==> xs[i] <= hi
    ensures WeightedSum(xs, ws) <= hi * Sum(ws)
    decreases |xs|
  {
    if |xs| > 0 {
      WeightedSumBelow(xs[..|xs| - 1], ws[..|ws| - 1], hi);
      AddBelow(WeightedSum(xs[..|xs| - 1], ws[..|ws| - 1]), Sum(ws[..|ws| - 1]),
               ws[|ws| - 1], xs[|xs| - 1], hi, WeightedSum(xs, ws), Sum(ws));
    }
  }

  lemma {:induction false} WeightedSumAbove(xs: seq<real>, ws: seq<real>, lo: real)
    requires |xs| == |ws| && AllPositive(ws)
    requires forall i :: 0 <= i < |xs| ==> lo <= xs[i]
    ensures lo * Sum(ws) <= WeightedSum(xs, ws)
    decreases |xs|
  {
    if |xs| > 0 {
      WeightedSumAbove(xs[..|xs| - 1], ws[..|ws| - 1], lo);
      AddAbove(WeightedSum(xs[..|xs| - 1], ws[..|ws| - 1]), Sum(ws[..|ws| - 1]),
               ws[|ws| - 1], xs[|xs| - 1], lo, WeightedSum(xs, ws), Sum(ws));
    }
  }

  /** One more positively weighted term below `hi` keeps a weighted sum below
      `hi` times the weight total. */
  lemma AddBelow(acc: real, weights: real, w: real, x: real, hi: real, total: real, sum: real)
    requires w > 0.0 && x <= hi && acc <= hi * weights
    requires total == acc + w * x && sum == weights + w
    ensures total <= hi * sum
  {
    assert w * x <= w * hi;
    assert hi * sum == hi * weights + hi * w;
  }

  /** One more positively weighted term above `lo` keeps a weighted sum above
      `lo` times the weight total. */
  lemma AddAbove(acc: real, weights: real, w: real, x: real, lo: real, total: real, sum: real)
    requires w > 0.0 && lo <= x && lo * weights <= acc
    requires total == acc + w * x && sum == weights + w
    ensures lo * sum <= total
  {
    assert w * lo <= w * x;
    assert lo * sum == lo * weights + lo * w;
  }

  /** With positive weights the weighted average is a convex combination: it
      lies between any lower and upper bound of the values. */
  lemma WeightedAverageBetween(xs: seq<real>, ws: seq<real>, lo: real, hi: real)
    requires |xs| == |ws| && |xs| > 0 && AllPositive(ws)
    requires forall i :: 0 <= i < |xs| ==> lo <= xs[i] <= hi
    ensures WeightedAverage(xs, ws).Ok?
    ensures lo <= WeightedAverage(xs, ws).value <= hi
  {
    SumPositive(ws);
    WeightedSumBelow(xs, ws, hi);
    WeightedSumAbove(xs, ws, lo);
    var s := Sum(ws);
    var m := WeightedAverage(xs, ws).value;
    var w := WeightedSum(xs, ws);
    assert m * s == w;
    CancelPositive(m, hi, s, w, hi * s);
    CancelPositive(lo, m, s, lo * s, w);
  }

  /** A common positive factor can be cancelled from an inequality. */
  lemma CancelPositive(x: real, y: real, s: real, xs: real, ys: real)
    requires s > 0.0 && xs == x * s && ys == y * s && xs <= ys
    ensures x <= y
  {
    assert (y - x) * s == ys - xs;
  }

  /** Python's `int(x)` and `math.trunc(x)` on a real: rounding toward zero. */
  function Trunc(x: real): (r: int)
    ensures Abs(r as real) <= Abs(x) && Abs(x - r as real) < 1.0
    ensures x >= 0.0 ==> r >= 0
    ensures x <= 0.0 ==> r <= 0
  {
    if x >= 0.0 then x.Floor else -((-x).Floor)
  }

  /** Round to the nearest integer, ties to the even one, as Python's `round`. */
  function RoundHalfEven(x: real): (r: int)
    ensures Abs(x - r as real) <= 0.5
    ensures Abs(x - r as real) == 0.5 ==> r % 2 == 0
  {
    var f := x.Floor;
    var d := x - f as real;
    if d < 0.5 then f
    else if d > 0.5 then f + 1
    else if f % 2 == 0 then f
    else f + 1
  }

  lemma ScaledDistance(a: real, b: real, p: real)
    requires p > 0.0
    ensures Abs(a - b) * p == Abs(a * p - b * p)
  {
    assert (a - b) * p == a * p - b * p;
  }

  /** Python's `round(x, d)`, with the `d` decimal places given as the scale
      `10^d` (100.0 for two places): round half to even at the last place. */
  function RoundTo(x: real, scale: real): real
    requires scale > 0.0
  {
    RoundHalfEven(x * scale) as real / scale
  }

  /** The rounded value is within half a unit of the last place of `x`, and
      it is a whole multiple of that unit. */
  lemma RoundToNearest(x: real, scale: real)
    requires scale > 0.0
    ensures Abs(x - RoundTo(x, scale)) * scale <= 0.5
    ensures (RoundTo(x, scale) * scale).Floor as real == RoundTo(x, scale) * scale
  {
    assert RoundTo(x, scale) * scale == RoundHalfEven(x * scale) as real;
    ScaledDistance(x, RoundTo(x, scale), scale);
  }

  predicate NonZero(es: seq<real>) {
    forall i :: 0 <= i < |es| ==> es[i] != 0.0
  }

  lemma ProductPositive(a: real, b: real, p: real)
    requires a > 0.0 && b > 0.0 && p == a * b
    ensures p > 0.0
  {
  }

  lemma SquarePositive(x: real, square: real)
    requires x != 0.0 && square == x * x
    ensures square > 0.0
  {
    if x > 0.0 {
      ProductPositive(x, x, square);
    } else {
      assert square == (-x) * (-x);
      ProductPositive(-x, -x, square);
    }
  }

  lemma InversePositive(w: real, v: real)
    requires v > 0.0 && w * v == 1.0
    ensures w > 0.0
  {
    assert w == 1.0 / v;
  }

  lemma SquareNonNegative(x: real, square: real)
    requires square == x * x
    ensures square >= 0.0
  {
    if x != 0.0 {
      SquarePositive(x, square);
    }
  }

  /** `sqrt` is the non-negative square root on the non-negative reals. */
  ghost predicate IsSquareRoot(sqrt: real -> real) {
    forall x :: 0.0 <= x ==> 0.0 <= sqrt(x) && sqrt(x) * sqrt(x) == x
  }
}

=== FILE: obs2d.dfy ===
/** The computations of a HARPS two-dimensional extracted spectrum
    (utils/obs2d.py): the per-pixel wavelength grid from the 288 calibration
    coefficients of the file header, the gain correction, the per-pixel error
    rule with its bad-pixel count, the blaze file path, the order limits
    written as header cards, the order lookup for a wavelength and the plot
    guard.

    A spectrum has 72 orders of 4096 pixels; arrays are sequences of rows.
    The FITS header is a map from keyword to card value. Reading and writing
    files is not modelled: file contents are parameters.
 */
module Obs2d {
  import opened Wrappers
  import opened Text
  import opened Numerics

  /** The spectrograph's format: 72 echelle orders of 4096 pixels. */
  const Orders: nat := 72
  const Pixels: nat := 4096

  /** A FITS header card value. */
  datatype Card = FloatCard(x: real) | IntCard(n: int) | BoolCard(b: bool) | TextCard(s: string)

  type Header = map<string, Card>

  // ------------------------------------------------------- wavelength grid

  const CoeffPrefix: string := "ESO DRS CAL TH COEFF LL"

  /** The position of coefficient `i` of order `o` in the header. */
  function CoeffNumber(o: nat, i: nat): (k: nat)
    requires i < 4
    ensures k / 4 == o && k % 4 == i
  {
    4 * o + i
  }

  /** The coefficient numbers 0..287 are each used by exactly one (order,
      power) pair. */
  lemma CoeffNumberBijective(k: nat)
    requires k < 4 * Orders
    ensures k / 4 < Orders && CoeffNumber(k / 4, k % 4) == k
  {
  }

  /** The header keyword of coefficient number `k`. */
  function CoeffKey(k: nat): (key: string)
    ensures |key| > |CoeffPrefix| && key[..|CoeffPrefix|] == CoeffPrefix
    ensures key[|CoeffPrefix|..] == NatToString(k)
  {
    CoeffPrefix + NatToString(k)
  }

  /** Different coefficient numbers have different keywords, so every one of
      the 288 cards is read exactly once. */
  lemma CoeffKeyInjective(j: nat, k: nat)
    requires CoeffKey(j) == CoeffKey(k)
    ensures j == k
  {
    assert NatToString(j) == CoeffKey(j)[|CoeffPrefix|..];
    assert IntToString(j) == NatToString(j);
    assert IntToString(k) == NatToString(k);
    IntToStringInjective(j, k);
  }

  /** The numeric value of a card in arithmetic: Python treats `True` and
      `False` as 1 and 0, and a text value makes the arithmetic raise
      `TypeError`. */
  function CardNumber(c: Card): (r: Result<real>)
    ensures r.Raise? <==> c.TextCard?
    ensures r.Raise? ==> r.error == TypeError
  {
    match c
    case FloatCard(x) => Ok(x)
    case IntCard(n) => Ok(n as real)
    case BoolCard(b) => Ok(if b then 1.0 else 0.0)
    case TextCard(_) => Raise(TypeError)
  }

  /** `self._header[key]` used as a number: a missing keyword is `KeyError`. */
  function ReadNumber(h: Header, key: string): (r: Result<real>)
    ensures r.Ok? <==> key in h && !h[key].TextCard?
    ensures r.Raise? && key !in h ==> r.error == KeyError
    ensures r.Ok? ==> CardNumber(h[key]) == r
  {
    if key !in h then Raise(KeyError) else CardNumber(h[key])
  }

  /** The coefficients numbered `k` to 287, read in increasing order; the
      first unreadable one decides the error. */
  function CoefficientsFrom(h: Header, k: nat): (r: Result<seq<real>>)
    requires k <= 4 * Orders
    ensures r.Ok? ==> |r.value| == 4 * Orders - k
    ensures r.Raise? ==> r.error == KeyError || r.error == TypeError
    decreases 4 * Orders - k
  {
    if k == 4 * Orders then Ok([])
    else
      var c :- ReadNumber(h, CoeffKey(k));
      var rest :- CoefficientsFrom(h, k + 1);
      Ok([c] + rest)
  }

  /** Card `k` is present and numeric. */
  predicate CardReadable(h: Header, k: nat) {
    ReadNumber(h, CoeffKey(k)).Ok?
  }

  /** The four coefficient cards of order `o` are present and numeric. */
  predicate OrderReadable(h: Header, o: nat) {
    forall i :: 0 <= i < 4 ==> CardReadable(h, CoeffNumber(o, i))
  }

  /** Cards `k` to 287 are all present and numeric. */
  predicate ReadableFrom(h: Header, k: nat) {
    forall j :: k <= j < 4 * Orders ==> CardReadable(h, j)
  }

  lemma ReadableFromStep(h: Header, k: nat)
    requires k < 4 * Orders
    ensures ReadableFrom(h, k) <==> CardReadable(h, k) && ReadableFrom(h, k + 1)
  {
  }

  /** The coefficients can be read exactly when every one of their cards is
      present and numeric. */
  lemma {:induction false} CoefficientsFromSucceeds(h: Header, k: nat)
    requires k <= 4 * Orders
    ensures CoefficientsFrom(h, k).Ok? <==> ReadableFrom(h, k)
    decreases 4 * Orders - k
  {
    if k < 4 * Orders {
      CoefficientsFromSucceeds(h, k + 1);
      ReadableFromStep(h, k);
      assert CoefficientsFrom(h, k).Ok? <==> CardReadable(h, k) && CoefficientsFrom(h, k + 1).Ok?;
    }
  }

  /** Entry `j - k` of the coefficients read from `k` on is card `j`. */
  lemma {:induction false} CoefficientsFromValues(h: Header, k: nat, j: nat)
    requires k <= j < 4 * Orders && CoefficientsFrom(h, k).Ok?
    ensures CardReadable(h, j)
    ensures CoefficientsFrom(h, k).value[j - k] == ReadNumber(h, CoeffKey(j)).value
    decreases j - k
  {
    var rest := CoefficientsFrom(h, k + 1);
    assert ReadNumber(h, CoeffKey(k)).Ok? && rest.Ok?;
    assert CoefficientsFrom(h, k).value == [ReadNumber(h, CoeffKey(k)).value] + rest.value;
    if j > k {
      CoefficientsFromValues(h, k + 1, j);
    }
  }

  /** The four header coefficients of order `o`, lowest power first. */
  function HeaderCoefficients(h: Header, o: nat): (c: seq<real>)
    requires o < Orders && OrderReadable(h, o)
    ensures |c| == 4
  {
    seq(4, i requires 0 <= i < 4 => ReadNumber(h, CoeffKey(CoeffNumber(o, i))).value)
  }

  /** `pixel ** i` as a float. */
  function PixelPower(p: nat, i: nat): real
    decreases i
  {
    if i == 0 then 1.0 else (p as real) * PixelPower(p, i - 1)
  }

  /** The term of power `i` at pixel `p`. */
  function Term(c: seq<real>, i: nat, p: nat): real
    requires i < |c|
  {
    c[i] * PixelPower(p, i)
  }

  /** The first `j` terms of the polynomial with coefficients `c` at pixel
      `p`, summed in the order the loop adds them. */
  function PartialPoly(c: seq<real>, j: nat, p: nat): real
    requires j <= |c|
  {
    if j == 0 then 0.0 else PartialPoly(c, j - 1, p) + Term(c, j - 1, p)
  }

  /** The reference cubic `c0 + c1 p + c2 p^2 + c3 p^3`. */
  function Cubic(c: seq<real>, p: nat): real
    requires |c| == 4
  {
    var x := p as real;
    c[0] + c[1] * x + c[2] * (x * x) + c[3] * (x * x * x)
  }

  /** Adding the four terms one power at a time gives the cubic. */
  lemma PartialPolyIsCubic(c: seq<real>, p: nat)
    requires |c| == 4
    ensures PartialPoly(c, 4, p) == Cubic(c, p)
  {
    assert PixelPower(p, 1) == p as real;
    assert PixelPower(p, 2) == (p as real) * (p as real);
    assert PixelPower(p, 3) == (p as real) * (p as real) * (p as real);
    SameProduct(c[1], PixelPower(p, 1), p as real);
    SameProduct(c[2], PixelPower(p, 2), (p as real) * (p as real));
    SameProduct(c[3], PixelPower(p, 3), (p as real) * (p as real) * (p as real));
    assert PartialPoly(c, 1, p) == c[0];
    assert PartialPoly(c, 2, p) == c[0] + c[1] * (p as real);
    assert PartialPoly(c, 3, p) == c[0] + c[1] * (p as real) + c[2] * ((p as real) * (p as real));
  }

  lemma SameProduct(a: real, b: real, d: real)
    requires b == d
    ensures a * b == a * d
  {
  }

  /** Row `row` holds the cubic with coefficients `c` at every pixel. */
  predicate CubicRow(row: seq<real>, c: seq<real>)
    requires |c| == 4
  {
    |row| == Pixels && forall p :: 0 <= p < Pixels ==> row[p] == Cubic(c, p)
  }

  /** The pixel loop of one order: for each power `i` in turn, every pixel
      gets the term of that power added. */
  method EvaluateOrder(c: seq<real>) returns (row: seq<real>)
    requires |c| == 4
    ensures CubicRow(row, c)
  {
    row := seq(Pixels, _ => 0.0);
    for i := 0 to 4
      invariant |row| == Pixels
      invariant forall q :: 0 <= q < Pixels ==> row[q] == PartialPoly(c, i, q)
    {
      for p := 0 to Pixels
        invariant |row| == Pixels
        invariant forall q :: 0 <= q < p ==> row[q] == PartialPoly(c, i + 1, q)
        invariant forall q :: p <= q < Pixels ==> row[q] == PartialPoly(c, i, q)
      {
        row := row[p := row[p] + Term(c, i, p)];
      }
    }
    forall p | 0 <= p < Pixels
      ensures row[p] == Cubic(c, p)
    {
      PartialPolyIsCubic(c, p);
    }
  }

  /** The coefficients of order `o`. */
  function OrderCoefficients(cs: seq<real>, o: nat): (c: seq<real>)
    requires |cs| == 4 * Orders && o < Orders
    ensures |c| == 4 && forall i :: 0 <= i < 4 ==> c[i] == cs[CoeffNumber(o, i)]
  {
    cs[4 * o .. 4 * o + 4]
  }

  /** Row `row` of the grid is order `o`'s cubic from its header cards. */
  predicate GridRow(h: Header, row: seq<real>, o: nat) {
    o < Orders && OrderReadable(h, o) && CubicRow(row, HeaderCoefficients(h, o))
  }

  /** `getWavelengthArray`: every pixel `p` of every order `o` gets the cubic
      in `p` whose coefficients are the header cards `4o` to `4o + 3`. A
      missing card raises `KeyError`, a text card `TypeError`. The values are
      in angstroms. */
  method GetWavelengthArray(h: Header) returns (r: Result<seq<seq<real>>>)
    ensures r.Ok? <==> ReadableFrom(h, 0)
    ensures r.Raise? ==> r.error == KeyError || r.error == TypeError
    ensures r.Ok? ==> |r.value| == Orders
    ensures r.Ok? ==> forall o :: 0 <= o < Orders ==> GridRow(h, r.value[o], o)
  {
    CoefficientsFromSucceeds(h, 0);
    var read := CoefficientsFrom(h, 0);
    if read.Raise? {
      return Raise(read.error);
    }
    var grid := BuildGrid(h, read.value);
    return Ok(grid);
  }

  /** The order loop of `getWavelengthArray`, given the coefficients read from
      the header. */
  method BuildGrid(h: Header, cs: seq<real>) returns (grid: seq<seq<real>>)
    requires CoefficientsFrom(h, 0).Ok? && cs == CoefficientsFrom(h, 0).value
    ensures |grid| == Orders
    ensures forall o :: 0 <= o < Orders ==> GridRow(h, grid[o], o)
  {
    grid := [];
    for o := 0 to Orders
      invariant |grid| == o
      invariant forall q :: 0 <= q < o ==> GridRow(h, grid[q], q)
    {
      OrderFromHeader(h, o);
      var row := EvaluateOrder(OrderCoefficients(cs, o));
      assert GridRow(h, row, o);
      grid := grid + [row];
    }
  }

  /** The slice of order `o` in the coefficients read from the header holds
      that order's four header cards. */
  lemma OrderFromHeader(h: Header, o: nat)
    requires o < Orders && CoefficientsFrom(h, 0).Ok?
    ensures OrderReadable(h, o)
    ensures OrderCoefficients(CoefficientsFrom(h, 0).value, o) == HeaderCoefficients(h, o)
  {
    forall i | 0 <= i < 4
      ensures CardReadable(h, CoeffNumber(o, i))
      ensures CoefficientsFrom(h, 0).value[CoeffNumber(o, i)] == ReadNumber(h, CoeffKey(CoeffNumber(o, i))).value
    {
      CoefficientsFromValues(h, 0, CoeffNumber(o, i));
    }
  }

  // ------------------------------------------------------------------ gain

  /** The two arrays have the same number of rows and equally long rows. */
  predicate SameShape<T, U>(a: seq<seq<T>>, b: seq<seq<U>>) {
    |a| == |b| && forall m :: 0 <= m < |a| ==> |a[m]| == |b[m]|
  }

  /** Every entry multiplied by `g`. */
  function Scaled(a: seq<seq<real>>, g: real): (r: seq<seq<real>>)
    ensures SameShape(r, a)
    ensures forall m, n :: 0 <= m < |a| && 0 <= n < |a[m]| ==> r[m][n] == a[m][n] * g
  {
    seq(|a|, m requires 0 <= m < |a| => seq(|a[m]|, n requires 0 <= n < |a[m]| => a[m][n] * g))
  }

  /** The header card holding the gain, in photo-electrons per ADU. */
  const GainKey: string := "HIERARCH ESO DRS CCD CONAD"

  /** `getGainCorrectedFluxArray`: the raw flux times the header's gain. A
      missing gain card is `KeyError`, and a gain that is not a float (an
      integer or boolean card included) fails the type assertion. */
  function GainCorrectedFlux(h: Header, raw: seq<seq<real>>, gainKey: string): (r: Result<seq<seq<real>>>)
    ensures gainKey !in h ==> r == Raise(KeyError)
    ensures gainKey in h ==> (r.Ok? <==> h[gainKey].FloatCard?)
    ensures gainKey in h && r.Raise? ==> r.error == AssertionError
    ensures r.Ok? ==> SameShape(r.value, raw)
    ensures r.Ok? ==> forall m, n :: 0 <= m < |raw| && 0 <= n < |raw[m]| ==>
      r.value[m][n] == raw[m][n] * h[gainKey].x
  {
    if gainKey !in h then Raise(KeyError)
    else match h[gainKey]
      case FloatCard(g) => Ok(Scaled(raw, g))
      case _ => Raise(AssertionError)
  }

  /** With a non-zero gain, dividing the gain back out recovers the raw flux. */
  lemma GainCorrectionInvertible(h: Header, raw: seq<seq<real>>, gainKey: string)
    requires GainCorrectedFlux(h, raw, gainKey).Ok? && h[gainKey].x != 0.0
    ensures Scaled(GainCorrectedFlux(h, raw, gainKey).value, 1.0 / h[gainKey].x) == raw
  {
    var g := h[gainKey].x;
    var back := Scaled(GainCorrectedFlux(h, raw, gainKey).value, 1.0 / g);
    forall m | 0 <= m < |raw|
      ensures back[m] == raw[m]
    {
      forall n | 0 <= n < |raw[m]|
        ensures back[m][n] == raw[m][n]
      {
        Unscale(raw[m][n], g);
      }
    }
  }

  lemma Unscale(x: real, g: real)
    requires g != 0.0
    ensures x * g * (1.0 / g) == x
  {
    assert x * g * (1.0 / g) == x * (g * (1.0 / g));
  }

  // ----------------------------------------------------------- error array

  /** HARPS's dark-current and read-out noise, in photo-electrons. */
  const DarkNoise: real := 12.0

  /** The error given to a pixel with negative flux. */
  const BadPixelError: real := 100000.0

  /** The error of one pixel: `1e5` for a negative flux, otherwise the photon
      noise and the dark noise added in quadrature. */
  function PixelError(f: real, sqrt: real -> real): (e: real)
    requires IsSquareRoot(sqrt)
    ensures f < 0.0 ==> e == BadPixelError
    ensures f >= 0.0 ==> e >= 0.0 && e * e == f + DarkNoise * DarkNoise
  {
    if f < 0.0 then BadPixelError else sqrt(f + DarkNoise * DarkNoise)
  }

  /** No pixel error is below the dark noise, so the errors are never zero. */
  lemma PixelErrorAtLeastDarkNoise(f: real, sqrt: real -> real)
    requires IsSquareRoot(sqrt)
    ensures PixelError(f, sqrt) >= DarkNoise
  {
    var e := PixelError(f, sqrt);
    if f >= 0.0 && e < DarkNoise {
      SquareBelow(e, DarkNoise);
      assert false;
    }
  }

  /** Non-negative numbers with equal squares are equal. */
  lemma SquareRootUnique(e: real, d: real)
    requires 0.0 <= e && 0.0 <= d && e * e == d * d
    ensures e == d
  {
    if e < d {
      SquareBelow(e, d);
      assert false;
    }
    if d < e {
      SquareBelow(d, e);
      assert false;
    }
  }

  lemma SquareBelow(e: real, d: real)
    requires 0.0 <= e < d
    ensures e * e < d * d
  {
    var ee, ed, dd := e * e, e * d, d * d;
    assert ee <= ed;
    assert ed < dd;
  }

  /** The number of negative entries of a row. */
  function RowNegatives(row: seq<real>): nat
    decreases |row|
  {
    if |row| == 0 then 0
    else RowNegatives(row[..|row| - 1]) + (if row[|row| - 1] < 0.0 then 1 else 0)
  }

  /** The number of negative entries of an array. */
  function NegativeCount(a: seq<seq<real>>): nat
    decreases |a|
  {
    if |a| == 0 then 0 else NegativeCount(a[..|a| - 1]) + RowNegatives(a[|a| - 1])
  }

  lemma {:induction false} RowNegativesZero(row: seq<real>)
    ensures RowNegatives(row) == 0 <==> forall n :: 0 <= n < |row| ==> row[n] >= 0.0
    decreases |row|
  {
    if |row| > 0 {
      var front := row[..|row| - 1];
      RowNegativesZero(front);
      assert forall n :: 0 <= n < |front| ==> front[n] == row[n];
    }
  }

  /** No pixel is counted bad exactly when no flux is negative. */
  lemma {:induction false} NegativeCountZero(a: seq<seq<real>>)
    ensures NegativeCount(a) == 0 <==>
      forall m, n :: 0 <= m < |a| && 0 <= n < |a[m]| ==> a[m][n] >= 0.0
    decreases |a|
  {
    if |a| > 0 {
      var front := a[..|a| - 1];
      NegativeCountZero(front);
      RowNegativesZero(a[|a| - 1]);
      assert forall m :: 0 <= m < |front| ==> front[m] == a[m];
    }
  }

  /** Row `row` holds the pixel errors of flux row `flux`. */
  predicate ErrorRow(row: seq<real>, flux: seq<real>, sqrt: real -> real)
    requires IsSquareRoot(sqrt)
  {
    |row| == |flux| && forall n :: 0 <= n < |flux| ==> row[n] == PixelError(flux[n], sqrt)
  }

  /** The pixel loop of `getErrorArray`: the error of every pixel, and the
      number of pixels with negative flux. */
  method PixelErrors(flux: seq<seq<real>>, sqrt: real -> real) returns (err: seq<seq<real>>, bad: nat)
    requires IsSquareRoot(sqrt)
    ensures SameShape(err, flux)
    ensures forall m, n :: 0 <= m < |flux| && 0 <= n < |flux[m]| ==> err[m][n] == PixelError(flux[m][n], sqrt)
    ensures bad == NegativeCount(flux)
  {
    err := [];
    bad := 0;
    for m := 0 to |flux|
      invariant |err| == m
      invariant forall q :: 0 <= q < m ==> ErrorRow(err[q], flux[q], sqrt)
      invariant bad == NegativeCount(flux[..m])
    {
      var row: seq<real> := [];
      for n := 0 to |flux[m]|
        invariant |row| == n
        invariant forall j :: 0 <= j < n ==> row[j] == PixelError(flux[m][j], sqrt)
        invariant bad == NegativeCount(flux[..m]) + RowNegatives(flux[m][..n])
      {
        assert flux[m][..n + 1][..n] == flux[m][..n];
        if flux[m][n] < 0.0 {
          row := row + [BadPixelError];
          bad := bad + 1;
        } else {
          row := row + [sqrt(flux[m][n] + DarkNoise * DarkNoise)];
        }
      }
      assert flux[m][..|flux[m]|] == flux[m];
      assert flux[..m + 1][..m] == flux[..m];
      assert ErrorRow(row, flux[m], sqrt);
      err := err + [row];
    }
    assert flux[..|flux|] == flux;
  }

  /** Every entry divided by the matching blaze value. */
  function BlazeCorrected(a: seq<seq<real>>, blaze: seq<seq<real>>): (r: seq<seq<Quotient>>)
    requires SameShape(a, blaze)
    ensures SameShape(r, a)
    ensures forall m, n :: 0 <= m < |a| && 0 <= n < |a[m]| ==> r[m][n] == Divide(a[m][n], blaze[m][n])
  {
    seq(|a|, m requires 0 <= m < |a| => seq(|a[m]|, n requires 0 <= n < |a[m]| => Divide(a[m][n], blaze[m][n])))
  }

  /** Whether `getErrorArray(verbose=True)` fails in its pixel loop: its
      report of a negative pixel, `tqdm.write(flux, m, n)`, passes the row
      index as the output file, and writing to an integer raises
      `AttributeError`. */
  predicate VerboseRaises(h: Header, raw: seq<seq<real>>, verbose: bool) {
    && GainCorrectedFlux(h, raw, GainKey).Ok?
    && verbose
    && NegativeCount(GainCorrectedFlux(h, raw, GainKey).value) > 0
  }

  /** `getErrorArray` on a fresh gain-corrected flux: the pixel errors of that
      flux, divided by the blaze. The blaze is the raw data of the blaze file
      `getBlazeFile` finds (`BlazeFilePath`), fetched after the pixel loop;
      reading the file is the parameter `readBlaze`. Dividing by a blaze of
      another shape raises `ValueError`. In verbose mode the first negative
      pixel raises `AttributeError` (`VerboseRaises`), so the closing report
      of the bad-pixel count is only reached when that count is zero. */
  method GetErrorArray(h: Header, raw: seq<seq<real>>, dir: string, exists_: string -> bool,
                       readBlaze: string -> seq<seq<real>>, sqrt: real -> real, verbose: bool)
    returns (r: Result<seq<seq<Quotient>>>, bad: nat)
    requires IsSquareRoot(sqrt)
    ensures GainCorrectedFlux(h, raw, GainKey).Raise? ==> r == Raise(GainCorrectedFlux(h, raw, GainKey).error)
    ensures VerboseRaises(h, raw, verbose) ==> r == Raise(AttributeError)
    ensures GainCorrectedFlux(h, raw, GainKey).Ok? && !VerboseRaises(h, raw, verbose) && BlazeFilePath(h, dir, exists_).Raise? ==>
      r == Raise(BlazeFilePath(h, dir, exists_).error)
    ensures GainCorrectedFlux(h, raw, GainKey).Ok? && !VerboseRaises(h, raw, verbose) && BlazeFilePath(h, dir, exists_).Ok? ==>
      (r.Ok? <==> SameShape(raw, readBlaze(BlazeFilePath(h, dir, exists_).value)))
    ensures r.Raise? && GainCorrectedFlux(h, raw, GainKey).Ok? && !VerboseRaises(h, raw, verbose) && BlazeFilePath(h, dir, exists_).Ok? ==>
      r.error == ValueError
    ensures r.Ok? ==> GainCorrectedFlux(h, raw, GainKey).Ok? && !VerboseRaises(h, raw, verbose) && BlazeFilePath(h, dir, exists_).Ok?
    ensures r.Ok? ==> SameShape(r.value, raw)
    ensures r.Ok? ==> var blaze := readBlaze(BlazeFilePath(h, dir, exists_).value);
      SameShape(raw, blaze) &&
      forall m, n :: 0 <= m < |raw| && 0 <= n < |raw[m]| ==>
        r.value[m][n] == Divide(PixelError(raw[m][n] * h[GainKey].x, sqrt), blaze[m][n])
    ensures GainCorrectedFlux(h, raw, GainKey).Ok? && !VerboseRaises(h, raw, verbose) ==>
      bad == NegativeCount(GainCorrectedFlux(h, raw, GainKey).value)
  {
    var flux := GainCorrectedFlux(h, raw, GainKey);
    if flux.Raise? {
      return Raise(flux.error), 0;
    }
    var err;
    err, bad := PixelErrors(flux.value, sqrt);
    if verbose && bad > 0 {
      return Raise(AttributeError), bad;
    }
    var path := BlazeFilePath(h, dir, exists_);
    if path.Raise? {
      return Raise(path.error), bad;
    }
    var blaze := readBlaze(path.value);
    if !SameShape(err, blaze) {
      return Raise(ValueError), bad;
    }
    r := Ok(BlazeCorrected(err, blaze));
  }

  /** An error entry is never NaN, and it is infinite exactly where the blaze
      is zero. */
  lemma ErrorEntryFinite(e: real, b: real, f: real, sqrt: real -> real)
    requires IsSquareRoot(sqrt) && e == PixelError(f, sqrt)
    ensures !Divide(e, b).NotANumber?
    ensures Divide(e, b).Infinite? <==> b == 0.0
  {
    PixelErrorAtLeastDarkNoise(f, sqrt);
  }

  // ------------------------------------------ errors after the photon flux

  /** The error `getErrorArray` gives a pixel with gain-corrected flux `f`
      and blaze `b` once `getPhotonFluxArray` has run, as the constructor does
      before writing the error HDU. That method divides the cached
      gain-corrected array by the blaze in place, so the pixel loop sees
      `f / b` and its error is divided by the blaze a second time. Where the
      blaze is zero the cached flux is an infinity of the sign of `f`, whose
      error is `1e5` or `sqrt(inf)`, and either divided by zero is infinite;
      for `f == 0` it is NaN, which stays NaN through the square root and the
      division. */
  function ErrorAfterPhotonFlux(f: real, b: real, sqrt: real -> real): (q: Quotient)
    requires IsSquareRoot(sqrt)
    ensures b != 0.0 ==> q.Finite? && q.v * b == PixelError(f / b, sqrt)
    ensures b == 0.0 ==> !q.Finite? && (q.NotANumber? <==> f == 0.0)
  {
    if b != 0.0 then Divide(PixelError(f / b, sqrt), b)
    else if f == 0.0 then NotANumber else Infinite
  }

  /** With a positive flux and a positive blaze other than 1, the error after
      `getPhotonFluxArray` differs from the error `GetErrorArray` gives. */
  lemma ErrorAfterPhotonFluxDiffers(f: real, b: real, sqrt: real -> real)
    requires IsSquareRoot(sqrt) && f > 0.0 && b > 0.0 && b != 1.0
    ensures ErrorAfterPhotonFlux(f, b, sqrt) != Divide(PixelError(f, sqrt), b)
  {
    var e1, e2 := PixelError(f / b, sqrt), PixelError(f, sqrt);
    var g := f / b;
    assert g * b == f;
    assert (g - f) * b == f * (1.0 - b);
    if b < 1.0 {
      ProductPositive(f, 1.0 - b, f * (1.0 - b));
    } else {
      ProductPositive(f, b - 1.0, f * (b - 1.0));
      assert f * (1.0 - b) == -(f * (b - 1.0));
    }
    assert g != f;
    assert e1 * e1 != e2 * e2;
    assert e1 != e2;
    var q1, q2 := ErrorAfterPhotonFlux(f, b, sqrt), Divide(e2, b);
    assert q1.v * b == e1 && q2.v * b == e2;
  }

  /** A pixel with gain-corrected flux 100 under a blaze of 4: the written
      error is `sqrt(100 / 4 + 144) / 4 = 13 / 4`, where dividing once gives
      `sqrt(244) / 4`. A pixel with no flux under a zero blaze is NaN where
      `ErrorEntryFinite` promises an infinity. */
  lemma ErrorsDividedTwice(sqrt: real -> real)
    requires IsSquareRoot(sqrt)
    ensures ErrorAfterPhotonFlux(100.0, 4.0, sqrt) == Finite(3.25)
    ensures Divide(PixelError(100.0, sqrt), 4.0) != Finite(3.25)
    ensures ErrorAfterPhotonFlux(0.0, 0.0, sqrt).NotANumber? && Divide(PixelError(0.0, sqrt), 0.0).Infinite?
  {
    var e := PixelError(25.0, sqrt);
    assert 100.0 / 4.0 == 25.0;
    assert e * e == 169.0 && e >= 0.0;
    SquareRootUnique(e, 13.0);
    assert ErrorAfterPhotonFlux(100.0, 4.0, sqrt).v * 4.0 == 13.0;
    var d := PixelError(100.0, sqrt);
    assert d * d == 244.0;
    assert d != 13.0;
    ErrorAfterPhotonFluxDiffers(100.0, 4.0, sqrt);
    PixelErrorAtLeastDarkNoise(0.0, sqrt);
  }

  // ------------------------------------------------------------ blaze file

  const BlazeKey: string := "HIERARCH ESO DRS BLAZE FILE"

  /** `getBlazeFile`: the blaze file named in the header lives in
      `<dir>/data/reduced/<date>/<name>`, the date being characters 6 to 15 of
      the name. A missing card is `KeyError`, a card that is not text cannot
      be sliced (`TypeError`), and a path that does not exist is
      `RuntimeError`. Whether a path exists is a parameter. */
  function BlazeFilePath(h: Header, dir: string, exists_: string -> bool): (r: Result<string>)
    ensures BlazeKey !in h ==> r == Raise(KeyError)
    ensures BlazeKey in h && !h[BlazeKey].TextCard? ==> r == Raise(TypeError)
    ensures r.Ok? ==> (BlazeKey in h && h[BlazeKey].TextCard?
      && r.value == dir + "/data/reduced/" + Slice(h[BlazeKey].s, 6, 16) + "/" + h[BlazeKey].s)
    ensures BlazeKey in h && h[BlazeKey].TextCard? ==> (r.Ok? <==> exists_(BlazeDirectory(h[BlazeKey].s, dir) + h[BlazeKey].s))
    ensures r.Raise? && BlazeKey in h && h[BlazeKey].TextCard? ==> r.error == RuntimeError
  {
    if BlazeKey !in h then Raise(KeyError)
    else match h[BlazeKey]
      case TextCard(name) =>
        var path := BlazeDirectory(name, dir) + name;
        if exists_(path) then Ok(path) else Raise(RuntimeError)
      case _ => Raise(TypeError)
  }

  /** The directory part of the blaze path, with its trailing separator. */
  function BlazeDirectory(name: string, dir: string): string {
    dir + "/data/reduced/" + Slice(name, 6, 16) + "/"
  }

  /** For a pipeline file name `HARPS.<date>...` with a ten-character date,
      the slice is exactly that date. */
  lemma BlazeDateOfName(date: string, rest: string)
    requires |date| == 10
    ensures Slice("HARPS." + date + rest, 6, 16) == date
  {
    var name := "HARPS." + date + rest;
    assert name[6..16] == date;
  }

  /** The path ends with the file name itself, under the given directory. */
  lemma BlazePathShape(h: Header, dir: string, exists_: string -> bool)
    requires BlazeFilePath(h, dir, exists_).Ok?
    ensures |BlazeFilePath(h, dir, exists_).value| > |dir| + |h[BlazeKey].s|
    ensures BlazeFilePath(h, dir, exists_).value[..|dir|] == dir
    ensures var p := BlazeFilePath(h, dir, exists_).value;
      p[|p| - |h[BlazeKey].s|..] == h[BlazeKey].s
  {
    var name := h[BlazeKey].s;
    var p := BlazeFilePath(h, dir, exists_).value;
    assert p == BlazeDirectory(name, dir) + name;
  }

  // --------------------------------------------------- order-limit cards

  /** Which end of an order a card describes: pixel 0 or the last pixel. */
  datatype Limit = Min | Max

  /** The upper-case kind in a keyword. */
  function LimitWord(k: Limit): (w: string)
    ensures |w| == 3
  {
    match k
    case Min => "MIN"
    case Max => "MAX"
  }

  /** A header card: keyword, value and comment. */
  datatype HeaderCard = HeaderCard(keyword: string, value: real, comment: string)

  /** Card values are written with three decimals. */
  const Thousandths: real := 1000.0

  /** The keyword `ORD<i>MIN` or `ORD<i>MAX`. */
  function LimitKeyword(i: nat, k: Limit): (key: string)
    ensures |key| == 3 + |NatToString(i)| + 3
    ensures key[..3] == "ORD" && key[3..|key| - 3] == NatToString(i) && key[|key| - 3..] == LimitWord(k)
  {
    "ORD" + NatToString(i) + LimitWord(k)
  }

  /** Keywords name their order and kind uniquely. */
  lemma LimitKeywordInjective(i: nat, k: Limit, j: nat, l: Limit)
    requires LimitKeyword(i, k) == LimitKeyword(j, l)
    ensures i == j && k == l
  {
    var key := LimitKeyword(i, k);
    assert NatToString(i) == key[3..|key| - 3] == NatToString(j);
    assert IntToString(i) == NatToString(i);
    assert IntToString(j) == NatToString(j);
    IntToStringInjective(i, j);
    assert LimitWord(k) == LimitWord(l);
  }

  /** The card for limit `k` of order `i` of the wavelength array: the value
      at pixel 0 for the minimum and at the last pixel for the maximum, to
      three decimals, with the comment "Min/Max wavelength of order i". */
  function LimitCard(wl: seq<seq<real>>, i: nat, k: Limit): (c: HeaderCard)
    requires WellShaped(wl) && i < Orders
    ensures c.keyword == LimitKeyword(i, k)
    ensures Abs(c.value - (if k.Min? then First(wl[i]) else Last(wl[i]))) * Thousandths <= 0.5
    ensures (c.value * Thousandths).Floor as real == c.value * Thousandths
    ensures c.comment == (if k.Min? then "Min" else "Max") + " wavelength of order " + NatToString(i)
  {
    var x := if k.Min? then First(wl[i]) else Last(wl[i]);
    RoundToNearest(x, Thousandths);
    HeaderCard(LimitKeyword(i, k), RoundTo(x, Thousandths),
               (if k.Min? then "Min" else "Max") + " wavelength of order " + NatToString(i))
  }

  /** An array of 72 non-empty orders. */
  predicate WellShaped(a: seq<seq<real>>) {
    |a| == Orders && forall o :: 0 <= o < Orders ==> |a[o]| > 0
  }

  function First(row: seq<real>): real
    requires |row| > 0
  {
    row[0]
  }

  /** Python's `row[-1]`. */
  function Last(row: seq<real>): real
    requires |row| > 0
  {
    row[|row| - 1]
  }

  /** The cards of `writeWavelengthHDU` for orders `0` to `n - 1`: the minimum
      card of each order and then its maximum card. */
  function WavelengthCards(wl: seq<seq<real>>, n: nat): (cards: seq<HeaderCard>)
    requires WellShaped(wl) && n <= Orders
    ensures |cards| == 2 * n
    ensures forall i :: 0 <= i < n ==> cards[2 * i] == LimitCard(wl, i, Min) && cards[2 * i + 1] == LimitCard(wl, i, Max)
  {
    if n == 0 then []
    else WavelengthCards(wl, n - 1) + [LimitCard(wl, n - 1, Min), LimitCard(wl, n - 1, Max)]
  }

  /** Every card of the wavelength HDU has its own keyword. */
  lemma WavelengthCardsDistinct(wl: seq<seq<real>>, a: nat, b: nat)
    requires WellShaped(wl) && a < b < 2 * Orders
    ensures WavelengthCards(wl, Orders)[a].keyword != WavelengthCards(wl, Orders)[b].keyword
  {
    var cards := WavelengthCards(wl, Orders);
    var ka := if a % 2 == 0 then Min else Max;
    var kb := if b % 2 == 0 then Min else Max;
    assert cards[a] == LimitCard(wl, a / 2, ka);
    assert cards[b] == LimitCard(wl, b / 2, kb);
    if cards[a].keyword == cards[b].keyword {
      LimitKeywordInjective(a / 2, ka, b / 2, kb);
      assert false;
    }
  }

  // -------------------------------------------------------- findWavelength

  /** The geometric centre of a 4096-pixel order, counting from 0. */
  const CentrePixel: real := 2047.5

  /** The wavelength lies between the first and last value of the order. */
  predicate InOrder(w: real, row: seq<real>)
    requires |row| > 0
  {
    First(row) <= w <= Last(row)
  }

  /** The orders below `n` that contain `w`, in increasing order. */
  function OrdersContaining(w: real, wl: seq<seq<real>>, n: nat): (found: seq<nat>)
    requires WellShaped(wl) && n <= Orders
    ensures forall o: nat :: o in found <==> o < n && InOrder(w, wl[o])
    ensures forall a, b :: 0 <= a < b < |found| ==> found[a] < found[b]
    ensures forall a :: 0 <= a < |found| ==> found[a] < n
  {
    if n == 0 then []
    else OrdersContaining(w, wl, n - 1) + (if InOrder(w, wl[n - 1]) then [n - 1] else [])
  }

  /** What `findWavelength` returns: one order, a tuple of orders, or `None`. */
  datatype Found = Order(o: nat) | OrderTuple(os: seq<nat>) | NoOrder

  /** The wavelength lies within the whole barycentric array. */
  predicate WithinArray(w: real, bary: seq<seq<real>>)
    requires WellShaped(bary)
  {
    First(bary[0]) <= w <= Last(bary[Orders - 1])
  }

  /** `findWavelength` as written. The test `len(orders == 2)` compares a list
      with an integer and takes the length of a boolean, which raises
      `TypeError`; so with `closest_only` every wavelength that is not in
      exactly one order raises, and the two-order branch is never reached. */
  function FindWavelengthAsWritten(w: real, bary: seq<seq<real>>, wl: seq<seq<real>>, closestOnly: bool): (r: Result<Found>)
    requires WellShaped(bary) && WellShaped(wl)
    ensures !WithinArray(w, bary) ==> r == Raise(AssertionError)
    ensures r.Ok? ==> |OrdersContaining(w, wl, Orders)| < 3
    ensures r.Ok? && closestOnly ==> |OrdersContaining(w, wl, Orders)| == 1
    // inside the array, the result is decided by the orders holding the wavelength
    ensures WithinArray(w, bary) ==> var found := OrdersContaining(w, wl, Orders);
      && (|found| >= 3 ==> r == Raise(AssertionError))
      && (|found| < 3 && !closestOnly ==> r == Ok(OrderTuple(found)))
      && (closestOnly && |found| == 1 ==> r == Ok(Order(found[0])))
      && (closestOnly && |found| != 1 && |found| < 3 ==> r == Raise(TypeError))
  {
    if !WithinArray(w, bary) then Raise(AssertionError)
    else
      var found := OrdersContaining(w, wl, Orders);
      if |found| >= 3 then Raise(AssertionError)
      else if !closestOnly then Ok(OrderTuple(found))
      else if |found| == 1 then Ok(Order(found[0]))
      else Raise(TypeError)
  }

  /** The two-order branch as written: it returns a pixel index rather than an
      order, and the index of the two that is farther from the centre. */
  function TwoOrderChoiceAsWritten(index1: int, index2: int): (r: int)
    ensures r == index1 || r == index2
  {
    if Abs(index1 as real - CentrePixel) > Abs(index2 as real - CentrePixel) then index1 else index2
  }

  /** The chosen index is never closer to the centre than the other one. */
  lemma TwoOrderChoiceAsWrittenFarther(index1: int, index2: int)
    ensures var r := TwoOrderChoiceAsWritten(index1, index2);
      Abs(r as real - CentrePixel) >= Abs(index1 as real - CentrePixel)
      && Abs(r as real - CentrePixel) >= Abs(index2 as real - CentrePixel)
  {
  }

  /** The two-order choice as the docstring and the test describe it: the
      order in which the wavelength falls closer to the centre, the first one
      on a tie. */
  function TwoOrderChoice(order1: nat, index1: int, order2: nat, index2: int): (o: nat)
    ensures o == order1 || o == order2
  {
    if Abs(index1 as real - CentrePixel) > Abs(index2 as real - CentrePixel) then order2 else order1
  }

  /** The chosen order's pixel is at least as close to the centre as the
      other's, and a strictly closer order is always the one chosen. */
  lemma TwoOrderChoiceCloser(order1: nat, index1: int, order2: nat, index2: int)
    requires order1 != order2
    ensures var o := TwoOrderChoice(order1, index1, order2, index2);
      var (mine, other) := if o == order1 then (index1, index2) else (index2, index1);
      Abs(mine as real - CentrePixel) <= Abs(other as real - CentrePixel)
  {
  }

  /** `findWavelength` with the two-order test written as intended. The
      pixel of the wavelength in an order of the barycentric array is given
      by `indexIn` (`wavelength2index` at the wavelength sought, modelled in
      `Miscellaneous.Wavelength2Index`). With `closest_only` and no order
      found, the function falls off its end and returns `None`. */
  function FindWavelength(w: real, bary: seq<seq<real>>, wl: seq<seq<real>>, closestOnly: bool,
                          indexIn: seq<real> -> Result<int>): (r: Result<Found>)
    requires WellShaped(bary) && WellShaped(wl)
    ensures !WithinArray(w, bary) ==> r == Raise(AssertionError)
    ensures r.Ok? ==> |OrdersContaining(w, wl, Orders)| < 3
    ensures r.Ok? && r.value.Order? ==> r.value.o in OrdersContaining(w, wl, Orders)
    // inside the array, the result is decided by the orders holding the wavelength
    ensures WithinArray(w, bary) ==> r == ChooseAmong(OrdersContaining(w, wl, Orders), bary, closestOnly, indexIn)
  {
    if !WithinArray(w, bary) then Raise(AssertionError)
    else ChooseAmong(OrdersContaining(w, wl, Orders), bary, closestOnly, indexIn)
  }

  /** The choice `findWavelength` makes among the orders `found` that hold the
      wavelength, with the two-order test written as intended. */
  function ChooseAmong(found: seq<nat>, bary: seq<seq<real>>, closestOnly: bool,
                       indexIn: seq<real> -> Result<int>): (r: Result<Found>)
    requires forall a :: 0 <= a < |found| ==> found[a] < |bary|
    ensures |found| >= 3 ==> r == Raise(AssertionError)
    ensures |found| < 3 && !closestOnly ==> r == Ok(OrderTuple(found))
    ensures closestOnly && |found| == 1 ==> r == Ok(Order(found[0]))
    ensures closestOnly && |found| == 0 ==> r == Ok(NoOrder)
    ensures closestOnly && |found| == 2 ==>
      var index1, index2 := indexIn(bary[found[0]]), indexIn(bary[found[1]]);
      && (index1.Raise? ==> r == Raise(index1.error))
      && (index1.Ok? && index2.Raise? ==> r == Raise(index2.error))
      && (index1.Ok? && index2.Ok? ==> r == Ok(Order(TwoOrderChoice(found[0], index1.value, found[1], index2.value))))
  {
    if |found| >= 3 then Raise(AssertionError)
    else if !closestOnly then Ok(OrderTuple(found))
    else if |found| == 1 then Ok(Order(found[0]))
    else if |found| == 2 then
      var index1 :- indexIn(bary[found[0]]);
      var index2 :- indexIn(bary[found[1]]);
      Ok(Order(TwoOrderChoice(found[0], index1, found[1], index2)))
    else Ok(NoOrder)
  }

  /** Wherever the code as written returns, the intended version returns the
      same. */
  lemma FindWavelengthExtends(w: real, bary: seq<seq<real>>, wl: seq<seq<real>>, closestOnly: bool,
                              indexIn: seq<real> -> Result<int>)
    requires WellShaped(bary) && WellShaped(wl)
    requires FindWavelengthAsWritten(w, bary, wl, closestOnly).Ok?
    ensures FindWavelength(w, bary, wl, closestOnly, indexIn) == FindWavelengthAsWritten(w, bary, wl, closestOnly)
  {
  }

  /** A wavelength inside the array that two orders contain, such as 5039 Å
      in orders 39 and 40: the code as written raises `TypeError`, while the
      intended version returns the order in which the wavelength is nearer
      the centre of the detector. */
  lemma FindWavelengthTwoOrders(w: real, bary: seq<seq<real>>, wl: seq<seq<real>>,
                                indexIn: seq<real> -> Result<int>)
    requires WellShaped(bary) && WellShaped(wl) && WithinArray(w, bary)
    requires |OrdersContaining(w, wl, Orders)| == 2
    requires indexIn(bary[OrdersContaining(w, wl, Orders)[0]]).Ok?
    requires indexIn(bary[OrdersContaining(w, wl, Orders)[1]]).Ok?
    ensures FindWavelengthAsWritten(w, bary, wl, true) == Raise(TypeError)
    ensures var found := OrdersContaining(w, wl, Orders);
      var i1 := indexIn(bary[found[0]]).value;
      var i2 := indexIn(bary[found[1]]).value;
      FindWavelength(w, bary, wl, true, indexIn)
        == Ok(Order(if Abs(i1 as real - CentrePixel) > Abs(i2 as real - CentrePixel) then found[1] else found[0]))
  {
  }

  // -------------------------------------------------------------- plotOrder

  /** The data `plotOrder` draws for an order: its wavelengths and its photon
      flux. The index must be an order number 0 to 71. */
  function PlotOrderData(index: int, wl: seq<seq<real>>, flux: seq<seq<real>>): (r: Result<(seq<real>, seq<real>)>)
    requires |wl| == Orders && |flux| == Orders
    ensures r.Ok? <==> 0 <= index < Orders
    ensures r.Raise? ==> r.error == AssertionError
    ensures r.Ok? ==> r.value == (wl[index], flux[index])
  {
    if 0 <= index <= 71 then Ok((wl[index], flux[index])) else Raise(AssertionError)
  }
}

=== FILE: pair_separations.dfy ===
/** The pure bookkeeping of the pair-separation plotting script
    (varconlib/scripts/plot_pair_wise_separations.py): turning a pair label
    such as `6138.313Fe1_6139.390Fe1_60` into display text, the weighted mean
    of a column with missing values, the fixed-limit BERV binning, the
    order-boundary positions, the `label_order` dictionary of pairs, and the
    nine-column results row.

    The weighted mean and its error (`weighted_mean_and_error`) live in a
    library module that is not part of this model; they enter as the
    parameter `meanAndError`, which may raise.
 */
module PairSeparations {
  import opened Wrappers
  import opened Text
  import opened Elements
  import opened ScriptCommon

  // --------------------------------------------------------- label formatting

  /** The pieces of one transition label such as `6138.313Fe1`: the first
      eight characters are the wavelength, then the element symbol, and the
      last character is the ionisation state. */
  datatype LabelParts = LabelParts(wavelength: string, element: string, state: char)

  /** `t[:8]`, `t[8:][:-1]` and `t[8:][-1]`. Taking the last character of
      an empty rest raises `IndexError`. */
  function SplitTransitionLabel(t: string): (r: Result<LabelParts>)
    ensures r.Ok? <==> |t| > 8
    ensures r.Raise? ==> r.error == IndexError
    ensures r.Ok? ==> |r.value.wavelength| == 8
    ensures r.Ok? ==> t == r.value.wavelength + r.value.element + [r.value.state]
  {
    var ion := Slice(t, 8, |t|);
    var state :- CharAt(ion, -1);
    Ok(LabelParts(Slice(t, 0, 8), Slice(ion, 0, -1), state))
  }

  /** `int(c)` for a one-character text: its digit value, `None` (Python's
      `ValueError`) for anything but a digit. */
  lemma OneCharInt(c: char)
    ensures ParseInt([c]) == if IsDigit(c) then Some(c as int - '0' as int) else None
  {
    if IsDigit(c) {
      assert AllDigits([c]);
      assert [c][..0] == [];
      assert DigitsValue([c]) == DigitValue(c);
    }
  }

  /** `roman_numerals[int(c)]` for the one-character state: `int` raises
      `ValueError` on a non-digit, and the table has no entry for 0. */
  function StateNumeral(c: char): (r: Result<string>)
    ensures r.Ok? <==> '1' <= c <= '9'
    ensures r.Raise? ==> (r.error == ValueError <==> !IsDigit(c))
    ensures r.Raise? ==> (r.error == KeyError <==> c == '0')
    ensures r.Ok? ==> RomanValue(r.value) == Some(c as int - '0' as int)
  {
    OneCharInt(c);
    match ParseInt([c])
    case None => Raise(ValueError)
    case Some(k) =>
      if 1 <= k <= 10 then
        RomanNumeralRoundTrip(k);
        Ok(RomanNumeral(k))
      else Raise(KeyError)
  }

  /** One transition as it appears in the formatted label: `Fe I 6138.313`,
      or `Fe I $\lambda6138.313$` for LaTeX. */
  function Describe(p: LabelParts, numeral: string, latex: bool): string {
    if latex then p.element + " " + numeral + " $\\lambda" + p.wavelength + "$"
    else p.element + " " + numeral + " " + p.wavelength
  }

  /** Regrouping a concatenation. */
  lemma Regroup(x: string, a: string, b: string, c: string)
    ensures x + (a + b + c) == x + a + b + c
  {
  }

  /** The two transitions of a pair label with their states as numerals.
      The label must split on '_' into exactly three pieces (else unpacking
      raises `ValueError`); both transitions are cut up before either state
      is looked up. */
  function PairPieces(pairLabel: string): (r: Result<(LabelParts, string, LabelParts, string)>)
    ensures r.Ok? <==> var parts := Split(pairLabel, '_');
      |parts| == 3 && |parts[0]| > 8 && |parts[1]| > 8
      && '1' <= parts[0][|parts[0]| - 1] <= '9' && '1' <= parts[1][|parts[1]| - 1] <= '9'
    ensures |Split(pairLabel, '_')| != 3 ==> r == Raise(ValueError)
  {
    var parts := Split(pairLabel, '_');
    if |parts| != 3 then Raise(ValueError)
    else
      var t1 :- SplitTransitionLabel(parts[0]);
      var t2 :- SplitTransitionLabel(parts[1]);
      var n1 :- StateNumeral(t1.state);
      var n2 :- StateNumeral(t2.state);
      Ok((t1, n1, t2, n2))
  }

  /** `format_pair_label(pair_label, use_latex)`. */
  function FormatPairLabel(pairLabel: string, latex: bool): (r: Result<string>)
    ensures r.Ok? <==> PairPieces(pairLabel).Ok?
    ensures r.Raise? ==> r.error == PairPieces(pairLabel).error
  {
    var p :- PairPieces(pairLabel);
    Ok(FormatPieces(p, latex))
  }

  /** The text for the two transitions, separated by a comma. */
  function FormatPieces(p: (LabelParts, string, LabelParts, string), latex: bool): string {
    Describe(p.0, p.1, latex) + ", " + Describe(p.2, p.3, latex)
  }

  /** `'_'.join` of three texts. */
  lemma JoinThree(a: string, b: string, c: string)
    ensures Join('_', [a, b, c]) == a + "_" + b + "_" + c
  {
    var parts := [a, b, c];
    assert parts[1..] == [b, c];
    assert [b, c][1..] == [c];
    assert Join('_', [b, c]) == b + "_" + Join('_', [c]);
  }

  /** A label built from its pieces formats to those pieces: the element,
      the state as a Roman numeral and the wavelength, for each transition,
      with the order dropped. */
  lemma FormatPairLabelRoundTrip(wl1: string, el1: string, s1: char, wl2: string, el2: string, s2: char,
                                 order: string)
    requires |wl1| == 8 && |wl2| == 8 && '1' <= s1 <= '9' && '1' <= s2 <= '9'
    requires '_' !in wl1 + el1 + [s1] && '_' !in wl2 + el2 + [s2] && '_' !in order
    ensures FormatPairLabel(wl1 + el1 + [s1] + "_" + wl2 + el2 + [s2] + "_" + order, false)
         == Ok(el1 + " " + RomanNumeral(s1 as int - '0' as int) + " " + wl1 + ", "
               + el2 + " " + RomanNumeral(s2 as int - '0' as int) + " " + wl2)
  {
    var t1, t2 := wl1 + el1 + [s1], wl2 + el2 + [s2];
    var pairLabel := wl1 + el1 + [s1] + "_" + wl2 + el2 + [s2] + "_" + order;
    assert pairLabel == t1 + "_" + t2 + "_" + order;
    JoinThree(t1, t2, order);
    SplitJoin([t1, t2, order], '_');
    assert Split(pairLabel, '_') == [t1, t2, order];
    TransitionPieces(wl1, el1, s1);
    TransitionPieces(wl2, el2, s2);
    var n1, n2 := RomanNumeral(s1 as int - '0' as int), RomanNumeral(s2 as int - '0' as int);
    var p1, p2 := LabelParts(wl1, el1, s1), LabelParts(wl2, el2, s2);
    assert PairPieces(pairLabel) == Ok((p1, n1, p2, n2));
    assert FormatPairLabel(pairLabel, false) == Ok(FormatPieces((p1, n1, p2, n2), false));
    LatexOnlyWrapsWavelengths((p1, n1, p2, n2));
    Regroup(el1 + " " + n1 + " " + wl1 + ", ", el2, " ", n2);
  }

  /** The pieces of a transition label are the ones it was built from. */
  lemma TransitionPieces(wl: string, el: string, s: char)
    requires |wl| == 8 && '1' <= s <= '9'
    ensures SplitTransitionLabel(wl + el + [s]) == Ok(LabelParts(wl, el, s))
    ensures StateNumeral(s) == Ok(RomanNumeral(s as int - '0' as int))
  {
    var t := wl + el + [s];
    assert Slice(t, 0, 8) == wl;
    assert Slice(t, 8, |t|) == el + [s];
    assert Slice(el + [s], 0, -1) == el;
    OneCharInt(s);
  }

  /** The LaTeX form fails exactly when the plain one does, and with the
      same error. */
  lemma LatexSameOutcome(pairLabel: string)
    ensures FormatPairLabel(pairLabel, true).Ok? <==> FormatPairLabel(pairLabel, false).Ok?
    ensures FormatPairLabel(pairLabel, true).Raise? ==>
      FormatPairLabel(pairLabel, true).error == FormatPairLabel(pairLabel, false).error
  {
  }

  /** The two forms differ only by writing each wavelength as
      ` $\lambda…$` in place of ` …`. */
  lemma LatexOnlyWrapsWavelengths(p: (LabelParts, string, LabelParts, string))
    ensures
      var h1, h2 := p.0.element + " " + p.1, p.2.element + " " + p.3;
      && FormatPieces(p, false) == h1 + " " + p.0.wavelength + ", " + h2 + " " + p.2.wavelength
      && FormatPieces(p, true) == h1 + " $\\lambda" + p.0.wavelength + "$, " + h2 + " $\\lambda" + p.2.wavelength + "$"
  {
    var x := Describe(p.0, p.1, false) + ", ";
    var y := Describe(p.0, p.1, true) + ", ";
    Regroup(x, p.2.element + " " + p.3, " ", p.2.wavelength);
    Regroup(x, p.2.element, " ", p.3);
    Regroup(y, p.2.element + " " + p.3 + " $\\lambda", p.2.wavelength, "$");
    Regroup(y, p.2.element + " " + p.3, " $\\lambda", p.2.wavelength);
    Regroup(y, p.2.element, " ", p.3);
  }

  // ------------------------------------------------------ weighted mean of a column

  /** `weighted_mean_and_error(values, errs)`: the mean and its error. */
  type MeanAndError = (seq<real>, seq<real>) -> Result<(real, real)>

  /** A result of `get_weighted_mean`; `NoEstimate` is `(nan, nan)`. */
  datatype Estimate = Estimate(mean: real, err: real) | NoEstimate

  /** `remove_nans(values, return_mask=True)` and `errs[mask]`: the present
      values, in order, with the errors at the same places. `None` stands
      for NaN. */
  function DropMissing(values: seq<Option<real>>, errs: seq<real>): (r: (seq<real>, seq<real>))
    requires |values| == |errs|
    ensures |r.0| == |r.1| <= |values|
    decreases |values|
  {
    if |values| == 0 then ([], [])
    else
      var rest := DropMissing(values[1..], errs[1..]);
      if values[0].Some? then ([values[0].value] + rest.0, [errs[0]] + rest.1) else rest
  }

  /** With nothing missing, nothing is dropped. */
  lemma {:induction false} DropMissingKeepsPresent(values: seq<real>, errs: seq<real>)
    requires |values| == |errs|
    ensures DropMissing(seq(|values|, i requires 0 <= i < |values| => Some(values[i])), errs) == (values, errs)
    decreases |values|
  {
    if |values| > 0 {
      var opts := seq(|values|, i requires 0 <= i < |values| => Some(values[i]));
      DropMissingKeepsPresent(values[1..], errs[1..]);
      assert opts[1..] == seq(|values| - 1, i requires 0 <= i < |values| - 1 => Some(values[1..][i]));
      assert [values[0]] + values[1..] == values;
      assert [errs[0]] + errs[1..] == errs;
    }
  }

  /** A missing value, whatever its error, is dropped together with that
      error wherever it stands. */
  lemma {:induction false} DropMissingIgnoresMissing(values: seq<Option<real>>, errs: seq<real>, i: nat, e: real)
    requires |values| == |errs| && i <= |values|
    ensures DropMissing(values[..i] + [None] + values[i..], errs[..i] + [e] + errs[i..]) == DropMissing(values, errs)
    decreases i
  {
    var vs, es := values[..i] + [None] + values[i..], errs[..i] + [e] + errs[i..];
    if i == 0 {
      assert vs[1..] == values && es[1..] == errs;
    } else {
      assert vs[0] == values[0] && es[0] == errs[0];
      assert vs[1..] == values[1..][..i - 1] + [None] + values[1..][i - 1..];
      assert es[1..] == errs[1..][..i - 1] + [e] + errs[1..][i - 1..];
      DropMissingIgnoresMissing(values[1..], errs[1..], i - 1, e);
    }
  }

  /** `get_weighted_mean`: the weighted mean and error of the present values;
      a `ZeroDivisionError` from the library gives `(nan, nan)`, any other
      error propagates. */
  function GetWeightedMean(values: seq<Option<real>>, errs: seq<real>, meanAndError: MeanAndError): (r: Result<Estimate>)
    requires |values| == |errs|
    ensures r == Ok(NoEstimate) <==> meanAndError(DropMissing(values, errs).0, DropMissing(values, errs).1) == Raise(ZeroDivisionError)
    ensures r.Raise? ==> r.error != ZeroDivisionError
    ensures r.Ok? && r.value.Estimate? ==>
      meanAndError(DropMissing(values, errs).0, DropMissing(values, errs).1) == Ok((r.value.mean, r.value.err))
    // the library's estimate is returned as is, and its other errors propagate unchanged
    ensures var out := meanAndError(DropMissing(values, errs).0, DropMissing(values, errs).1);
      && (out.Ok? ==> r == Ok(Estimate(out.value.0, out.value.1)))
      && (out.Raise? && out.error != ZeroDivisionError ==> r == Raise(out.error))
  {
    var kept := DropMissing(values, errs);
    match meanAndError(kept.0, kept.1)
    case Ok(me) => Ok(Estimate(me.0, me.1))
    case Raise(e) => if e == ZeroDivisionError then Ok(NoEstimate) else Raise(e)
  }

  /** Missing entries do not change the weighted mean. */
  lemma GetWeightedMeanIgnoresMissing(values: seq<Option<real>>, errs: seq<real>, meanAndError: MeanAndError,
                                      i: nat, e: real)
    requires |values| == |errs| && i <= |values|
    ensures GetWeightedMean(values[..i] + [None] + values[i..], errs[..i] + [e] + errs[i..], meanAndError)
         == GetWeightedMean(values, errs, meanAndError)
  {
    DropMissingIgnoresMissing(values, errs, i, e);
  }

  // ------------------------------------------------------------ BERV binning

  /** One bin of the BERV plot: `EmptyBin` is the NaN midpoint, mean and
      error of a bin holding no point. */
  datatype Bin = EmptyBin | FilledBin(midpoint: real, mean: real, err: real)

  /** Point `i` lies strictly inside the bin. */
  function InBin(xs: seq<real>, lo: real, hi: real): nat -> bool {
    (i: nat) => i < |xs| && lo < xs[i] < hi
  }

  /** The points of a bin are exactly those strictly inside its limits. */
  lemma InBinSpec(xs: seq<real>, lo: real, hi: real)
    ensures Below(Where(|xs|, InBin(xs, lo, hi)), |xs|)
    ensures forall i :: 0 <= i < |xs| ==> (i in Where(|xs|, InBin(xs, lo, hi)) <==> lo < xs[i] < hi)
    ensures forall k :: 0 <= k < |Where(|xs|, InBin(xs, lo, hi))| ==>
      lo < xs[Where(|xs|, InBin(xs, lo, hi))[k]] < hi
  {
    WhereSpec(|xs|, InBin(xs, lo, hi));
  }

  /** One bin of `plot_pair_stability`: the points strictly between the
      limits, their midpoint, and the weighted mean and error of their
      values. */
  function BinOf(xs: seq<real>, ys: seq<real>, es: seq<real>, lo: real, hi: real,
                 meanAndError: MeanAndError): (r: Result<Bin>)
    requires |xs| == |ys| == |es|
    ensures r.Ok? && r.value.EmptyBin? <==> forall i :: 0 <= i < |xs| ==> !(lo < xs[i] < hi)
    ensures r.Ok? && r.value.FilledBin? ==> lo < r.value.midpoint < hi && r.value.midpoint - lo == hi - r.value.midpoint
    ensures r.Ok? && r.value.FilledBin? ==>
      meanAndError(Masked(ys, InBin(xs, lo, hi)), Masked(es, InBin(xs, lo, hi))) == Ok((r.value.mean, r.value.err))
    ensures r.Raise? ==> meanAndError(Masked(ys, InBin(xs, lo, hi)), Masked(es, InBin(xs, lo, hi))).Raise?
  {
    var inside := Where(|xs|, InBin(xs, lo, hi));
    InBinSpec(xs, lo, hi);
    if |inside| == 0 then
      Ok(EmptyBin)
    else
      assert lo < xs[inside[0]] < hi;
      var me :- meanAndError(Masked(ys, InBin(xs, lo, hi)), Masked(es, InBin(xs, lo, hi)));
      Ok(FilledBin((hi + lo) / 2.0, me.0, me.1))
  }

  /** The bins for consecutive limit pairs, in order. */
  function Bins(xs: seq<real>, ys: seq<real>, es: seq<real>, ps: seq<(real, real)>,
                meanAndError: MeanAndError): Result<seq<Bin>>
    requires |xs| == |ys| == |es|
    decreases |ps|
  {
    if |ps| == 0 then Ok([])
    else
      var first :- BinOf(xs, ys, es, ps[0].0, ps[0].1, meanAndError);
      var rest :- Bins(xs, ys, es, ps[1..], meanAndError);
      Ok([first] + rest)
  }

  /** The binning loop of `plot_pair_stability`: one bin per consecutive
      pair of `separation_limits`. */
  function BinSeries(xs: seq<real>, ys: seq<real>, es: seq<real>, limits: seq<real>,
                     meanAndError: MeanAndError): Result<seq<Bin>>
    requires |xs| == |ys| == |es|
  {
    Bins(xs, ys, es, Pairwise(limits), meanAndError)
  }

  lemma {:induction false} BinsSpec(xs: seq<real>, ys: seq<real>, es: seq<real>, ps: seq<(real, real)>,
                                    meanAndError: MeanAndError)
    requires |xs| == |ys| == |es|
    ensures Bins(xs, ys, es, ps, meanAndError).Ok? <==>
      forall k :: 0 <= k < |ps| ==> BinOf(xs, ys, es, ps[k].0, ps[k].1, meanAndError).Ok?
    ensures Bins(xs, ys, es, ps, meanAndError).Ok? ==>
      && |Bins(xs, ys, es, ps, meanAndError).value| == |ps|
      && forall k :: 0 <= k < |ps| ==>
           BinOf(xs, ys, es, ps[k].0, ps[k].1, meanAndError) == Ok(Bins(xs, ys, es, ps, meanAndError).value[k])
    decreases |ps|
  {
    if |ps| > 0 {
      BinsSpec(xs, ys, es, ps[1..], meanAndError);
      assert forall k :: 1 <= k < |ps| ==> ps[k] == ps[1..][k - 1];
    }
  }

  /** There are `len(limits) - 1` bins; bin `k` covers the open interval
      between limits `k` and `k + 1`, and is empty exactly when no point lies
      strictly inside it. */
  lemma BinSeriesShape(xs: seq<real>, ys: seq<real>, es: seq<real>, limits: seq<real>,
                       meanAndError: MeanAndError, k: nat)
    requires |xs| == |ys| == |es| && BinSeries(xs, ys, es, limits, meanAndError).Ok?
    requires k + 1 < |limits|
    ensures |BinSeries(xs, ys, es, limits, meanAndError).value| == |limits| - 1
    ensures BinOf(xs, ys, es, limits[k], limits[k + 1], meanAndError) == Ok(BinSeries(xs, ys, es, limits, meanAndError).value[k])
    ensures BinSeries(xs, ys, es, limits, meanAndError).value[k].EmptyBin? <==>
      forall i :: 0 <= i < |xs| ==> !(limits[k] < xs[i] < limits[k + 1])
  {
    PairwiseConsecutive(limits);
    BinsSpec(xs, ys, es, Pairwise(limits), meanAndError);
  }

  // --------------------------------------------------------- order boundaries

  /** Index `i` starts a new echelle order in the list of pair order numbers. */
  function ChangesAt(orders: seq<int>): nat -> bool {
    (i: nat) => 1 <= i < |orders| && orders[i - 1] != orders[i]
  }

  function Halves(idx: seq<nat>): (r: seq<real>)
    ensures |r| == |idx|
  {
    seq(|idx|, k requires 0 <= k < |idx| => idx[k] as real - 0.5)
  }

  lemma HalvesAppend(idx: seq<nat>, i: nat)
    ensures Halves(idx + [i]) == Halves(idx) + [i as real - 0.5]
  {
  }

  /** `i - 0.5` is among the halves exactly when `i` is among the indices. */
  lemma HalvesMember(idx: seq<nat>, i: nat)
    ensures i as real - 0.5 in Halves(idx) <==> i in idx
  {
    var r := Halves(idx);
    if i as real - 0.5 in r {
      var k :| 0 <= k < |r| && r[k] == i as real - 0.5;
      assert idx[k] == i;
    }
    if i in idx {
      var k :| 0 <= k < |idx| && idx[k] == i;
      assert r[k] == i as real - 0.5;
    }
  }

  /** The boundary positions are `i - 0.5` for exactly the indices `i` where
      the order number changes, and lie within the plotted index range. */
  lemma HalvesOfChanges(orders: seq<int>)
    ensures forall i :: 1 <= i < |orders| ==>
      (i as real - 0.5 in Halves(Where(|orders|, ChangesAt(orders))) <==> orders[i - 1] != orders[i])
    ensures forall k :: 0 <= k < |Where(|orders|, ChangesAt(orders))| ==>
      0.5 <= Halves(Where(|orders|, ChangesAt(orders)))[k] <= |orders| as real - 1.5
  {
    var idx := Where(|orders|, ChangesAt(orders));
    WhereSpec(|orders|, ChangesAt(orders));
    forall i | 1 <= i < |orders|
      ensures i as real - 0.5 in Halves(idx) <==> orders[i - 1] != orders[i]
    {
      HalvesMember(idx, i);
      assert ChangesAt(orders)(i) <==> orders[i - 1] != orders[i];
    }
    forall k | 0 <= k < |idx|
      ensures 0.5 <= Halves(idx)[k] <= |orders| as real - 1.5
    {
      assert ChangesAt(orders)(idx[k]);
    }
  }

  /** The order-boundary loop of `plot_pair_index_offsets`: a line at
      `i - 0.5` wherever the order number changes between `i - 1` and `i`. */
  method OrderBoundaries(orders: seq<int>) returns (r: seq<real>)
    ensures forall i :: 1 <= i < |orders| ==> (i as real - 0.5 in r <==> orders[i - 1] != orders[i])
    ensures forall k :: 0 <= k < |r| ==> 0.5 <= r[k] <= |orders| as real - 1.5
    ensures forall a, b :: 0 <= a < b < |r| ==> r[a] < r[b]
  {
    r := [];
    for i := 0 to |orders|
      invariant r == Halves(Where(i, ChangesAt(orders)))
    {
      if i != 0 && orders[i - 1] != orders[i] {
        HalvesAppend(Where(i, ChangesAt(orders)), i);
        r := r + [i as real - 0.5];
      }
    }
    HalvesOfChanges(orders);
    WhereSpec(|orders|, ChangesAt(orders));
  }

  // --------------------------------------------------------- pairs dictionary

  /** `pairs_dict`: every pair under `label_order` for each order it is
      measured in; a later pair overwrites an earlier one with the same key.
      A pair is given by its label and its orders, and stands for its index. */
  function PairsDict(items: seq<(string, seq<int>)>): map<string, nat>
    decreases |items|
  {
    if |items| == 0 then map[]
    else
      var last := items[|items| - 1];
      PairsDict(items[..|items| - 1]) + map o | o in last.1 :: OrderLabel(last.0, o) := |items| - 1
  }

  /** The keys added for the last pair. */
  lemma LastPairKeys(items: seq<(string, seq<int>)>, key: string)
    requires |items| > 0
    ensures var last := items[|items| - 1];
      var tail := seq(|last.1|, k requires 0 <= k < |last.1| => OrderLabel(last.0, last.1[k]));
      && OrderLabels(items) == OrderLabels(items[..|items| - 1]) + tail
      && (key in tail <==> exists o :: o in last.1 && key == OrderLabel(last.0, o))
  {
    var last := items[|items| - 1];
    var tail := seq(|last.1|, k requires 0 <= k < |last.1| => OrderLabel(last.0, last.1[k]));
    if key in tail {
      var k :| 0 <= k < |tail| && tail[k] == key;
      assert last.1[k] in last.1;
    }
    if exists o :: o in last.1 && key == OrderLabel(last.0, o) {
      var o :| o in last.1 && key == OrderLabel(last.0, o);
      var k :| 0 <= k < |last.1| && last.1[k] == o;
      assert tail[k] == key;
    }
  }

  /** The dictionary's keys are the `label_order` keys of the pairs. */
  lemma {:induction false} PairsDictKeys(items: seq<(string, seq<int>)>)
    ensures forall key :: key in PairsDict(items) <==> key in OrderLabels(items)
    decreases |items|
  {
    if |items| > 0 {
      PairsDictKeys(items[..|items| - 1]);
      forall key
        ensures key in PairsDict(items) <==> key in OrderLabels(items)
      {
        LastPairKeys(items, key);
      }
    }
  }

  /** `key` is the key of pair `i` for one of the orders it is measured in. */
  predicate KeyOf(items: seq<(string, seq<int>)>, key: string, i: nat) {
    i < |items| && exists o :: o in items[i].1 && key == OrderLabel(items[i].0, o)
  }

  /** Each key leads to a pair measured in that key's order. */
  lemma {:induction false} PairsDictValues(items: seq<(string, seq<int>)>)
    ensures forall key :: key in PairsDict(items) ==> KeyOf(items, key, PairsDict(items)[key])
    decreases |items|
  {
    if |items| > 0 {
      var front := items[..|items| - 1];
      var last := items[|items| - 1];
      PairsDictValues(front);
      forall key | key in PairsDict(items)
        ensures KeyOf(items, key, PairsDict(items)[key])
      {
        if exists o :: o in last.1 && key == OrderLabel(last.0, o) {
          var o :| o in last.1 && key == OrderLabel(last.0, o);
          assert PairsDict(items)[key] == |items| - 1;
          assert o in items[|items| - 1].1 && key == OrderLabel(items[|items| - 1].0, o);
        } else {
          var v := PairsDict(front)[key];
          assert PairsDict(items)[key] == v;
          assert KeyOf(front, key, v);
          var o :| o in front[v].1 && key == OrderLabel(front[v].0, o);
          assert items[v] == front[v];
          assert o in items[v].1 && key == OrderLabel(items[v].0, o);
        }
      }
    }
  }

  /** With distinct pair labels no key is overwritten: `label_order` leads
      to the pair with that label, for every order it is measured in. */
  lemma {:induction false} PairsDictFinds(items: seq<(string, seq<int>)>, i: nat, o: int)
    requires forall a, b :: 0 <= a < b < |items| ==> items[a].0 != items[b].0
    requires i < |items| && o in items[i].1
    ensures OrderLabel(items[i].0, o) in PairsDict(items)
    ensures PairsDict(items)[OrderLabel(items[i].0, o)] == i
    decreases |items|
  {
    var front := items[..|items| - 1];
    var last := items[|items| - 1];
    var key := OrderLabel(items[i].0, o);
    if i < |items| - 1 {
      assert items[i] == front[i];
      PairsDictFinds(front, i, o);
      forall o' | o' in last.1
        ensures OrderLabel(last.0, o') != key
      {
        if OrderLabel(last.0, o') == key {
          OrderLabelInjective(last.0, o', items[i].0, o);
        }
      }
    }
  }

  // ---------------------------------------------------------- results table

  /** The statistics of one fibre-change era of one star. */
  datatype EraFit = EraFit(observations: int, chiSquaredNu: real, weightedMean: real, errorOnMean: real)

  /** What `plot_model_diff_vs_pair_separation` returns for one star. */
  datatype StarResult = StarResult(name: string, pre: EraFit, post: EraFit)

  /** The header of the multi-star results file. */
  const ResultsHeader: seq<string> := ["#star_name",
                                       "#obs_pre", "chisq_pre", "w_mean_pre", "eotwm_pre",
                                       "#obs_post", "chisq_post", "w_mean_post", "eotwm_post"]

  function EraCells(e: EraFit): seq<Cell> {
    [IntCell(e.observations), RealCell(e.chiSquaredNu), RealCell(e.weightedMean), RealCell(e.errorOnMean)]
  }

  /** The row written for one star, in the order of the returned tuple. */
  function ResultRow(r: StarResult): (row: seq<Cell>)
    ensures |row| == |ResultsHeader|
  {
    [TextCell(r.name)] + EraCells(r.pre) + EraCells(r.post)
  }

  function ReadEra(cells: seq<Cell>): Option<EraFit>
    requires |cells| == 4
  {
    if cells[0].IntCell? && cells[1].RealCell? && cells[2].RealCell? && cells[3].RealCell? then
      Some(EraFit(cells[0].n, cells[1].x, cells[2].x, cells[3].x))
    else None
  }

  /** Reading a results row back; `None` for a row of the wrong shape. */
  function ReadResultRow(row: seq<Cell>): Option<StarResult> {
    if |row| != |ResultsHeader| || !row[0].TextCell? then None
    else
      var pre :- ReadEra(row[1..5]);
      var post :- ReadEra(row[5..9]);
      Some(StarResult(row[0].s, pre, post))
  }

  /** The row has one cell per header column and can be read back into the
      result it came from. */
  lemma ResultRowRoundTrip(r: StarResult)
    ensures ReadResultRow(ResultRow(r)) == Some(r)
  {
    var row := ResultRow(r);
    assert row[1..5] == EraCells(r.pre);
    assert row[5..9] == EraCells(r.post);
  }
}

=== FILE: script_common.dfy ===
/** Pieces the analysis scripts share. `pairwise` is defined, word for word,
    in two of the scripts; boolean-mask selection (`a[mask]`) is how every
    script cuts its arrays down; and `label + '_' + str(order)` is how the
    scripts key a transition or pair measured in one echelle order.
 */
module ScriptCommon {
  import opened Wrappers
  import opened Text

  // ----------------------------------------------------------------- pairwise

  /** `pairwise(s)`: s0, s1, s2, ... gives (s0, s1), (s1, s2), ... */
  function Pairwise<T>(s: seq<T>): seq<(T, T)>
    decreases |s|
  {
    if |s| < 2 then [] else [(s[0], s[1])] + Pairwise(s[1..])
  }

  /** There is one pair fewer than elements (none for an empty sequence),
      and pair `k` holds elements `k` and `k + 1`. */
  lemma {:induction false} PairwiseConsecutive<T>(s: seq<T>)
    ensures |Pairwise(s)| == if |s| == 0 then 0 else |s| - 1
    ensures forall k :: 0 <= k < |Pairwise(s)| ==> Pairwise(s)[k] == (s[k], s[k + 1])
    decreases |s|
  {
    if |s| >= 2 {
      var rest := s[1..];
      PairwiseConsecutive(rest);
      forall k | 1 <= k < |Pairwise(s)|
        ensures Pairwise(s)[k] == (s[k], s[k + 1])
      {
        assert Pairwise(s)[k] == Pairwise(rest)[k - 1];
        assert rest[k - 1] == s[k] && rest[k] == s[k + 1];
      }
    }
  }

  function Firsts<T>(ps: seq<(T, T)>): seq<T> {
    seq(|ps|, k requires 0 <= k < |ps| => ps[k].0)
  }

  /** The pairs lose nothing: their first members followed by the last
      element give the sequence back. */
  lemma PairwiseRebuild<T>(s: seq<T>)
    requires |s| >= 1
    ensures Firsts(Pairwise(s)) + [s[|s| - 1]] == s
  {
    PairwiseConsecutive(s);
    var r := Firsts(Pairwise(s)) + [s[|s| - 1]];
    assert |r| == |s|;
    forall k | 0 <= k < |s|
      ensures r[k] == s[k]
    {
      if k < |s| - 1 {
        assert r[k] == Pairwise(s)[k].0;
      }
    }
  }

  // ------------------------------------------------------------------ masking

  /** The indices below `n` that `keep` selects, ascending: what a boolean
      mask picks out of an array of length `n`. */
  function Where(n: nat, keep: nat -> bool): seq<nat>
    decreases n
  {
    if n == 0 then [] else Where(n - 1, keep) + (if keep(n - 1) then [n - 1] else [])
  }

  predicate Ascending(idx: seq<nat>) {
    forall a, b :: 0 <= a < b < |idx| ==> idx[a] < idx[b]
  }

  predicate Below(idx: seq<nat>, n: nat) {
    forall k :: 0 <= k < |idx| ==> idx[k] < n
  }

  /** A mask picks, in ascending order, exactly the indices it holds for. */
  lemma {:induction false} WhereSpec(n: nat, keep: nat -> bool)
    ensures Below(Where(n, keep), n) && Ascending(Where(n, keep))
    ensures forall k :: 0 <= k < |Where(n, keep)| ==> keep(Where(n, keep)[k])
    ensures forall i :: 0 <= i < n ==> (i in Where(n, keep) <==> keep(i))
    decreases n
  {
    if n > 0 {
      WhereSpec(n - 1, keep);
    }
  }

  /** `a[idx]` for an index array: element `k` is `a[idx[k]]`. */
  function Select<T>(a: seq<T>, idx: seq<nat>): (r: seq<T>)
    requires Below(idx, |a|)
    ensures |r| == |idx|
  {
    seq(|idx|, k requires 0 <= k < |idx| => a[idx[k]])
  }

  /** `a[mask]`: the elements of `a` at the indices `keep` selects. */
  function Masked<T>(a: seq<T>, keep: nat -> bool): (r: seq<T>)
    ensures |r| == |Where(|a|, keep)|
  {
    WhereSpec(|a|, keep);
    Select(a, Where(|a|, keep))
  }

  /** Masking keeps the kept elements, in their order: element `k` of the
      result is the element at the `k`-th selected index. */
  lemma MaskedElements<T>(a: seq<T>, keep: nat -> bool)
    ensures Below(Where(|a|, keep), |a|)
    ensures forall k :: 0 <= k < |Masked(a, keep)| ==> Masked(a, keep)[k] == a[Where(|a|, keep)[k]]
  {
    WhereSpec(|a|, keep);
  }

  // -------------------------------------------------------------- CSV cells

  /** A cell of a CSV row as the scripts hand it to `csv.writer`. */
  datatype Cell = TextCell(s: string) | IntCell(n: int) | RealCell(x: real)

  // ------------------------------------------------------- order-keyed labels

  /** `'_'.join([label, str(order)])`. */
  function OrderLabel(name: string, order: int): string {
    Join('_', [name, IntToString(order)])
  }

  /** The decimal form of an integer holds no '_'. */
  lemma NoSeparatorInInt(n: int)
    ensures '_' !in IntToString(n)
  {
    var s := IntToString(n);
    if n >= 0 {
      assert AllDigits(NatToString(n));
    } else {
      assert s == "-" + NatToString(-n);
      assert AllDigits(NatToString(-n));
    }
  }

  /** The position of the last `sep` among the first `n` characters of `x`,
      or -1 when there is none. */
  function LastIndex(x: string, sep: char, n: nat): int
    requires n <= |x|
  {
    if n == 0 then -1 else if x[n - 1] == sep then n - 1 else LastIndex(x, sep, n - 1)
  }

  lemma {:induction false} LastIndexAfter(a: string, b: string, sep: char, n: nat)
    requires sep !in b && |a| < n <= |a| + 1 + |b|
    ensures LastIndex(a + [sep] + b, sep, n) == |a|
    decreases n
  {
    var x := a + [sep] + b;
    if n - 1 > |a| {
      assert x[n - 1] == b[n - 2 - |a|];
      LastIndexAfter(a, b, sep, n - 1);
    }
  }

  /** Two texts joined by a separator that the second does not contain are
      told apart again: the last separator is the joint. */
  lemma SeparatorSuffix(a1: string, b1: string, a2: string, b2: string, sep: char)
    requires sep !in b1 && sep !in b2
    requires a1 + [sep] + b1 == a2 + [sep] + b2
    ensures a1 == a2 && b1 == b2
  {
    var x := a1 + [sep] + b1;
    LastIndexAfter(a1, b1, sep, |x|);
    LastIndexAfter(a2, b2, sep, |x|);
    assert b1 == x[|a1| + 1..] == b2;
    assert a1 == x[..|a1|] == a2;
  }

  /** `'_'.join` of two texts glues them with one '_'. */
  lemma OrderLabelIs(name: string, order: int)
    ensures OrderLabel(name, order) == name + "_" + IntToString(order)
  {
    var parts := [name, IntToString(order)];
    assert parts[1..] == [IntToString(order)];
    assert Join('_', parts[1..]) == IntToString(order);
  }

  /** The order comes back from the key: it is the last '_'-separated piece,
      and the text before it is the label. Hence distinct (label, order)
      combinations get distinct keys. */
  lemma OrderLabelInjective(l1: string, o1: int, l2: string, o2: int)
    requires OrderLabel(l1, o1) == OrderLabel(l2, o2)
    ensures l1 == l2 && o1 == o2
  {
    NoSeparatorInInt(o1);
    NoSeparatorInInt(o2);
    OrderLabelIs(l1, o1);
    OrderLabelIs(l2, o2);
    SeparatorSuffix(l1, IntToString(o1), l2, IntToString(o2), '_');
    IntToStringInjective(o1, o2);
  }

  /** The order is the last piece of the key's split, and reads back as the
      integer it came from. */
  lemma OrderLabelLastPiece(name: string, order: int)
    ensures var parts := Split(OrderLabel(name, order), '_');
      parts[|parts| - 1] == IntToString(order) && ParseInt(parts[|parts| - 1]) == Some(order)
  {
    var s := IntToString(order);
    NoSeparatorInInt(order);
    OrderLabelIs(name, order);
    SplitLast(name, s, '_');
    ParseIntRoundTrip(order);
  }

  /** Gluing a separator-free tail after a separator adds it as the last
      piece of the split. */
  lemma {:induction false} SplitLast(a: string, b: string, sep: char)
    requires sep !in b
    ensures var parts := Split(a + [sep] + b, sep); |parts| >= 2 && parts[|parts| - 1] == b
    decreases |a|
  {
    if |a| == 0 {
      assert a + [sep] + b == [sep] + b;
      assert ([sep] + b)[1..] == b;
      SplitPrefix(b, "", sep);
      assert b + "" == b;
    } else {
      var x := a + [sep] + b;
      assert x[1..] == a[1..] + [sep] + b;
      SplitLast(a[1..], b, sep);
      var rest := Split(x[1..], sep);
      if x[0] == sep {
        assert Split(x, sep) == [""] + rest;
      } else {
        assert Split(x, sep) == [[x[0]] + rest[0]] + rest[1..];
      }
    }
  }

  /** The keys of `items`, each a label with the orders it is measured in:
      for each item in turn, one `label_order` key per order. */
  function OrderLabels(items: seq<(string, seq<int>)>): seq<string>
    decreases |items|
  {
    if |items| == 0 then []
    else
      var last := items[|items| - 1];
      OrderLabels(items[..|items| - 1]) + seq(|last.1|, k requires 0 <= k < |last.1| => OrderLabel(last.0, last.1[k]))
  }

  function TotalOrders(items: seq<(string, seq<int>)>): nat
    decreases |items|
  {
    if |items| == 0 then 0 else TotalOrders(items[..|items| - 1]) + |items[|items| - 1].1|
  }

  /** One key per (item, order), and a text is a key exactly when it is the
      key of some item's label with one of that item's orders. */
  lemma {:induction false} OrderLabelsSpec(items: seq<(string, seq<int>)>)
    ensures |OrderLabels(items)| == TotalOrders(items)
    ensures forall key :: key in OrderLabels(items) <==>
      exists i, k :: 0 <= i < |items| && 0 <= k < |items[i].1| && key == OrderLabel(items[i].0, items[i].1[k])
    decreases |items|
  {
    if |items| > 0 {
      var front := items[..|items| - 1];
      var last := items[|items| - 1];
      OrderLabelsSpec(front);
      forall key
        ensures key in OrderLabels(items) <==>
          exists i, k :: 0 <= i < |items| && 0 <= k < |items[i].1| && key == OrderLabel(items[i].0, items[i].1[k])
      {
        if key in OrderLabels(items) {
          if key in OrderLabels(front) {
            var i, k :| 0 <= i < |front| && 0 <= k < |front[i].1| && key == OrderLabel(front[i].0, front[i].1[k]);
            assert items[i] == front[i];
          } else {
            var tail := seq(|last.1|, k requires 0 <= k < |last.1| => OrderLabel(last.0, last.1[k]));
            assert key in tail;
            var k :| 0 <= k < |tail| && tail[k] == key;
            assert key == OrderLabel(items[|items| - 1].0, items[|items| - 1].1[k]);
          }
        } else {
          forall i, k | 0 <= i < |items| && 0 <= k < |items[i].1|
            ensures key != OrderLabel(items[i].0, items[i].1[k])
          {
            if i < |items| - 1 {
              assert items[i] == front[i];
            } else {
              var tail := seq(|last.1|, k requires 0 <= k < |last.1| => OrderLabel(last.0, last.1[k]));
              assert tail[k] in OrderLabels(items);
            }
          }
        }
      }
    }
  }
}

=== FILE: select_line_pairs.dfy ===
/** The line-pair selection script (selectLinePairs.py): energy conversions
    between wavenumbers and electron-volts, the Morton vacuum-to-air formula
    on nanometres, the spectral-mask file and mask test, the decoding of the
    Kurucz line list, and the `matchLines` scan that pairs lines of the same
    species with similar depths and nearby wavelengths.

    File reading and printing are not modelled: the lines of a file and the
    line lists are parameters, and the written report is replaced by the list
    of accepted pairs and the counters the script prints.
 */
module SelectLinePairs {
  import opened Wrappers
  import opened Numerics
  import opened Text
  import Conversions

  // -------------------------------------------------------- energy units

  /** Planck's constant in J s, the speed of light in m/s and the elementary
      charge in C, at their exact SI values. */
  const Planck: real := 0.000000000000000000000000000000000662607015
  const Light: real := 299792458.0
  const Charge: real := 0.0000000000000000001602176634

  /** `h c / e`: the energy in eV of a photon of wavenumber 1 per metre. */
  function EVMetre(): (r: real)
    ensures r > 0.0
  {
    Planck * Light / Charge
  }

  /** A converted value: the zero case returns a bare float, every other one
      a quantity with units. */
  datatype Reading = Bare(v: real) | WithUnits(v: real)

  /** `wn2eV`: an energy in cm^-1 expressed in eV. */
  function Wn2EV(percm: real): (r: Reading)
    ensures r.Bare? <==> percm == 0.0
    ensures r.v == 0.0 <==> percm == 0.0
    ensures r.v * 100.0 > 0.0 <==> percm > 0.0
  {
    if percm == 0.0 then Bare(0.0) else WithUnits(percm * 100.0 * EVMetre())
  }

  /** `eV2wn`: an energy in eV expressed in cm^-1. */
  function EV2Wn(ev: real): (r: Reading)
    ensures r.Bare? <==> ev == 0.0
    ensures r.v == 0.0 <==> ev == 0.0
    ensures r.v > 0.0 <==> ev > 0.0
  {
    if ev == 0.0 then Bare(0.0) else WithUnits(ev / EVMetre() / 100.0)
  }

  /** The two conversions undo each other. */
  lemma EnergyRoundTrip(percm: real, ev: real)
    ensures EV2Wn(Wn2EV(percm).v).v == percm
    ensures Wn2EV(EV2Wn(ev).v).v == ev
  {
    if percm != 0.0 {
      ScaleBack(percm, EVMetre());
    }
    if ev != 0.0 {
      ScaleForth(ev, EVMetre());
    }
  }

  lemma ScaleBack(x: real, c: real)
    requires c > 0.0
    ensures x * 100.0 * c / c / 100.0 == x
  {
    var y := x * 100.0;
    assert y * c / c == y;
  }

  lemma ScaleForth(x: real, c: real)
    requires c > 0.0
    ensures x / c / 100.0 * 100.0 * c == x
  {
    var y := x / c;
    assert y / 100.0 * 100.0 == y;
    assert y * c == x;
  }

  // ----------------------------------------------------------- vac2air

  /** `vac2air`: the Morton (2000) vacuum-to-air formula on a wavelength in
      nanometres. A float division by zero raises `ZeroDivisionError`. */
  function Vac2Air(wlVac: real): (r: Result<real>)
    ensures r.Raise? ==> r.error == ZeroDivisionError
  {
    if wlVac == 0.0 then Raise(ZeroDivisionError)
    else
      var s := 1000.0 / wlVac;
      if s * s == 130.0 || s * s == 38.9 then Raise(ZeroDivisionError)
      else
        var n := Conversions.MortonIndex(s * s);
        if n == 0.0 then Raise(ZeroDivisionError) else Ok(wlVac / n)
  }

  /** The nanometre formula is the angstrom `vac2airMorton00` with the units
      converted: both succeed together, and the results differ by the factor
      ten between the units. */
  lemma Vac2AirIsMorton(wlVac: real)
    ensures Vac2Air(wlVac).Ok? <==> Conversions.Vac2AirMorton00(10.0 * wlVac).Ok?
    ensures Vac2Air(wlVac).Ok? ==> 10.0 * Vac2Air(wlVac).value == Conversions.Vac2AirMorton00(10.0 * wlVac).value
  {
    if wlVac != 0.0 {
      var s := 1000.0 / wlVac;
      SameWavenumber(wlVac, s);
      if s * s != 130.0 && s * s != 38.9 {
        var n := Conversions.MortonIndex(s * s);
        if n != 0.0 {
          assert 10.0 * (wlVac / n) == (10.0 * wlVac) / n;
        }
      }
    }
  }

  lemma SameWavenumber(w: real, s: real)
    requires w != 0.0 && s == 1000.0 / w
    ensures Conversions.S2(10.0 * w) == s * s
  {
    var t := 10000.0 / (10.0 * w);
    assert t * (10.0 * w) == 10000.0;
    assert s * w == 1000.0;
    assert t == s;
  }

  // ----------------------------------------------------- spectral masks

  /** A masked region of the spectrum, between its start and end. */
  datatype Region = Region(start: real, end: real)

  /** The lines of a mask file that are not comments. */
  function Uncommented(lines: seq<string>): (r: seq<string>)
    ensures |r| <= |lines|
    ensures forall k :: 0 <= k < |r| ==> '#' !in r[k]
  {
    if |lines| == 0 then []
    else if '#' in lines[0] then Uncommented(lines[1..])
    else [lines[0]] + Uncommented(lines[1..])
  }

  /** One line of a mask file: the newlines at its end stripped, it must
      split on commas into exactly two numbers (unpacking anything else
      raises `ValueError`), which `parseFloat` reads. */
  function ParseRegion(line: string, parseFloat: string -> Result<real>): (r: Result<Region>)
    ensures r.Ok? ==> (|Split(RStrip(line, '\n'), ',')| == 2
      && parseFloat(Split(RStrip(line, '\n'), ',')[0]) == Ok(r.value.start)
      && parseFloat(Split(RStrip(line, '\n'), ',')[1]) == Ok(r.value.end))
    ensures |Split(RStrip(line, '\n'), ',')| != 2 ==> r == Raise(ValueError)
    // with two pieces, the region is the two numbers read, and a piece that
    // does not read raises the error `parseFloat` raises, the start first
    ensures var parts := Split(RStrip(line, '\n'), ',');
      |parts| == 2 ==>
        match (parseFloat(parts[0]), parseFloat(parts[1]))
        case (Ok(start), Ok(end)) => r == Ok(Region(start, end))
        case (Raise(e), _) => r == Raise(e)
        case (Ok(_), Raise(e)) => r == Raise(e)
  {
    var parts := Split(RStrip(line, '\n'), ',');
    if |parts| != 2 then Raise(ValueError)
    else
      var start :- parseFloat(parts[0]);
      var end :- parseFloat(parts[1]);
      Ok(Region(start, end))
  }

  /** `parse_spectral_mask_file` on the lines of the file: comment lines
      (any line containing `#`) are skipped, every other line is one region,
      and the regions keep the file's order. */
  function ParseSpectralMask(lines: seq<string>, parseFloat: string -> Result<real>): (r: Result<seq<Region>>)
  {
    if |lines| == 0 then Ok([])
    else if '#' in lines[0] then ParseSpectralMask(lines[1..], parseFloat)
    else
      var region :- ParseRegion(lines[0], parseFloat);
      var rest :- ParseSpectralMask(lines[1..], parseFloat);
      Ok([region] + rest)
  }

  /** Each line parsed in turn, the first failure deciding the error. */
  function ParseEach(lines: seq<string>, parseFloat: string -> Result<real>): (r: Result<seq<Region>>)
  {
    if |lines| == 0 then Ok([])
    else
      var region :- ParseRegion(lines[0], parseFloat);
      var rest :- ParseEach(lines[1..], parseFloat);
      Ok([region] + rest)
  }

  /** Parsing a mask file is parsing its non-comment lines. */
  lemma {:induction false} ParseSpectralMaskUncommented(lines: seq<string>, parseFloat: string -> Result<real>)
    ensures ParseSpectralMask(lines, parseFloat) == ParseEach(Uncommented(lines), parseFloat)
  {
    if |lines| > 0 {
      ParseSpectralMaskUncommented(lines[1..], parseFloat);
      if '#' !in lines[0] {
        var u := [lines[0]] + Uncommented(lines[1..]);
        assert u[0] == lines[0] && u[1..] == Uncommented(lines[1..]);
      }
    }
  }

  /** Every line parses exactly when each one does, and then region `k` is the
      parse of line `k`. */
  lemma {:induction false} ParseEachLines(lines: seq<string>, parseFloat: string -> Result<real>)
    ensures ParseEach(lines, parseFloat).Ok? <==>
      forall k :: 0 <= k < |lines| ==> ParseRegion(lines[k], parseFloat).Ok?
    ensures ParseEach(lines, parseFloat).Ok? ==> (|ParseEach(lines, parseFloat).value| == |lines|
      && forall k :: 0 <= k < |lines| ==> ParseEach(lines, parseFloat).value[k] == ParseRegion(lines[k], parseFloat).value)
  {
    if |lines| > 0 {
      var rest := lines[1..];
      ParseEachLines(rest, parseFloat);
      assert forall k :: 0 < k < |lines| ==> lines[k] == rest[k - 1];
    }
  }

  /** The mask file parses exactly when each of its non-comment lines does,
      and then region `k` is the parse of the `k`-th non-comment line. */
  lemma ParseSpectralMaskLines(lines: seq<string>, parseFloat: string -> Result<real>)
    ensures ParseSpectralMask(lines, parseFloat).Ok? <==>
      forall k :: 0 <= k < |Uncommented(lines)| ==> ParseRegion(Uncommented(lines)[k], parseFloat).Ok?
    ensures ParseSpectralMask(lines, parseFloat).Ok? ==>
      |ParseSpectralMask(lines, parseFloat).value| == |Uncommented(lines)|
      && forall k :: 0 <= k < |Uncommented(lines)| ==>
        ParseSpectralMask(lines, parseFloat).value[k] == ParseRegion(Uncommented(lines)[k], parseFloat).value
  {
    ParseSpectralMaskUncommented(lines, parseFloat);
    ParseEachLines(Uncommented(lines), parseFloat);
  }

  /** `line_is_masked`: the regions are tried in order and the first one
      strictly containing the wavelength answers `True`. */
  function LineIsMasked(line: real, mask: seq<Region>): bool
  {
    if |mask| == 0 then false
    else if mask[0].start < line < mask[0].end then true
    else LineIsMasked(line, mask[1..])
  }

  /** A line is masked exactly when some region contains it strictly; so an
      empty mask masks nothing and the region ends are never masked. */
  lemma {:induction false} LineIsMaskedExists(line: real, mask: seq<Region>)
    ensures LineIsMasked(line, mask) <==> exists k :: 0 <= k < |mask| && mask[k].start < line < mask[k].end
  {
    if |mask| > 0 {
      LineIsMaskedExists(line, mask[1..]);
      if !(mask[0].start < line < mask[0].end) && exists k :: 0 <= k < |mask| && mask[k].start < line < mask[k].end {
        var k :| 0 <= k < |mask| && mask[k].start < line < mask[k].end;
        assert mask[1..][k - 1] == mask[k];
      }
    }
  }

  // ------------------------------------------------------ Kurucz line list

  /** The symbols the script can match, with their atomic numbers. */
  const ElementNumbers: map<string, int> := map[
    "Na" := 11, "Mg" := 12, "Si" := 14, "Ca" := 20, "Sc" := 21, "Ti" := 22,
    "V" := 23, "Cr" := 24, "Mn" := 25, "Fe" := 26, "Ni" := 28]

  /** One energy level of a Kurucz line. */
  datatype Level = Level(energy: real, j: real, orbital: string)

  /** A line of the Kurucz list: vacuum wavelength in nm, the element code
      `Z.ii` (atomic number, then ionisation stage minus one in hundredths),
      and its two levels, energies in cm^-1. */
  datatype KuruczLine = KuruczLine(wavelength: real, code: real, level1: Level, level2: Level)

  /** The atomic number of an element code: its integer part. */
  function CodeElement(code: real): int {
    Trunc(code)
  }

  /** The ionisation state of an element code: the hundredths, plus one. */
  function CodeIon(code: real): int {
    Trunc((code - Trunc(code) as real) * 100.0 + 1.0)
  }

  /** Decoding inverts the encoding `Z + (ion - 1) / 100`. */
  lemma CodeRoundTrip(z: nat, ion: nat)
    requires 1 <= ion <= 99
    ensures CodeElement(z as real + (ion - 1) as real / 100.0) == z
    ensures CodeIon(z as real + (ion - 1) as real / 100.0) == ion
  {
    var code := z as real + (ion - 1) as real / 100.0;
    assert code.Floor == z;
  }

  /** The lower and the upper level of a line: the lower is the one with the
      smaller energy, the second level on a tie. */
  function LowerUpper(line: KuruczLine): (r: (Level, Level))
    ensures r.0.energy <= r.1.energy
    ensures r == (line.level1, line.level2) || r == (line.level2, line.level1)
    ensures line.level1.energy == line.level2.energy ==> r.0 == line.level2
  {
    if line.level1.energy < line.level2.energy then (line.level1, line.level2) else (line.level2, line.level1)
  }

  /** What `matchKuruczLines` returns for a line: its wavelength (rounded
      Peck–Reeder air value when air wavelengths are asked for), its
      wavenumber in cm^-1 to three decimals, and its two levels. */
  datatype KuruczMatch = KuruczMatch(wavelength: real, wavenumber: real, lower: Level, upper: Level)

  /** The tolerance on wavelength when looking up a line, in nm. */
  const WavelengthTolerance: real := 0.003

  /** The line agrees with the query: close enough in wavelength, of the
      queried species, and with a lower level within 1 cm^-1 of the queried
      lower energy (given in eV). */
  predicate KuruczAgrees(line: KuruczLine, wavelength: real, elem: string, ion: int, eLow: real)
    requires elem in ElementNumbers
  {
    Abs(line.wavelength - wavelength) < WavelengthTolerance
    && ElementNumbers[elem] == CodeElement(line.code) && ion == CodeIon(line.code)
    && Abs(EV2Wn(eLow).v - LowerUpper(line).0.energy) < 1.0
  }

  /** The result built from an agreeing line. */
  function MatchOf(line: KuruczLine, vacuum: bool, airOf: real -> real): (m: KuruczMatch)
    requires line.wavelength > 0.0
    ensures (m.lower, m.upper) == LowerUpper(line)
    ensures vacuum ==> m.wavelength == line.wavelength
    ensures m.wavenumber == Wavenumber(line.wavelength)
  {
    KuruczMatch(if vacuum then line.wavelength else RoundTo(airOf(line.wavelength), 10000.0),
                Wavenumber(line.wavelength), LowerUpper(line).0, LowerUpper(line).1)
  }

  /** The wavenumber in cm^-1 of a wavelength in nm, `1e8 / (10 wl)`, to three
      decimals: within half a thousandth of the exact value. */
  function Wavenumber(wl: real): (k: real)
    requires wl > 0.0
    ensures Abs(100000000.0 / (wl * 10.0) - k) * 1000.0 <= 0.5
  {
    RoundToNearest(100000000.0 / (wl * 10.0), 1000.0);
    RoundTo(100000000.0 / (wl * 10.0), 1000.0)
  }

  /** `matchKuruczLines`: the first line of the list that agrees with the
      query. An element the script does not know raises `KeyError` as soon as
      a line is near enough in wavelength. `None` when no line matches. The
      air conversion (Peck and Reeder) is a parameter. */
  function MatchKurucz(data: seq<KuruczLine>, wavelength: real, elem: string, ion: int, eLow: real,
                       vacuum: bool, airOf: real -> real): (r: Result<Option<KuruczMatch>>)
    requires forall k :: 0 <= k < |data| ==> data[k].wavelength > 0.0
    ensures r.Raise? ==> r.error == KeyError && elem !in ElementNumbers
  {
    if |data| == 0 then Ok(None)
    else if Abs(data[0].wavelength - wavelength) < WavelengthTolerance && elem !in ElementNumbers then Raise(KeyError)
    else if elem in ElementNumbers && KuruczAgrees(data[0], wavelength, elem, ion, eLow) then
      Ok(Some(MatchOf(data[0], vacuum, airOf)))
    else MatchKurucz(data[1..], wavelength, elem, ion, eLow, vacuum, airOf)
  }

  /** For a known element the lookup never raises, and it finds something
      exactly when some line of the list agrees. */
  lemma {:induction false} MatchKuruczFinds(data: seq<KuruczLine>, wavelength: real, elem: string, ion: int,
                                            eLow: real, vacuum: bool, airOf: real -> real)
    requires forall k :: 0 <= k < |data| ==> data[k].wavelength > 0.0
    requires elem in ElementNumbers
    ensures MatchKurucz(data, wavelength, elem, ion, eLow, vacuum, airOf).Ok?
    ensures MatchKurucz(data, wavelength, elem, ion, eLow, vacuum, airOf).value.Some? <==>
      exists k :: 0 <= k < |data| && KuruczAgrees(data[k], wavelength, elem, ion, eLow)
  {
    if |data| > 0 {
      var rest := data[1..];
      MatchKuruczFinds(rest, wavelength, elem, ion, eLow, vacuum, airOf);
      if exists k :: 0 <= k < |data| && KuruczAgrees(data[k], wavelength, elem, ion, eLow) {
        var k :| 0 <= k < |data| && KuruczAgrees(data[k], wavelength, elem, ion, eLow);
        if k > 0 {
          assert rest[k - 1] == data[k];
        }
      }
    }
  }

  /** What the lookup finds is built from the first agreeing line. */
  lemma {:induction false} MatchKuruczFirst(data: seq<KuruczLine>, wavelength: real, elem: string, ion: int,
                                            eLow: real, vacuum: bool, airOf: real -> real, k: nat)
    requires forall k :: 0 <= k < |data| ==> data[k].wavelength > 0.0
    requires elem in ElementNumbers
    requires k < |data| && KuruczAgrees(data[k], wavelength, elem, ion, eLow)
    requires forall k' :: 0 <= k' < k ==> !KuruczAgrees(data[k'], wavelength, elem, ion, eLow)
    ensures MatchKurucz(data, wavelength, elem, ion, eLow, vacuum, airOf) == Ok(Some(MatchOf(data[k], vacuum, airOf)))
  {
    if k > 0 {
      var rest := data[1..];
      assert forall k' :: 0 <= k' < k - 1 ==> rest[k'] == data[k' + 1];
      MatchKuruczFirst(rest, wavelength, elem, ion, eLow, vacuum, airOf, k - 1);
    }
  }

  /** `matchKuruczLines` as `matchLines` uses it: whether the list gives the
      line's orbital information. A `None` result is unpacked in a `try`
      that catches the `TypeError`; a `KeyError` propagates. */
  function KuruczLookup(data: seq<KuruczLine>, vacuum: bool, airOf: real -> real, line: Line): (r: Result<bool>)
    requires forall k :: 0 <= k < |data| ==> data[k].wavelength > 0.0
    ensures r.Raise? ==> r.error == KeyError && line.elem !in ElementNumbers
  {
    var m :- MatchKurucz(data, line.wl, line.elem, line.ion, line.eLow, vacuum, airOf);
    Ok(m.Some?)
  }

  // ------------------------------------------------------------ matchLines

  /** A line of the input list: wavelength (nm), element symbol, ionisation
      state, lower energy (eV) and measured depth. */
  datatype Line = Line(wl: real, elem: string, ion: int, eLow: real, depth: real)

  /** The parameters of `matchLines`. `separation` is the wavelength
      separation at a wavelength for the chosen velocity separation, and
      `lookup` the orbital lookup (`KuruczLookup` on the Kurucz list). */
  datatype Settings = Settings(minDepth: real, maxDepth: real, lineDepthDiff: real, mask: seq<Region>,
                               separation: real -> real, lookup: Line -> Result<bool>)

  /** The key under which a matched primary line is remembered: `int(wl * 10)`. */
  function Key(l: Line): int {
    Trunc(l.wl * 10.0)
  }

  predicate InDepth(s: Settings, l: Line) {
    s.minDepth <= l.depth <= s.maxDepth
  }

  /** A line that is looked at as a primary: not masked and within the depth
      limits. */
  predicate IsPrimary(s: Settings, l: Line) {
    !LineIsMasked(l.wl, s.mask) && InDepth(s, l)
  }

  /** Line `b` passes every test as a partner of primary `a`, apart from the
      check against lines already matched: not masked, a different wavelength
      within the separation, within the depth limits, a depth close to the
      primary's, and the same element and ionisation state. */
  predicate Partners(s: Settings, a: Line, b: Line) {
    !LineIsMasked(b.wl, s.mask)
    && 0.0 < Abs(b.wl - a.wl) < s.separation(a.wl)
    && InDepth(s, b)
    && Abs(a.depth - b.depth) < s.lineDepthDiff
    && a.elem == b.elem && a.ion == b.ion
  }

  predicate IsIron(l: Line) {
    l.elem == "Fe" && l.ion == 1
  }

  /** The state of the scan: the keys of matched primaries
      (`prematchedLines`), their elements, the accepted (primary, partner)
      pairs by position in the list (one per `n += 1`), `n_iron` and
      `n_unmatchable`. */
  datatype Scan = Scan(prematched: set<int>, elements: set<string>, pairs: seq<(nat, nat)>, iron: nat, unmatchable: nat)

  /** Accept partner `j` of primary `i`: the partner's lookup is made (its
      missing entry is caught), then the pair is counted. */
  function Record(lines: seq<Line>, s: Settings, i: nat, j: nat, st: Scan): Result<Scan>
    requires i < |lines| && j < |lines|
  {
    var found :- s.lookup(lines[j]);
    Ok(st.(pairs := st.pairs + [(i, j)], iron := st.iron + (if IsIron(lines[i]) then 1 else 0)))
  }

  /** The inner loop of `matchLines` for primary `i`, from partner `j` on;
      `matched` is `line_matched`. The first partner that passes makes the
      primary's own lookup: when that finds nothing the partner is counted as
      unmatchable and skipped, otherwise the primary's key and element are
      remembered. */
  function ScanPartners(lines: seq<Line>, s: Settings, i: nat, j: nat, st: Scan, matched: bool): Result<Scan>
    requires i < |lines| && j <= |lines|
    decreases |lines| - j
  {
    if j == |lines| then Ok(st)
    else if Key(lines[j]) in st.prematched || !Partners(s, lines[i], lines[j]) then
      ScanPartners(lines, s, i, j + 1, st, matched)
    else if matched then
      var next :- Record(lines, s, i, j, st);
      ScanPartners(lines, s, i, j + 1, next, true)
    else
      var found :- s.lookup(lines[i]);
      if !found then
        ScanPartners(lines, s, i, j + 1, st.(unmatchable := st.unmatchable + 1), false)
      else
        var remembered := st.(prematched := st.prematched + {Key(lines[i])},
                              elements := st.elements + {lines[i].elem});
        var next :- Record(lines, s, i, j, remembered);
        ScanPartners(lines, s, i, j + 1, next, true)
  }

  /** The outer loop of `matchLines` from line `i` on. */
  function ScanLines(lines: seq<Line>, s: Settings, i: nat, st: Scan): Result<Scan>
    requires i <= |lines|
    decreases |lines| - i
  {
    if i == |lines| then Ok(st)
    else if !IsPrimary(s, lines[i]) then ScanLines(lines, s, i + 1, st)
    else
      var next :- ScanPartners(lines, s, i, 0, st, false);
      ScanLines(lines, s, i + 1, next)
  }

  /** `matchLines` on a line list: the final state of the scan. */
  function MatchLines(lines: seq<Line>, s: Settings): Result<Scan> {
    ScanLines(lines, s, 0, Scan({}, {}, [], 0, 0))
  }

  // ------------------------------------------------- matchLines properties

  /** The keys of the primaries of the pairs. */
  function PrimaryKeys(lines: seq<Line>, pairs: seq<(nat, nat)>): set<int>
    decreases |pairs|
  {
    if |pairs| == 0 then {}
    else
      var p := pairs[|pairs| - 1];
      PrimaryKeys(lines, pairs[..|pairs| - 1]) + (if p.0 < |lines| then {Key(lines[p.0])} else {})
  }

  /** The elements of the primaries of the pairs. */
  function PrimaryElements(lines: seq<Line>, pairs: seq<(nat, nat)>): set<string>
    decreases |pairs|
  {
    if |pairs| == 0 then {}
    else
      var p := pairs[|pairs| - 1];
      PrimaryElements(lines, pairs[..|pairs| - 1]) + (if p.0 < |lines| then {lines[p.0].elem} else {})
  }

  /** The number of pairs whose primary is Fe I. */
  function IronCount(lines: seq<Line>, pairs: seq<(nat, nat)>): nat
    decreases |pairs|
  {
    if |pairs| == 0 then 0
    else
      var p := pairs[|pairs| - 1];
      IronCount(lines, pairs[..|pairs| - 1]) + (if p.0 < |lines| && IsIron(lines[p.0]) then 1 else 0)
  }

  lemma {:induction false} IronCountBound(lines: seq<Line>, pairs: seq<(nat, nat)>)
    ensures IronCount(lines, pairs) <= |pairs|
    decreases |pairs|
  {
    if |pairs| > 0 {
      IronCountBound(lines, pairs[..|pairs| - 1]);
    }
  }

  /** An accepted pair: both lines exist, the primary is a primary, the
      partner passes the tests, the primary's lookup found it and the
      partner's lookup did not raise. */
  predicate PairSound(lines: seq<Line>, s: Settings, p: (nat, nat)) {
    p.0 < |lines| && p.1 < |lines|
    && IsPrimary(s, lines[p.0]) && Partners(s, lines[p.0], lines[p.1])
    && s.lookup(lines[p.0]) == Ok(true) && s.lookup(lines[p.1]).Ok?
  }

  /** Every pair is an accepted pair. */
  predicate AllSound(lines: seq<Line>, s: Settings, pairs: seq<(nat, nat)>) {
    forall q :: 0 <= q < |pairs| ==> PairSound(lines, s, pairs[q])
  }

  /** The partner of pair `r` does not have the key of the primary of any
      earlier pair `q`. */
  predicate KeyFresh(lines: seq<Line>, pairs: seq<(nat, nat)>, q: nat, r: nat)
    requires q < r < |pairs|
  {
    pairs[q].0 < |lines| && pairs[r].1 < |lines| ==> Key(lines[pairs[r].1]) != Key(lines[pairs[q].0])
  }

  /** No partner has the key of an earlier pair's primary. */
  predicate Fresh(lines: seq<Line>, pairs: seq<(nat, nat)>) {
    forall q, r :: 0 <= q < r < |pairs| ==> KeyFresh(lines, pairs, q, r)
  }

  /** What holds of every state the scan passes through. */
  predicate Sound(lines: seq<Line>, s: Settings, st: Scan) {
    AllSound(lines, s, st.pairs)
    && st.prematched == PrimaryKeys(lines, st.pairs)
    && st.elements == PrimaryElements(lines, st.pairs)
    && st.iron == IronCount(lines, st.pairs)
    && Fresh(lines, st.pairs)
  }

  /** Appending a pair adds its primary's key, element and iron count. */
  lemma Append(lines: seq<Line>, pairs: seq<(nat, nat)>, p: (nat, nat))
    requires p.0 < |lines|
    ensures PrimaryKeys(lines, pairs + [p]) == PrimaryKeys(lines, pairs) + {Key(lines[p.0])}
    ensures PrimaryElements(lines, pairs + [p]) == PrimaryElements(lines, pairs) + {lines[p.0].elem}
    ensures IronCount(lines, pairs + [p]) == IronCount(lines, pairs) + (if IsIron(lines[p.0]) then 1 else 0)
  {
    assert (pairs + [p])[..|pairs|] == pairs;
  }

  /** A partner whose key no earlier primary has keeps the pairs fresh. */
  lemma FreshAppend(lines: seq<Line>, pairs: seq<(nat, nat)>, p: (nat, nat))
    requires Fresh(lines, pairs) && p.1 < |lines| && Key(lines[p.1]) !in PrimaryKeys(lines, pairs)
    ensures Fresh(lines, pairs + [p])
  {
    var more := pairs + [p];
    forall q, r | 0 <= q < r < |more|
      ensures KeyFresh(lines, more, q, r)
    {
      if r < |pairs| {
        assert KeyFresh(lines, pairs, q, r);
      } else if more[q].0 < |lines| {
        PrimaryKeysHas(lines, pairs, q);
      }
    }
  }

  /** Every pair of a sound list, with one more accepted pair, is sound. */
  lemma AllSoundAppend(lines: seq<Line>, s: Settings, pairs: seq<(nat, nat)>, p: (nat, nat))
    requires AllSound(lines, s, pairs) && PairSound(lines, s, p)
    ensures AllSound(lines, s, pairs + [p])
  {
    var more := pairs + [p];
    forall q | 0 <= q < |more|
      ensures PairSound(lines, s, more[q])
    {
      if q < |pairs| {
        assert more[q] == pairs[q];
      }
    }
  }

  /** Recording an accepted pair whose primary has been remembered keeps the
      state sound. */
  lemma RecordSound(lines: seq<Line>, s: Settings, i: nat, j: nat, st: Scan)
    requires i < |lines| && j < |lines| && Record(lines, s, i, j, st).Ok?
    requires PairSound(lines, s, (i, j))
    requires AllSound(lines, s, st.pairs) && Fresh(lines, st.pairs)
    requires Key(lines[j]) !in PrimaryKeys(lines, st.pairs)
    requires st.prematched == PrimaryKeys(lines, st.pairs) + {Key(lines[i])}
    requires st.elements == PrimaryElements(lines, st.pairs) + {lines[i].elem}
    requires st.iron == IronCount(lines, st.pairs)
    ensures Sound(lines, s, Record(lines, s, i, j, st).value)
  {
    Append(lines, st.pairs, (i, j));
    FreshAppend(lines, st.pairs, (i, j));
    AllSoundAppend(lines, s, st.pairs, (i, j));
  }

  /** The key of each pair's primary is among the primary keys. */
  lemma {:induction false} PrimaryKeysHas(lines: seq<Line>, pairs: seq<(nat, nat)>, q: nat)
    requires q < |pairs| && pairs[q].0 < |lines|
    ensures Key(lines[pairs[q].0]) in PrimaryKeys(lines, pairs)
    decreases |pairs|
  {
    if q < |pairs| - 1 {
      PrimaryKeysHas(lines, pairs[..|pairs| - 1], q);
    }
  }

  /** The inner loop keeps the state sound. When `matched` is set, the
      primary's lookup has found it and its key and element are remembered. */
  lemma {:induction false} ScanPartnersSound(lines: seq<Line>, s: Settings, i: nat, j: nat, st: Scan, matched: bool)
    requires i < |lines| && j <= |lines| && IsPrimary(s, lines[i])
    requires ScanPartners(lines, s, i, j, st, matched).Ok? && Sound(lines, s, st)
    requires matched ==> Key(lines[i]) in st.prematched && lines[i].elem in st.elements
                         && s.lookup(lines[i]) == Ok(true)
    ensures Sound(lines, s, ScanPartners(lines, s, i, j, st, matched).value)
    decreases |lines| - j
  {
    if j < |lines| {
      if Key(lines[j]) in st.prematched || !Partners(s, lines[i], lines[j]) {
        ScanPartnersSound(lines, s, i, j + 1, st, matched);
      } else if matched {
        RecordSound(lines, s, i, j, st);
        ScanPartnersSound(lines, s, i, j + 1, Record(lines, s, i, j, st).value, true);
      } else if s.lookup(lines[i]) == Ok(false) {
        ScanPartnersSound(lines, s, i, j + 1, st.(unmatchable := st.unmatchable + 1), false);
      } else {
        var remembered := st.(prematched := st.prematched + {Key(lines[i])},
                              elements := st.elements + {lines[i].elem});
        RecordSound(lines, s, i, j, remembered);
        ScanPartnersSound(lines, s, i, j + 1, Record(lines, s, i, j, remembered).value, true);
      }
    }
  }

  /** The state only grows along the inner loop: remembered keys stay, and
      the pairs found so far stay at the front. */
  lemma {:induction false} ScanPartnersGrows(lines: seq<Line>, s: Settings, i: nat, j: nat, st: Scan, matched: bool)
    requires i < |lines| && j <= |lines| && ScanPartners(lines, s, i, j, st, matched).Ok?
    ensures st.prematched <= ScanPartners(lines, s, i, j, st, matched).value.prematched
    ensures |st.pairs| <= |ScanPartners(lines, s, i, j, st, matched).value.pairs|
    ensures ScanPartners(lines, s, i, j, st, matched).value.pairs[..|st.pairs|] == st.pairs
    decreases |lines| - j
  {
    if j < |lines| {
      if Key(lines[j]) in st.prematched || !Partners(s, lines[i], lines[j]) {
        ScanPartnersGrows(lines, s, i, j + 1, st, matched);
      } else if matched {
        var next := Record(lines, s, i, j, st).value;
        ScanPartnersGrows(lines, s, i, j + 1, next, true);
        PrefixOfPrefix(st.pairs, next.pairs, ScanPartners(lines, s, i, j + 1, next, true).value.pairs);
      } else if s.lookup(lines[i]) == Ok(false) {
        ScanPartnersGrows(lines, s, i, j + 1, st.(unmatchable := st.unmatchable + 1), false);
      } else {
        var remembered := st.(prematched := st.prematched + {Key(lines[i])},
                              elements := st.elements + {lines[i].elem});
        var next := Record(lines, s, i, j, remembered).value;
        ScanPartnersGrows(lines, s, i, j + 1, next, true);
        PrefixOfPrefix(st.pairs, next.pairs, ScanPartners(lines, s, i, j + 1, next, true).value.pairs);
      }
    }
  }

  lemma PrefixOfPrefix<T>(a: seq<T>, b: seq<T>, c: seq<T>)
    requires |a| <= |b| && b[..|a|] == a && |b| <= |c| && c[..|b|] == b
    ensures c[..|a|] == a
  {
    assert c[..|a|] == c[..|b|][..|a|];
  }

  /** The inner loop accepts every partner `k` (from `j` on) that passes the
      tests, of a primary whose lookup succeeds, unless the partner's key is
      remembered by the end of the loop. */
  lemma {:induction false} ScanPartnersComplete(lines: seq<Line>, s: Settings, i: nat, j: nat, st: Scan,
                                                matched: bool, k: nat)
    requires i < |lines| && j <= k < |lines| && ScanPartners(lines, s, i, j, st, matched).Ok?
    requires Partners(s, lines[i], lines[k]) && s.lookup(lines[i]) == Ok(true)
    requires Key(lines[k]) !in ScanPartners(lines, s, i, j, st, matched).value.prematched
    ensures (i, k) in ScanPartners(lines, s, i, j, st, matched).value.pairs
    decreases |lines| - j
  {
    ScanPartnersGrows(lines, s, i, j, st, matched);
    if Key(lines[j]) in st.prematched || !Partners(s, lines[i], lines[j]) {
      ScanPartnersComplete(lines, s, i, j + 1, st, matched, k);
    } else {
      var remembered := if matched then st
        else st.(prematched := st.prematched + {Key(lines[i])}, elements := st.elements + {lines[i].elem});
      var next := Record(lines, s, i, j, remembered).value;
      var fin := ScanPartners(lines, s, i, j + 1, next, true).value;
      assert ScanPartners(lines, s, i, j, st, matched).value == fin;
      if j < k {
        ScanPartnersComplete(lines, s, i, j + 1, next, true, k);
      } else {
        ScanPartnersGrows(lines, s, i, j + 1, next, true);
        assert next.pairs[|remembered.pairs|] == (i, k);
        assert fin.pairs[|remembered.pairs|] == (i, k);
      }
    }
  }

  /** The outer loop keeps the state sound. */
  lemma {:induction false} ScanLinesSound(lines: seq<Line>, s: Settings, i: nat, st: Scan)
    requires i <= |lines| && ScanLines(lines, s, i, st).Ok? && Sound(lines, s, st)
    ensures Sound(lines, s, ScanLines(lines, s, i, st).value)
    decreases |lines| - i
  {
    if i < |lines| {
      if !IsPrimary(s, lines[i]) {
        ScanLinesSound(lines, s, i + 1, st);
      } else {
        ScanPartnersSound(lines, s, i, 0, st, false);
        ScanLinesSound(lines, s, i + 1, ScanPartners(lines, s, i, 0, st, false).value);
      }
    }
  }

  /** The state only grows along the outer loop. */
  lemma {:induction false} ScanLinesGrows(lines: seq<Line>, s: Settings, i: nat, st: Scan)
    requires i <= |lines| && ScanLines(lines, s, i, st).Ok?
    ensures st.prematched <= ScanLines(lines, s, i, st).value.prematched
    ensures |st.pairs| <= |ScanLines(lines, s, i, st).value.pairs|
    ensures ScanLines(lines, s, i, st).value.pairs[..|st.pairs|] == st.pairs
    decreases |lines| - i
  {
    if i < |lines| {
      if !IsPrimary(s, lines[i]) {
        ScanLinesGrows(lines, s, i + 1, st);
      } else {
        var next := ScanPartners(lines, s, i, 0, st, false).value;
        ScanPartnersGrows(lines, s, i, 0, st, false);
        ScanLinesGrows(lines, s, i + 1, next);
        PrefixOfPrefix(st.pairs, next.pairs, ScanLines(lines, s, i + 1, next).value.pairs);
      }
    }
  }

  /** The outer loop accepts every pair of a primary from `i` on whose lookup
      succeeds with a partner that passes the tests, unless the partner's key
      is remembered by the end of the scan. */
  lemma {:induction false} ScanLinesComplete(lines: seq<Line>, s: Settings, i: nat, st: Scan, a: nat, b: nat)
    requires i <= a < |lines| && b < |lines| && ScanLines(lines, s, i, st).Ok?
    requires IsPrimary(s, lines[a]) && Partners(s, lines[a], lines[b]) && s.lookup(lines[a]) == Ok(true)
    requires Key(lines[b]) !in ScanLines(lines, s, i, st).value.prematched
    ensures (a, b) in ScanLines(lines, s, i, st).value.pairs
    decreases |lines| - i
  {
    if !IsPrimary(s, lines[i]) {
      ScanLinesComplete(lines, s, i + 1, st, a, b);
    } else {
      var next := ScanPartners(lines, s, i, 0, st, false).value;
      if i < a {
        ScanLinesComplete(lines, s, i + 1, next, a, b);
      } else {
        ScanLinesGrows(lines, s, i + 1, next);
        ScanPartnersComplete(lines, s, i, 0, st, false, b);
        var q :| 0 <= q < |next.pairs| && next.pairs[q] == (a, b);
        assert ScanLines(lines, s, i + 1, next).value.pairs[q] == (a, b);
      }
    }
  }

  /** What `matchLines` reports. Every pair is an accepted pair (no masked
      line, depths within limits and close, a different wavelength within the
      separation, the same species, both lookups made); no partner has the
      key of an earlier pair's primary; `prematchedLines` is the set of keys
      of the primaries matched; `n_iron` counts the Fe I pairs and is at most
      `n`. Conversely every pair that passes the tests, of a primary whose
      lookup succeeds, is reported unless its partner's key is among the
      remembered ones. */
  lemma MatchLinesPairs(lines: seq<Line>, s: Settings)
    requires MatchLines(lines, s).Ok?
    ensures AllSound(lines, s, MatchLines(lines, s).value.pairs)
    ensures Fresh(lines, MatchLines(lines, s).value.pairs)
    ensures MatchLines(lines, s).value.prematched == PrimaryKeys(lines, MatchLines(lines, s).value.pairs)
    ensures MatchLines(lines, s).value.iron == IronCount(lines, MatchLines(lines, s).value.pairs)
    ensures MatchLines(lines, s).value.iron <= |MatchLines(lines, s).value.pairs|
    ensures forall a, b :: (0 <= a < |lines| && 0 <= b < |lines| && IsPrimary(s, lines[a])
                            && Partners(s, lines[a], lines[b]) && s.lookup(lines[a]) == Ok(true)
                            && Key(lines[b]) !in MatchLines(lines, s).value.prematched)
                           ==> (a, b) in MatchLines(lines, s).value.pairs
  {
    var start := Scan({}, {}, [], 0, 0);
    ScanLinesSound(lines, s, 0, start);
    IronCountBound(lines, MatchLines(lines, s).value.pairs);
    forall a, b | 0 <= a < |lines| && 0 <= b < |lines| && IsPrimary(s, lines[a])
      && Partners(s, lines[a], lines[b]) && s.lookup(lines[a]) == Ok(true)
      && Key(lines[b]) !in MatchLines(lines, s).value.prematched
      ensures (a, b) in MatchLines(lines, s).value.pairs
    {
      ScanLinesComplete(lines, s, 0, start, a, b);
    }
  }
}

=== FILE: stellar_dependence.dfy ===
/** The pure parts of the stellar-parameter script
    (varconlib/scripts/check_stellar_parameter_dependence.py): the initial
    parameter list for the model fit, the fixed bin limits for temperature,
    metallicity and surface gravity, which stars fall in a bin, and the walk
    that raises σ_sys in steps of 0.01 until the reduced χ² of a bin's
    residuals drops to 1.

    The per-transition labels are `ScriptCommon.OrderLabels`; the fit itself
    and `calc_chi_squared_nu` are parameters here.
 */
module StellarDependence {
  import opened Wrappers
  import opened Numerics
  import opened ScriptCommon

  // ------------------------------------------------------ initial parameters

  /** `num_params - 1` zeros, the first then overwritten with the mean of
      the offsets; with no zeros there is no first entry to overwrite and
      the assignment raises `IndexError`. */
  function InitialParams(numParams: nat, mean: real): (r: Result<seq<real>>)
    ensures r.Ok? <==> numParams >= 2
    ensures r.Raise? ==> r.error == IndexError
    ensures r.Ok? ==> |r.value| == numParams - 1 && r.value[0] == mean
    ensures r.Ok? ==> forall k :: 1 <= k < |r.value| ==> r.value[k] == 0.0
  {
    var zeros := seq(if numParams == 0 then 0 else numParams - 1, _ => 0.0);
    if |zeros| == 0 then Raise(IndexError) else Ok(zeros[0 := mean])
  }

  /** The list is built once and its first entry overwritten for every
      transition and era: overwriting with a new mean is the same as
      starting from that mean. */
  lemma InitialParamsReused(numParams: nat, first: real, mean: real)
    requires numParams >= 2
    ensures InitialParams(numParams, first).value[0 := mean] == InitialParams(numParams, mean).value
  {
  }

  // -------------------------------------------------------------- bin limits

  const TempLimits: seq<real> := [5377.0, 5477.0, 5577.0, 5677.0, 5777.0, 5877.0, 5977.0, 6077.0, 6177.0, 6277.0]
  const MtlLimits: seq<real> := [-0.75, -0.6, -0.45, -0.3, -0.15, 0.0, 0.15, 0.3, 0.45]
  const LoggLimits: seq<real> := [4.04, 4.14, 4.24, 4.34, 4.44, 4.54, 4.64]

  predicate Increasing(limits: seq<real>) {
    forall k :: 0 <= k < |limits| - 1 ==> limits[k] < limits[k + 1]
  }

  /** Bins have a lower limit below their upper one. */
  predicate ProperBins(limits: seq<real>) {
    forall k :: 0 <= k < |Pairwise(limits)| ==> Pairwise(limits)[k].0 < Pairwise(limits)[k].1
  }

  /** Increasing limits give `len(limits) - 1` proper bins. */
  lemma IncreasingBins(limits: seq<real>)
    requires |limits| >= 1 && Increasing(limits)
    ensures |Pairwise(limits)| == |limits| - 1 && ProperBins(limits)
  {
    PairwiseConsecutive(limits);
  }

  /** Nine temperature bins, each a proper interval. */
  lemma TempBins()
    ensures |Pairwise(TempLimits)| == 9 && ProperBins(TempLimits)
  {
    assert Increasing(TempLimits);
    IncreasingBins(TempLimits);
  }

  /** Eight metallicity bins, each a proper interval. */
  lemma MtlBins()
    ensures |Pairwise(MtlLimits)| == 8 && ProperBins(MtlLimits)
  {
    assert Increasing(MtlLimits);
    IncreasingBins(MtlLimits);
  }

  /** Six surface-gravity bins, each a proper interval. */
  lemma LoggBins()
    ensures |Pairwise(LoggLimits)| == 6 && ProperBins(LoggLimits)
  {
    assert Increasing(LoggLimits);
    IncreasingBins(LoggLimits);
  }

  // ------------------------------------------------------------ bin members

  const MinBinSize: nat := 7

  /** `ma.masked_outside(values, lo, hi)` leaves unmasked the values in the
      closed interval. */
  function InClosedBin(values: seq<real>, lo: real, hi: real): nat -> bool {
    (i: nat) => i < |values| && lo <= values[i] <= hi
  }

  /** The indices of the stars in a bin, ascending. */
  function BinMembers(values: seq<real>, lo: real, hi: real): seq<nat> {
    Where(|values|, InClosedBin(values, lo, hi))
  }

  /** A star is in the bin exactly when its value lies between the limits,
      both included. */
  lemma BinMembersSpec(values: seq<real>, lo: real, hi: real)
    ensures Below(BinMembers(values, lo, hi), |values|) && Ascending(BinMembers(values, lo, hi))
    ensures forall i :: 0 <= i < |values| ==> (i in BinMembers(values, lo, hi) <==> lo <= values[i] <= hi)
  {
    WhereSpec(|values|, InClosedBin(values, lo, hi));
  }

  /** Since both limits are included, a star sitting exactly on a limit
      shared by two neighbouring bins is counted in both. */
  lemma SharedLimitInBoth(values: seq<real>, a: real, b: real, c: real, i: nat)
    requires i < |values| && values[i] == b && a <= b <= c
    ensures i in BinMembers(values, a, b) && i in BinMembers(values, b, c)
  {
    BinMembersSpec(values, a, b);
    BinMembersSpec(values, b, c);
  }

  // ---------------------------------------------------------- the σ_sys walk

  const SigmaSysDelta: real := 0.01

  /** The value of σ_sys on the walk's step `k` (counting from 0). */
  function SigmaAt(k: nat): real {
    k as real * SigmaSysDelta
  }

  /** `errs**2 + sigma_sys**2`. */
  function SysVariances(errs: seq<real>, sigmaSys: real): (vs: seq<real>)
    ensures |vs| == |errs|
  {
    seq(|errs|, i requires 0 <= i < |errs| => errs[i] * errs[i] + sigmaSys * sigmaSys)
  }

  /** With nonzero errors every variance is positive. */
  lemma SysVariancesPositive(errs: seq<real>, sigmaSys: real)
    requires NonZero(errs)
    ensures AllPositive(SysVariances(errs, sigmaSys)) && NonZero(SysVariances(errs, sigmaSys))
  {
    var vs := SysVariances(errs, sigmaSys);
    forall i | 0 <= i < |vs|
      ensures vs[i] > 0.0
    {
      var a, b := errs[i] * errs[i], sigmaSys * sigmaSys;
      SquarePositive(errs[i], a);
      SquareNonNegative(sigmaSys, b);
    }
  }

  /** Raising σ_sys raises every variance, strictly when σ_sys strictly
      grows. */
  lemma VariancesGrow(errs: seq<real>, s1: real, s2: real)
    requires 0.0 <= s1 <= s2
    ensures forall i :: 0 <= i < |errs| ==> SysVariances(errs, s1)[i] <= SysVariances(errs, s2)[i]
    ensures s1 < s2 ==> forall i :: 0 <= i < |errs| ==> SysVariances(errs, s1)[i] < SysVariances(errs, s2)[i]
  {
    var a, b := s1 * s1, s2 * s2;
    var d, t := s2 - s1, s2 + s1;
    assert b - a == d * t;
    if d > 0.0 {
      ProductPositive(d, t, b - a);
    }
  }

  /** The weights `1 / variances`. */
  function SysWeights(errs: seq<real>, sigmaSys: real): (ws: seq<real>)
    requires NonZero(errs)
    ensures |ws| == |errs| && AllPositive(ws)
  {
    var vs := SysVariances(errs, sigmaSys);
    SysVariancesPositive(errs, sigmaSys);
    var ws := InverseOf(vs);
    forall i | 0 <= i < |ws|
      ensures ws[i] > 0.0
    {
      InversePositive(ws[i], vs[i]);
    }
    ws
  }

  /** The weighted mean of the residuals at one σ_sys. */
  function WalkMean(residuals: seq<real>, errs: seq<real>, sigmaSys: real): real
    requires |residuals| == |errs| > 0 && NonZero(errs)
  {
    var ws := SysWeights(errs, sigmaSys);
    SumPositive(ws);
    WeightedAverage(residuals, ws).value
  }

  /** The mean lies between any bounds of the residuals. */
  lemma WalkMeanBetween(residuals: seq<real>, errs: seq<real>, sigmaSys: real, lo: real, hi: real)
    requires |residuals| == |errs| > 0 && NonZero(errs)
    requires forall i :: 0 <= i < |residuals| ==> lo <= residuals[i] <= hi
    ensures lo <= WalkMean(residuals, errs, sigmaSys) <= hi
  {
    WeightedAverageBetween(residuals, SysWeights(errs, sigmaSys), lo, hi);
  }

  /** Square roots, entry by entry. */
  function Roots(vs: seq<real>, sqrt: real -> real): (r: seq<real>)
    ensures |r| == |vs|
  {
    seq(|vs|, i requires 0 <= i < |vs| => sqrt(vs[i]))
  }

  /** χ²_ν of one walk step: the residuals about their weighted mean, over
      the combined errors `sqrt(variances)`, as the (not modelled)
      `calc_chi_squared_nu` computes it. */
  function WalkChi(residuals: seq<real>, errs: seq<real>, sigmaSys: real,
                   chiSquaredNu: (seq<real>, seq<real>) -> real, sqrt: real -> real): real
    requires |residuals| == |errs| > 0 && NonZero(errs)
  {
    chiSquaredNu(Shifted(residuals, WalkMean(residuals, errs, sigmaSys)), Roots(SysVariances(errs, sigmaSys), sqrt))
  }

  /** Step `k` is where the walk stops: χ²_ν is at most 1 there and above 1
      at every earlier step. */
  predicate Settles(residuals: seq<real>, errs: seq<real>, k: nat,
                    chiSquaredNu: (seq<real>, seq<real>) -> real, sqrt: real -> real)
    requires |residuals| == |errs| > 0 && NonZero(errs)
  {
    && WalkChi(residuals, errs, SigmaAt(k), chiSquaredNu, sqrt) <= 1.0
    && forall j: nat :: j < k ==> WalkChi(residuals, errs, SigmaAt(j), chiSquaredNu, sqrt) > 1.0
  }

  /** The loop of lines 400-410: σ_sys starts at -0.01 with χ²_ν infinite,
      so the body runs at least once; each pass adds 0.01 to σ_sys and
      recomputes χ²_ν, until χ²_ν is at most 1. The loop has no bound of its
      own; `fuel` caps the number of passes, and `settled` says whether it
      ended by the condition. */
  method SigmaSysWalk(residuals: seq<real>, errs: seq<real>, chiSquaredNu: (seq<real>, seq<real>) -> real,
                      sqrt: real -> real, fuel: nat) returns (sigmaSys: real, steps: nat, settled: bool)
    requires |residuals| == |errs| > 0 && NonZero(errs)
    ensures settled ==> 1 <= steps <= fuel && sigmaSys == SigmaAt(steps - 1) && sigmaSys >= 0.0
    ensures settled ==> Settles(residuals, errs, steps - 1, chiSquaredNu, sqrt)
    ensures !settled ==> forall j: nat :: j < fuel ==> WalkChi(residuals, errs, SigmaAt(j), chiSquaredNu, sqrt) > 1.0
  {
    sigmaSys := -SigmaSysDelta;
    var chi: Option<real> := None;
    steps := 0;
    while (chi.None? || chi.value > 1.0) && steps < fuel
      invariant steps <= fuel
      invariant sigmaSys == (steps as real - 1.0) * SigmaSysDelta
      invariant chi.None? <==> steps == 0
      invariant chi.Some? ==> chi.value == WalkChi(residuals, errs, SigmaAt(steps - 1), chiSquaredNu, sqrt)
      invariant forall j: nat :: j + 1 < steps ==> WalkChi(residuals, errs, SigmaAt(j), chiSquaredNu, sqrt) > 1.0
      decreases fuel - steps
    {
      sigmaSys := sigmaSys + SigmaSysDelta;
      chi := Some(WalkChi(residuals, errs, sigmaSys, chiSquaredNu, sqrt));
      steps := steps + 1;
    }
    settled := chi.Some? && chi.value <= 1.0;
  }

  // ------------------------------------------------------------ one bin

  /** What a bin records: skipped (too few stars, NaN in the script), the
      step at which the walk settled with its σ_sys, or no result within the
      fuel. */
  datatype BinOutcome = Skipped | Settled(step: nat, sigmaSys: real) | Unsettled

  /** What the bin loop promises for one bin: skipped exactly when it has
      fewer than seven stars, a settled σ_sys is the walk's over that bin's
      residuals and errors, and an unsettled bin is one where every one of the
      first `fuel` steps of the walk left χ²_ν above one. */
  predicate BinOutcomeFits(values: seq<real>, residuals: seq<real>, errs: seq<real>, lo: real, hi: real,
                           outcome: BinOutcome, chiSquaredNu: (seq<real>, seq<real>) -> real, sqrt: real -> real,
                           fuel: nat)
    requires |values| == |residuals| == |errs| && NonZero(errs)
  {
    var idx := BinMembers(values, lo, hi);
    BinMembersSpec(values, lo, hi);
    && (outcome.Skipped? <==> |idx| < MinBinSize)
    && (outcome.Settled? ==>
          && |idx| >= MinBinSize
          && NonZero(Select(errs, idx))
          && outcome.sigmaSys == SigmaAt(outcome.step)
          && Settles(Select(residuals, idx), Select(errs, idx), outcome.step, chiSquaredNu, sqrt))
    && (outcome.Unsettled? ==>
          && |idx| >= MinBinSize
          && NonZero(Select(errs, idx))
          && forall j: nat :: j < fuel ==>
               WalkChi(Select(residuals, idx), Select(errs, idx), SigmaAt(j), chiSquaredNu, sqrt) > 1.0)
  }

  lemma SelectNonZero(errs: seq<real>, idx: seq<nat>)
    requires NonZero(errs) && Below(idx, |errs|)
    ensures NonZero(Select(errs, idx))
  {
  }

  /** One bin: its midpoint, then either a skip or the σ_sys walk over the
      residuals and errors of the stars in it. */
  method BinSigmaSys(values: seq<real>, residuals: seq<real>, errs: seq<real>, lo: real, hi: real,
                     chiSquaredNu: (seq<real>, seq<real>) -> real, sqrt: real -> real, fuel: nat)
    returns (mid: real, outcome: BinOutcome)
    requires |values| == |residuals| == |errs| && NonZero(errs)
    ensures mid * 2.0 == lo + hi && (lo <= hi ==> lo <= mid <= hi)
    ensures BinOutcomeFits(values, residuals, errs, lo, hi, outcome, chiSquaredNu, sqrt, fuel)
  {
    mid := (lo + hi) / 2.0;
    var idx := BinMembers(values, lo, hi);
    BinMembersSpec(values, lo, hi);
    if |idx| < MinBinSize {
      outcome := Skipped;
    } else {
      SelectNonZero(errs, idx);
      var sigmaSys, steps, settled := SigmaSysWalk(Select(residuals, idx), Select(errs, idx), chiSquaredNu, sqrt, fuel);
      outcome := if settled then Settled(steps - 1, sigmaSys) else Unsettled;
    }
  }

  /** The bins of one parameter: a midpoint and an outcome for each
      consecutive pair of limits. */
  method ParameterSigmaSys(values: seq<real>, residuals: seq<real>, errs: seq<real>, limits: seq<real>,
                           chiSquaredNu: (seq<real>, seq<real>) -> real, sqrt: real -> real, fuel: nat)
    returns (mids: seq<real>, outcomes: seq<BinOutcome>)
    requires |values| == |residuals| == |errs| && NonZero(errs)
    ensures |mids| == |outcomes| == |Pairwise(limits)| == if |limits| == 0 then 0 else |limits| - 1
    ensures forall k :: 0 <= k < |outcomes| ==>
      && mids[k] * 2.0 == limits[k] + limits[k + 1]
      && BinOutcomeFits(values, residuals, errs, limits[k], limits[k + 1], outcomes[k], chiSquaredNu, sqrt, fuel)
  {
    PairwiseConsecutive(limits);
    var bins := Pairwise(limits);
    mids, outcomes := [], [];
    for k := 0 to |bins|
      invariant |mids| == |outcomes| == k
      invariant forall m :: 0 <= m < k ==>
        && mids[m] * 2.0 == limits[m] + limits[m + 1]
        && BinOutcomeFits(values, residuals, errs, limits[m], limits[m + 1], outcomes[m], chiSquaredNu, sqrt, fuel)
    {
      var mid, outcome := BinSigmaSys(values, residuals, errs, bins[k].0, bins[k].1, chiSquaredNu, sqrt, fuel);
      mids, outcomes := mids + [mid], outcomes + [outcome];
    }
  }
}

=== FILE: text.dfy ===
/** String operations of Python's `str` and `int` that the modelled code relies
    on, restricted to ASCII text: decimal conversion in both directions,
    `split`/`join` on a one-character separator, slicing with Python's clamping
    and negative indices, `capitalize` and `rstrip`.
 */
module Text {
  import opened Wrappers

  predicate IsDigit(c: char) {
    '0' <= c <= '9'
  }

  predicate AllDigits(s: string) {
    forall i :: 0 <= i < |s| ==> IsDigit(s[i])
  }

  function DigitValue(c: char): (d: nat)
    requires IsDigit(c)
    ensures d < 10
  {
    (c as int) - ('0' as int)
  }

  function DigitChar(d: nat): (c: char)
    requires d < 10
    ensures IsDigit(c) && DigitValue(c) == d
  {
    ('0' as int + d) as char
  }

  /** The number a non-empty run of decimal digits denotes (leading zeros allowed). */
  function DigitsValue(s: string): nat
    requires AllDigits(s)
    decreases |s|
  {
    if |s| == 0 then 0 else DigitsValue(s[..|s| - 1]) * 10 + DigitValue(s[|s| - 1])
  }

  /** Python's `str(n)` for a natural number: the shortest decimal numeral. */
  function NatToString(n: nat): (s: string)
    ensures |s| >= 1 && AllDigits(s)
    ensures |s| > 1 ==> s[0] != '0'
    decreases n
  {
    if n < 10 then [DigitChar(n)] else NatToString(n / 10) + [DigitChar(n % 10)]
  }

  /** Python's `str(n)` for any integer. */
  function IntToString(n: int): (s: string)
    ensures |s| >= 1
    ensures n >= 0 <==> IsDigit(s[0])
  {
    if n < 0 then "-" + NatToString(-n) else NatToString(n)
  }

  /** The ASCII characters `int()` strips as whitespace. */
  predicate IsSpace(c: char) {
    c == ' ' || c == '\t' || c == '\n' || c == '\r' || c == '\U{0B}' || c == '\U{0C}'
  }

  /** `s` with its leading and trailing whitespace removed. */
  function Strip(s: string): (t: string)
    ensures |t| <= |s|
    ensures |t| > 0 ==> !IsSpace(t[0]) && !IsSpace(t[|t| - 1])
    decreases |s|
  {
    if |s| > 0 && IsSpace(s[0]) then Strip(s[1..])
    else if |s| > 0 && IsSpace(s[|s| - 1]) then Strip(s[..|s| - 1])
    else s
  }

  /** A decimal literal as `int()` reads it: digits, where single underscores
      may separate two digits. */
  predicate IsNumeral(t: string) {
    |t| >= 1 && IsDigit(t[0]) && IsDigit(t[|t| - 1]) && DigitsOrUnderscores(t) && NoDoubledUnderscore(t)
  }

  /** No two underscores stand next to each other. */
  predicate NoDoubledUnderscore(t: string)
    decreases |t|
  {
    |t| < 2 || ((t[0] != '_' || t[1] != '_') && NoDoubledUnderscore(t[1..]))
  }

  predicate DigitsOrUnderscores(t: string) {
    forall i :: 0 <= i < |t| ==> IsDigit(t[i]) || t[i] == '_'
  }

  /** The digits of a numeral, its underscores dropped. */
  function DropUnderscores(t: string): (d: string)
    requires DigitsOrUnderscores(t)
    ensures AllDigits(d)
    decreases |t|
  {
    if |t| == 0 then []
    else DropUnderscores(t[..|t| - 1]) + (if t[|t| - 1] == '_' then [] else [t[|t| - 1]])
  }

  /** The number a numeral denotes. */
  function NumeralValue(t: string): nat
    requires IsNumeral(t)
  {
    DigitsValue(DropUnderscores(t))
  }

  /** Python's `int(s)` on ASCII text: surrounding whitespace is ignored, and
      what remains is an optional sign followed by a numeral. Any other text
      makes `int` raise `ValueError`, here `None`. */
  function ParseInt(s: string): (r: Option<int>)
    ensures r.Some? ==> |s| >= 1
    ensures |s| >= 1 && AllDigits(s) ==> r == Some(DigitsValue(s))
    ensures var t := Strip(s);
      r.Some? <==> IsNumeral(t) || (|t| >= 2 && (t[0] == '-' || t[0] == '+') && IsNumeral(t[1..]))
    ensures var t := Strip(s);
      r.Some? && IsDigit(t[0]) ==> r.value == NumeralValue(t)
    ensures var t := Strip(s);
      r.Some? && !IsDigit(t[0]) ==> r.value == (if t[0] == '-' then -(NumeralValue(t[1..]) as int) else NumeralValue(t[1..]))
  {
    var t := Strip(s);
    if |s| >= 1 && AllDigits(s) then
      AllDigitsNumeral(s);
      Some(DigitsValue(s))
    else if |t| >= 2 && (t[0] == '-' || t[0] == '+') && IsNumeral(t[1..]) then
      var v: int := NumeralValue(t[1..]);
      Some(if t[0] == '-' then -v else v)
    else if IsNumeral(t) then
      Some(NumeralValue(t))
    else
      None
  }

  /** A run of plain digits is its own stripped text, a numeral, and denotes
      the value of its digits. */
  lemma AllDigitsNumeral(s: string)
    requires |s| >= 1 && AllDigits(s)
    ensures Strip(s) == s && IsNumeral(s) && NumeralValue(s) == DigitsValue(s)
  {
    assert !IsSpace(s[0]) && !IsSpace(s[|s| - 1]);
    DigitsNotDoubled(s);
    DropNoUnderscores(s);
  }

  lemma {:induction false} DigitsNotDoubled(s: string)
    requires AllDigits(s)
    ensures NoDoubledUnderscore(s)
    decreases |s|
  {
    if |s| >= 2 {
      DigitsNotDoubled(s[1..]);
    }
  }

  /** Text that neither starts nor ends with whitespace is its own stripped
      text. */
  lemma StripUnchanged(s: string)
    requires |s| > 0 && !IsSpace(s[0]) && !IsSpace(s[|s| - 1])
    ensures Strip(s) == s
  {
  }

  lemma {:induction false} DropNoUnderscores(s: string)
    requires AllDigits(s)
    ensures DropUnderscores(s) == s
    decreases |s|
  {
    if |s| > 0 {
      DropNoUnderscores(s[..|s| - 1]);
    }
  }

  /** A space before a run of digits does not change what `int()` reads. */
  lemma ParseIntLeadingSpace(d: string)
    requires |d| >= 1 && AllDigits(d)
    ensures ParseInt(" " + d) == Some(DigitsValue(d))
  {
    assert (" " + d)[1..] == d;
    AllDigitsNumeral(d);
  }

  /** Nor does whitespace after it. */
  lemma ParseIntTrailingSpace(d: string, c: char)
    requires |d| >= 1 && AllDigits(d) && IsSpace(c)
    ensures ParseInt(d + [c]) == Some(DigitsValue(d))
  {
    var s := d + [c];
    assert s[0] == d[0] && s[..|s| - 1] == d;
    AllDigitsNumeral(d);
  }

  /** `1_0` is a numeral for ten. */
  lemma TenWithUnderscore()
    ensures IsNumeral("1_0") && NumeralValue("1_0") == 10
  {
    TenIsNumeral();
    TenDigits();
  }

  lemma TenIsNumeral()
    ensures IsNumeral("1_0")
  {
    assert "1_0"[1..] == "_0" && "_0"[1..] == "0";
    assert NoDoubledUnderscore("_0");
  }

  lemma TenDigits()
    ensures DigitsOrUnderscores("1_0") && DropUnderscores("1_0") == "10" && DigitsValue("10") == 10
  {
    assert "1_0"[..2] == "1_" && "1_"[..1] == "1" && "1"[..0] == "";
    assert DropUnderscores("1_") == "1";
    assert "10"[..1] == "1";
  }

  /** `int()` reads digit groups: `'1_0'` is 10 and `'-1_0'` is -10. */
  lemma ParseIntDigitGroups()
    ensures ParseInt("1_0") == Some(10) && ParseInt("-1_0") == Some(-10)
  {
    TenWithUnderscore();
    assert Strip("1_0") == "1_0";
    assert Strip("-1_0") == "-1_0";
    assert "-1_0"[1..] == "1_0";
  }

  /** A leading underscore, a doubled one and a space after the sign are
      rejected. */
  lemma ParseIntRejects()
    ensures ParseInt("_1") == None && ParseInt("1__0") == None && ParseInt("- 5") == None
  {
    assert Strip("_1") == "_1";
    assert Strip("1__0") == "1__0";
    assert "1__0"[1] == '_' && "1__0"[2] == '_';
    assert Strip("- 5") == "- 5";
    assert "- 5"[1..] == " 5";
  }

  lemma DigitsValueAppend(s: string, c: char)
    requires AllDigits(s) && IsDigit(c)
    ensures AllDigits(s + [c])
    ensures DigitsValue(s + [c]) == DigitsValue(s) * 10 + DigitValue(c)
  {
    assert (s + [c])[..|s|] == s;
  }

  /** Reading back a numeral written by `str` gives the number. */
  lemma {:induction false} NatToStringValue(n: nat)
    ensures DigitsValue(NatToString(n)) == n
    decreases n
  {
    if n >= 10 {
      NatToStringValue(n / 10);
      DigitsValueAppend(NatToString(n / 10), DigitChar(n % 10));
    }
  }

  /** A minus sign before a run of digits reads as the negated digits. */
  lemma {:induction false} ParseIntNegative(d: string)
    requires |d| >= 1 && AllDigits(d)
    ensures ParseInt("-" + d) == Some(-(DigitsValue(d) as int))
  {
    var s := "-" + d;
    assert s[1..] == d;
    assert s[|s| - 1] == d[|d| - 1];
    StripUnchanged(s);
    AllDigitsNumeral(d);
  }

  /** `int(str(n)) == n` for every integer. */
  lemma {:induction false} ParseIntRoundTrip(n: int)
    ensures ParseInt(IntToString(n)) == Some(n)
  {
    if n < 0 {
      var d := NatToString(-n);
      assert IntToString(n) == "-" + d;
      NatToStringValue(-n);
      ParseIntNegative(d);
    } else {
      var d := NatToString(n);
      assert IntToString(n) == d;
      NatToStringValue(n);
      assert ParseInt(d) == Some(DigitsValue(d));
    }
  }

  /** Distinct integers have distinct decimal forms. */
  lemma IntToStringInjective(m: int, n: int)
    requires IntToString(m) == IntToString(n)
    ensures m == n
  {
    ParseIntRoundTrip(m);
    ParseIntRoundTrip(n);
  }

  // ---------------------------------------------------------------- split/join

  /** Python's `s.split(sep)` with a one-character separator: every separator
      cuts, so empty pieces are kept and there is always at least one piece. */
  function Split(s: string, sep: char): (parts: seq<string>)
    ensures |parts| >= 1
    decreases |s|
  {
    if |s| == 0 then [""]
    else if s[0] == sep then [""] + Split(s[1..], sep)
    else
      var rest := Split(s[1..], sep);
      [[s[0]] + rest[0]] + rest[1..]
  }

  /** Python's `sep.join(parts)`. */
  function Join(sep: char, parts: seq<string>): string
    decreases |parts|
  {
    if |parts| == 0 then ""
    else if |parts| == 1 then parts[0]
    else parts[0] + [sep] + Join(sep, parts[1..])
  }

  /** No piece produced by `split` contains the separator. */
  lemma {:induction false} SplitPiecesFree(s: string, sep: char)
    ensures forall i :: 0 <= i < |Split(s, sep)| ==> sep !in Split(s, sep)[i]
    decreases |s|
  {
    if |s| > 0 {
      SplitPiecesFree(s[1..], sep);
    }
  }

  /** Joining the pieces of a split gives the original text back. */
  lemma {:induction false} JoinSplit(s: string, sep: char)
    ensures Join(sep, Split(s, sep)) == s
    decreases |s|
  {
    if |s| > 0 {
      JoinSplit(s[1..], sep);
      var rest := Split(s[1..], sep);
      if s[0] == sep {
        assert Split(s, sep)[1..] == rest;
      } else {
        var parts := Split(s, sep);
        assert parts[1..] == rest[1..];
        if |rest| > 1 {
          assert s == [s[0]] + (rest[0] + [sep] + Join(sep, rest[1..]));
        } else {
          assert s == [s[0]] + rest[0];
        }
      }
    }
  }

  /** A separator-free prefix glued to the rest only lengthens the first piece. */
  lemma {:induction false} SplitPrefix(p: string, t: string, sep: char)
    requires sep !in p
    ensures Split(p + t, sep) == [p + Split(t, sep)[0]] + Split(t, sep)[1..]
    decreases |p|
  {
    if |p| > 0 {
      assert (p + t)[1..] == p[1..] + t;
      SplitPrefix(p[1..], t, sep);
      assert [p[0]] + (p[1..] + Split(t, sep)[0]) == p + Split(t, sep)[0];
    } else {
      assert p + t == t;
      assert p + Split(t, sep)[0] == Split(t, sep)[0];
      assert [Split(t, sep)[0]] + Split(t, sep)[1..] == Split(t, sep);
    }
  }

  /** Splitting a join of separator-free pieces gives the pieces back. */
  lemma {:induction false} SplitJoin(parts: seq<string>, sep: char)
    requires |parts| >= 1
    requires forall i :: 0 <= i < |parts| ==> sep !in parts[i]
    ensures Split(Join(sep, parts), sep) == parts
    decreases |parts|
  {
    if |parts| == 1 {
      SplitPrefix(parts[0], "", sep);
      assert parts[0] + "" == parts[0];
    } else {
      var tail := Join(sep, parts[1..]);
      SplitJoin(parts[1..], sep);
      assert Join(sep, parts) == parts[0] + ([sep] + tail);
      SplitPrefix(parts[0], [sep] + tail, sep);
      assert ([sep] + tail)[1..] == tail;
      assert Split([sep] + tail, sep) == [""] + parts[1..];
      assert parts[0] + "" == parts[0];
      assert [parts[0]] + parts[1..] == parts;
    }
  }

  // ------------------------------------------------------------------ slicing

  /** Where Python puts a slice bound `i` in a string of length `n`. */
  function ClampIndex(i: int, n: nat): (k: nat)
    ensures k <= n
  {
    if i < 0 then (if i + n < 0 then 0 else i + n)
    else if i > n then n
    else i
  }

  /** Python's `s[lo:hi]`: out-of-range bounds are clamped, negative bounds
      count from the end, and crossed bounds give the empty string. */
  function Slice(s: string, lo: int, hi: int): (r: string)
    ensures |r| <= |s|
  {
    var a := ClampIndex(lo, |s|);
    var b := ClampIndex(hi, |s|);
    if a < b then s[a..b] else ""
  }

  /** Python's `s[i]`, which raises `IndexError` outside `-len(s) .. len(s)-1`. */
  function CharAt(s: string, i: int): (r: Result<char>)
    ensures r.Ok? <==> -|s| <= i < |s|
  {
    if 0 <= i < |s| then Ok(s[i])
    else if -|s| <= i < 0 then Ok(s[|s| + i])
    else Raise(IndexError)
  }

  lemma SliceInRange(s: string, lo: int, hi: int)
    requires 0 <= lo <= hi <= |s|
    ensures Slice(s, lo, hi) == s[lo..hi]
  {
  }

  // ------------------------------------------------------------- case, strip

  function Upper(c: char): char {
    if 'a' <= c <= 'z' then (c as int - 32) as char else c
  }

  function Lower(c: char): char {
    if 'A' <= c <= 'Z' then (c as int + 32) as char else c
  }

  /** Python's `s.capitalize()` on ASCII text: the first character upper case,
      every other character lower case. */
  function Capitalize(s: string): (r: string)
    ensures |r| == |s|
    ensures |s| > 0 ==> r[0] == Upper(s[0])
    ensures forall i :: 0 < i < |s| ==> r[i] == Lower(s[i])
  {
    if |s| == 0 then "" else [Upper(s[0])] + seq(|s| - 1, i requires 0 <= i < |s| - 1 => Lower(s[i + 1]))
  }

  /** Python's `s.rstrip(c)`: every trailing copy of `c` removed. */
  function RStrip(s: string, c: char): (r: string)
    ensures |r| <= |s| && r == s[..|r|]
    ensures |r| > 0 ==> r[|r| - 1] != c
    ensures forall i :: |r| <= i < |s| ==> s[i] == c
    decreases |s|
  {
    if |s| > 0 && s[|s| - 1] == c then RStrip(s[..|s| - 1], c) else s
  }
}

=== FILE: transition_line.dfy ===
/** A single atomic transition (utils/transition_line.py): the parsing the
    constructor does on its element and ionisation arguments (through the
    tables of `Elements`), the derived species name and wavenumber, and the
    wavelength ordering.
 */
module TransitionLine {
  import opened Wrappers
  import opened Text
  import opened Units
  import opened Elements
  import Numerics

  // ------------------------------------------------------------- arguments

  /** The wavelength argument: a quantity with a length unit, or a bare number
      (which has no `.to` and makes the constructor raise `AttributeError`). */
  datatype WavelengthArg = WavelengthQuantity(q: Length) | BareWavelength(x: real)

  /** The element argument: a Python `int`, a `str`, or any other number (a
      numpy integer or a float), on which `int()` truncates toward zero. */
  datatype ElementArg = ElementInt(n: int) | ElementStr(s: string) | ElementNumeric(x: real)

  /** The ionisation-state argument, with the same three shapes. */
  datatype IonArg = IonInt(n: int) | IonStr(s: string) | IonNumeric(x: real)

  /** A transition as the constructor leaves it. `atomicSymbol` is `None` when
      the element was given as a numeric string of three or more characters or
      as a non-`int` number: those branches never set the attribute. */
  datatype Transition = Transition(
    wavelength: Length,
    atomicNumber: int,
    atomicSymbol: Option<string>,
    ionizationState: int)

  /** Element parsing in `Transition.__init__`: the atomic number and, when the
      branch sets it, the symbol. */
  function ParseElement(e: ElementArg): (r: Result<(int, Option<string>)>)
    // whenever a symbol is set it is the table's symbol for the number
    ensures r.Ok? && r.value.1.Some? ==> ElementNumber(r.value.1.value) == Some(r.value.0)
    // an `int` must lie in 1..118 by assertion, and only 1..92 have symbols
    ensures e.ElementInt? ==> (r.Ok? <==> 1 <= e.n <= 92)
    ensures e.ElementInt? && !(0 < e.n < 119) ==> r == Raise(AssertionError)
    ensures e.ElementInt? && 93 <= e.n <= 118 ==> r == Raise(KeyError)
    ensures e.ElementInt? && r.Ok? ==> r.value.0 == e.n && r.value.1.Some?
    // a short numeric string is an atomic number
    ensures e.ElementStr? && |e.s| < 3 && ParseInt(e.s).Some? ==>
      (r.Ok? <==> 1 <= ParseInt(e.s).value <= 92) && (r.Ok? ==> r.value.0 == ParseInt(e.s).value)
    // any other short string is a symbol, matched after capitalising it
    ensures e.ElementStr? && |e.s| < 3 && ParseInt(e.s).None? ==>
      (r.Ok? <==> ElementNumber(Capitalize(e.s)).Some?) && (r.Ok? ==> r.value.1 == Some(Capitalize(e.s)))
    ensures e.ElementStr? && |e.s| < 3 && r.Raise? ==> r.error == KeyError
    // a long string must be numeric and sets only the number
    ensures e.ElementStr? && |e.s| >= 3 ==>
      (r.Ok? <==> ParseInt(e.s).Some?) && (r.Ok? ==> r.value == (ParseInt(e.s).value, None))
    ensures e.ElementStr? && |e.s| >= 3 && r.Raise? ==> r.error == TypeError
    ensures e.ElementNumeric? ==> r == Ok((Numerics.Trunc(e.x), None))
  {
    match e
    case ElementStr(s) =>
      if |s| < 3 then
        (match ParseInt(s)
         case Some(n) =>
           if 1 <= n <= 92 then
             ElementSymbolRoundTrip(n);
             Ok((n, Some(ElementSymbol(n))))
           else Raise(KeyError)
         case None =>
           var cap := Capitalize(s);
           match ElementNumber(cap)
           case Some(n) => Ok((n, Some(cap)))
           case None => Raise(KeyError))
      else
        (match ParseInt(s)
         case Some(n) => Ok((n, None))
         case None => Raise(TypeError))
    case ElementInt(n) =>
      if !(0 < n < 119) then Raise(AssertionError)
      else if n <= 92 then
        ElementSymbolRoundTrip(n);
        Ok((n, Some(ElementSymbol(n))))
      else Raise(KeyError)
    case ElementNumeric(x) =>
      Ok((Numerics.Trunc(x), None))
  }

  /** Ionisation parsing in `Transition.__init__`: anything `int()` accepts is
      used as is, with no range check; otherwise the text must be one of the
      Roman numerals 'I'..'X', else `ValueError`. */
  function ParseIonization(i: IonArg): (r: Result<int>)
    ensures i.IonInt? ==> r == Ok(i.n)
    ensures i.IonStr? && ParseInt(i.s).Some? ==> r == Ok(ParseInt(i.s).value)
    ensures i.IonStr? && ParseInt(i.s).None? ==>
      (r.Ok? <==> RomanValue(i.s).Some?) && (r.Ok? ==> 1 <= r.value <= 10 && RomanNumeral(r.value) == i.s)
    ensures r.Raise? ==> r.error == ValueError
  {
    match i
    case IonInt(n) => Ok(n)
    case IonNumeric(x) => Ok(Numerics.Trunc(x))
    case IonStr(s) =>
      match ParseInt(s)
      case Some(n) => Ok(n)
      case None =>
        match RomanValue(s)
        case Some(k) =>
          RomanValueRoundTrip(s);
          Ok(k)
        case None => Raise(ValueError)
  }

  /** `int()` skips whitespace, so an element `' 5'` is boron's number and an
      ionisation state `' 2'` is 2. */
  lemma ParseSpacedArguments()
    ensures ParseElement(ElementStr(" 5")).Ok? && ParseElement(ElementStr(" 5")).value.0 == 5
    ensures ParseIonization(IonStr(" 2")) == Ok(2)
  {
    assert DigitsValue("5") == 5 && DigitsValue("2") == 2;
    ParseIntLeadingSpace("5");
    ParseIntLeadingSpace("2");
  }

  /** `Transition.__init__`: the wavelength is converted to nanometres, then the
      element and the ionisation state are parsed, in that order. */
  function MakeTransition(w: WavelengthArg, e: ElementArg, i: IonArg): (r: Result<Transition>)
    ensures r.Ok? ==> w.WavelengthQuantity? && ParseElement(e).Ok? && ParseIonization(i).Ok?
    ensures r.Ok? ==> r.value.wavelength.unit == Nanometre
    ensures r.Ok? ==> r.value.wavelength.InAngstrom() == w.q.InAngstrom()
    ensures r.Ok? ==> r.value.atomicSymbol.Some? ==> ElementNumber(r.value.atomicSymbol.value) == Some(r.value.atomicNumber)
    ensures w.BareWavelength? ==> r == Raise(AttributeError)
    ensures w.WavelengthQuantity? && ParseElement(e).Raise? ==> r == Raise(ParseElement(e).error)
    ensures w.WavelengthQuantity? && ParseElement(e).Ok? && ParseIonization(i).Raise? ==> r == Raise(ValueError)
    // with all three arguments valid, construction succeeds and stores what the parses gave
    ensures w.WavelengthQuantity? && ParseElement(e).Ok? && ParseIonization(i).Ok? ==>
      r.Ok? && r.value.atomicNumber == ParseElement(e).value.0
      && r.value.atomicSymbol == ParseElement(e).value.1
      && r.value.ionizationState == ParseIonization(i).value
  {
    match w
    case BareWavelength(_) => Raise(AttributeError)
    case WavelengthQuantity(q) =>
      var (number, symbol) :- ParseElement(e);
      var state :- ParseIonization(i);
      Ok(Transition(q.To(Nanometre), number, symbol, state))
  }

  /** The `atomicSpecies` property: symbol, a space, and the Roman numeral of
      the ionisation state. An unset symbol raises `AttributeError`, a state
      outside 1..10 raises `KeyError`. */
  function AtomicSpecies(t: Transition): (r: Result<string>)
    ensures r.Ok? <==> t.atomicSymbol.Some? && 1 <= t.ionizationState <= 10
    ensures r.Ok? ==> exists k: nat {:trigger r.value[k]} ::
      k < |r.value| && r.value[k] == ' ' && r.value[..k] == t.atomicSymbol.value
      && RomanValue(r.value[k + 1..]) == Some(t.ionizationState)
  {
    match t.atomicSymbol
    case None => Raise(AttributeError)
    case Some(sym) =>
      if 1 <= t.ionizationState <= 10 then
        var r := sym + " " + RomanNumeral(t.ionizationState);
        var k := |sym|;
        assert r[..k] == sym && r[k + 1..] == RomanNumeral(t.ionizationState) && r[k] == ' ';
        RomanNumeralRoundTrip(t.ionizationState);
        Ok(r)
      else Raise(KeyError)
  }

  // -------------------------------------------------------------- wavenumber

  /** The `wavenumber` getter: one over the wavelength in centimetres. */
  function Wavenumber(t: Transition): (k: real)
    requires t.wavelength.value != 0.0
    ensures k * t.wavelength.To(Centimetre).value == 1.0
  {
    1.0 / t.wavelength.To(Centimetre).value
  }

  /** The value given to the `wavenumber` setter: a quantity (whose unit must
      be cm^-1) or a bare number taken to be in cm^-1. */
  datatype WavenumberArg = WavenumberQuantity(k: real, perCentimetre: bool) | BareWavenumber(k: real)

  /** The `wavenumber` setter: the wavelength becomes `1/k` centimetres (the
      unit of `1 / (k cm^-1)`, not nanometres). A quantity in any other unit
      raises `ValueError`. */
  function SetWavenumber(t: Transition, a: WavenumberArg): (r: Result<Transition>)
    requires a.k != 0.0 || (a.WavenumberQuantity? && !a.perCentimetre)
    ensures r.Ok? <==> !(a.WavenumberQuantity? && !a.perCentimetre)
    ensures r.Ok? ==> r.value.wavelength == Length(1.0 / a.k, Centimetre)
    ensures r.Ok? ==> r.value == t.(wavelength := r.value.wavelength)
  {
    if a.WavenumberQuantity? && !a.perCentimetre then Raise(ValueError)
    else Ok(t.(wavelength := Length(1.0 / a.k, Centimetre)))
  }

  /** Setting the wavenumber to `k` and reading it back gives `k`. */
  lemma WavenumberRoundTrip(t: Transition, a: WavenumberArg)
    requires a.k != 0.0 && SetWavenumber(t, a).Ok?
    ensures SetWavenumber(t, a).value.wavelength.value != 0.0
    ensures Wavenumber(SetWavenumber(t, a).value) == a.k
  {
    var t' := SetWavenumber(t, a).value;
    assert t'.wavelength.To(Centimetre) == t'.wavelength;
  }

  // ---------------------------------------------------------------- ordering

  /** `__lt__` as written: compares the bare numbers `wavelength.value`,
      whatever unit each wavelength is stored in. */
  predicate LessAsWritten(a: Transition, b: Transition) {
    a.wavelength.value < b.wavelength.value
  }

  /** `__gt__` as written. */
  predicate GreaterAsWritten(a: Transition, b: Transition) {
    a.wavelength.value > b.wavelength.value
  }

  /** `__lt__` as intended: the physically shorter wavelength. */
  predicate Less(a: Transition, b: Transition) {
    a.wavelength.InAngstrom() < b.wavelength.InAngstrom()
  }

  /** `__gt__` as intended: the physically longer wavelength. */
  predicate Greater(a: Transition, b: Transition) {
    a.wavelength.InAngstrom() > b.wavelength.InAngstrom()
  }

  /** The two readings agree whenever both wavelengths are in one unit, as they
      are straight after construction (nanometres). */
  lemma OrderingAgreesInOneUnit(a: Transition, b: Transition)
    requires a.wavelength.unit == b.wavelength.unit
    ensures LessAsWritten(a, b) <==> Less(a, b)
    ensures GreaterAsWritten(a, b) <==> Greater(a, b)
  {
    var f := AngstromsPer(a.wavelength.unit);
    assert a.wavelength.InAngstrom() == a.wavelength.value * f;
    assert b.wavelength.InAngstrom() == b.wavelength.value * f;
    if a.wavelength.value < b.wavelength.value {
      assert a.wavelength.value * f < b.wavelength.value * f;
    }
    if a.wavelength.value > b.wavelength.value {
      assert a.wavelength.value * f > b.wavelength.value * f;
    }
    if a.wavelength.value == b.wavelength.value {
      assert a.wavelength.value * f == b.wavelength.value * f;
    }
  }

  /** Counterexample to the written comparison: a 500 nm transition and a copy
      whose wavenumber is set to its own 20000 cm^-1 have the same physical
      wavelength, yet the written `>` holds between them (500 > 0.00005). */
  lemma MixedUnitComparison()
    ensures var a := Transition(Length(500.0, Nanometre), 26, Some("Fe"), 1);
            var b := SetWavenumber(a, BareWavenumber(20000.0)).value;
            GreaterAsWritten(a, b) && !Greater(a, b) && !Less(a, b)
  {
    var a := Transition(Length(500.0, Nanometre), 26, Some("Fe"), 1);
    var b := SetWavenumber(a, BareWavenumber(20000.0)).value;
    assert b.wavelength == Length(0.00005, Centimetre);
    assert a.wavelength.InAngstrom() == 5000.0;
    assert b.wavelength.InAngstrom() == 5000.0;
  }

  /** The intended comparisons are strict orders on wavelength: irreflexive,
      asymmetric, transitive, and exactly one of `<`, `>`, "same wavelength"
      holds for any two transitions. */
  lemma OrderingIsStrict(a: Transition, b: Transition, c: Transition)
    ensures !Less(a, a) && !Greater(a, a)
    ensures !(Less(a, b) && Greater(a, b))
    ensures Less(a, b) <==> Greater(b, a)
    ensures Less(a, b) && Less(b, c) ==> Less(a, c)
    ensures !Less(a, b) && !Greater(a, b) <==> a.wavelength.InAngstrom() == b.wavelength.InAngstrom()
  {
  }
}

=== FILE: transition_pair.dfy ===
/** A pair of transitions (varconlib/transition_pair/transition_pair.py): the
    constructor sorts the two into the higher-energy (shorter wavelength) and
    lower-energy (longer wavelength) member and refuses equal wavelengths; the
    pair has a velocity separation, a label, a sorted blend tuple, iterates as
    (higher, lower), and is ordered lexicographically on its two members.
    Transitions compare by their physical wavelength (`TransitionLine.Less`);
    `MakePairAsWritten` is the constructor on the written comparison of bare
    numbers, which agrees with it while both wavelengths share a unit.
    Transitions are identified by value: two transitions with equal fields
    are the same transition here.
 */
module TransitionPair {
  import opened Wrappers
  import opened Text
  import opened TransitionLine
  import Miscellaneous
  import Numerics
  import Units

  datatype Pair = Pair(higher: Transition, lower: Transition, ordersToMeasureIn: Option<seq<int>>)

  /** What every constructed pair satisfies: the higher-energy member has the
      strictly shorter wavelength. */
  predicate Valid(p: Pair) {
    Less(p.higher, p.lower)
  }

  /** The physical wavelength of a transition, in angstroms. */
  function WavelengthOf(t: Transition): real {
    t.wavelength.InAngstrom()
  }

  /** `TransitionPair.__init__`. */
  function MakePair(t1: Transition, t2: Transition): (r: Result<Pair>)
    ensures r.Ok? <==> WavelengthOf(t1) != WavelengthOf(t2)
    ensures r.Raise? ==> r.error == SameWavelengthsError
    ensures r.Ok? ==> Valid(r.value) && r.value.ordersToMeasureIn.None?
    ensures r.Ok? ==> (r.value.higher, r.value.lower) in {(t1, t2), (t2, t1)}
  {
    if Greater(t1, t2) then Ok(Pair(t2, t1, None))
    else if Less(t1, t2) then Ok(Pair(t1, t2, None))
    else Raise(SameWavelengthsError)
  }

  /** `TransitionPair.__init__` as written, on the written transition
      comparison of bare `wavelength.value` numbers. */
  function MakePairAsWritten(t1: Transition, t2: Transition): (r: Result<Pair>)
    ensures r.Ok? <==> t1.wavelength.value != t2.wavelength.value
    ensures r.Raise? ==> r.error == SameWavelengthsError
    ensures r.Ok? ==> LessAsWritten(r.value.higher, r.value.lower) && r.value.ordersToMeasureIn.None?
    ensures r.Ok? ==> (r.value.higher, r.value.lower) in {(t1, t2), (t2, t1)}
  {
    if GreaterAsWritten(t1, t2) then Ok(Pair(t2, t1, None))
    else if LessAsWritten(t1, t2) then Ok(Pair(t1, t2, None))
    else Raise(SameWavelengthsError)
  }

  /** For transitions whose wavelengths are in one unit, as every freshly
      constructed transition's are (nanometres), the written constructor and
      the physical one build the same pair. */
  lemma MakePairAgreesInOneUnit(t1: Transition, t2: Transition)
    requires t1.wavelength.unit == t2.wavelength.unit
    ensures MakePairAsWritten(t1, t2) == MakePair(t1, t2)
  {
    OrderingAgreesInOneUnit(t1, t2);
  }

  /** A 500 nm transition and a copy of it whose wavenumber was set to
      20000 cm^-1: the written constructor pairs them, with the copy as the
      higher-energy member, while they have the same physical wavelength and
      the physical constructor refuses them. */
  lemma MakePairMixedUnits()
    ensures var a := Transition(Units.Length(500.0, Units.Nanometre), 26, Some("Fe"), 1);
            var b := SetWavenumber(a, BareWavenumber(20000.0)).value;
            MakePairAsWritten(a, b) == Ok(Pair(b, a, None))
            && MakePair(a, b) == Raise(SameWavelengthsError)
  {
    MixedUnitComparison();
  }

  /** The argument order does not matter. */
  lemma MakePairSymmetric(t1: Transition, t2: Transition)
    ensures MakePair(t1, t2) == MakePair(t2, t1)
  {
  }

  /** `velocitySeparation`: the velocity of the lower-energy member relative
      to the higher-energy one, in metres per second. */
  function VelocitySeparation(p: Pair): (v: Numerics.Quotient)
    ensures v.Finite? <==> WavelengthOf(p.higher) + WavelengthOf(p.lower) != 0.0
    ensures v.Finite? ==>
      v.v * (WavelengthOf(p.higher) + WavelengthOf(p.lower))
      == 2.0 * Miscellaneous.C * (WavelengthOf(p.lower) - WavelengthOf(p.higher))
    ensures Valid(p) && WavelengthOf(p.higher) > 0.0 ==> v.Finite? && v.v > 0.0
  {
    Miscellaneous.VelocitySign(WavelengthOf(p.higher), WavelengthOf(p.lower));
    Miscellaneous.Wavelength2Velocity(WavelengthOf(p.higher), WavelengthOf(p.lower))
  }

  /** `label`: the two transition labels, higher first, joined by '_'. The
      transition label itself is computed outside this model (`labelOf`). */
  function Label(p: Pair, labelOf: Transition -> string): (s: string)
    ensures s == Join('_', [labelOf(p.higher), labelOf(p.lower)])
  {
    labelOf(p.higher) + "_" + labelOf(p.lower)
  }

  /** Transition labels contain no '_', so the pair label splits back into
      the two transition labels. */
  lemma LabelSplits(p: Pair, labelOf: Transition -> string)
    requires '_' !in labelOf(p.higher) && '_' !in labelOf(p.lower)
    ensures Split(Label(p, labelOf), '_') == [labelOf(p.higher), labelOf(p.lower)]
  {
    var parts := [labelOf(p.higher), labelOf(p.lower)];
    SplitJoin(parts, '_');
  }

  /** `blendTuple`: the two blendedness values in ascending order. A transition
      without a blendedness raises `AttributeError`. */
  function BlendTuple(p: Pair, blendOf: Transition -> Option<int>): (r: Result<(int, int)>)
    ensures r.Ok? <==> blendOf(p.higher).Some? && blendOf(p.lower).Some?
    ensures r.Raise? ==> r.error == AttributeError
    ensures r.Ok? ==> r.value.0 <= r.value.1
    ensures r.Ok? ==> multiset{r.value.0, r.value.1} == multiset{blendOf(p.higher).value, blendOf(p.lower).value}
  {
    match (blendOf(p.higher), blendOf(p.lower))
    case (Some(a), Some(b)) => if a <= b then Ok((a, b)) else Ok((b, a))
    case _ => Raise(AttributeError)
  }

  /** The blend tuple depends only on the two transitions, not on the order they
      were given in. */
  lemma BlendTupleSymmetric(t1: Transition, t2: Transition, blendOf: Transition -> Option<int>)
    requires MakePair(t1, t2).Ok?
    ensures BlendTuple(MakePair(t1, t2).value, blendOf) == BlendTuple(MakePair(t2, t1).value, blendOf)
  {
    MakePairSymmetric(t1, t2);
  }

  /** `__iter__`: the members, higher-energy first. */
  function Iter(p: Pair): (ts: seq<Transition>)
    ensures |ts| == 2 && ts[0] == p.higher && ts[1] == p.lower
  {
    [p.higher, p.lower]
  }

  /** Iterating over a constructed pair gives its two transitions sorted by
      increasing wavelength. */
  lemma IterSorted(t1: Transition, t2: Transition)
    requires MakePair(t1, t2).Ok?
    ensures var ts := Iter(MakePair(t1, t2).value);
      Less(ts[0], ts[1]) && multiset(ts) == multiset{t1, t2}
  {
  }

  // ---------------------------------------------------------------- ordering

  /** `__eq__`: both members are the same transitions. */
  predicate Eq(p: Pair, q: Pair) {
    p.lower == q.lower && p.higher == q.higher
  }

  /** `__gt__`: by the higher-energy member, then by the lower-energy one. */
  predicate Gt(p: Pair, q: Pair) {
    if Eq(p, q) then false
    else if Greater(p.higher, q.higher) then true
    else if p.higher == q.higher then Greater(p.lower, q.lower)
    else false
  }

  /** `__lt__`: by the higher-energy member, then by the lower-energy one. */
  predicate Lt(p: Pair, q: Pair) {
    if Eq(p, q) then false
    else if Less(p.higher, q.higher) then true
    else if p.higher == q.higher then Less(p.lower, q.lower)
    else false
  }

  /** The wavelengths that key the order. */
  function Key(p: Pair): (real, real) {
    (WavelengthOf(p.higher), WavelengthOf(p.lower))
  }

  /** Lexicographic order on keys: the reference the pair order is measured
      against. */
  predicate KeyLess(a: (real, real), b: (real, real)) {
    a.0 < b.0 || (a.0 == b.0 && a.1 < b.1)
  }

  /** Equal pairs are neither smaller nor greater; `<` and `>` are converse to
      each other and never both hold. */
  lemma OrderBasics(p: Pair, q: Pair)
    ensures Eq(p, q) ==> !Lt(p, q) && !Gt(p, q)
    ensures Lt(p, q) <==> Gt(q, p)
    ensures !(Lt(p, q) && Gt(p, q))
  {
  }

  /** Two transitions of the same wavelength are the same transition. */
  predicate IdentifiedByWavelength(ts: set<Transition>) {
    forall a, b :: a in ts && b in ts && WavelengthOf(a) == WavelengthOf(b) ==> a == b
  }

  /** When no two different transitions share a wavelength, `<` is exactly the
      lexicographic order on the wavelength keys, and any two pairs are equal,
      smaller or greater, exactly one of the three. */
  lemma OrderIsLexicographic(p: Pair, q: Pair)
    requires IdentifiedByWavelength({p.higher, p.lower, q.higher, q.lower})
    ensures Lt(p, q) <==> KeyLess(Key(p), Key(q))
    ensures Gt(p, q) <==> KeyLess(Key(q), Key(p))
    ensures (Eq(p, q) && !Lt(p, q) && !Gt(p, q))
         || (!Eq(p, q) && Lt(p, q) && !Gt(p, q))
         || (!Eq(p, q) && !Lt(p, q) && Gt(p, q))
  {
    if WavelengthOf(p.higher) == WavelengthOf(q.higher) {
      assert p.higher == q.higher;
      if WavelengthOf(p.lower) == WavelengthOf(q.lower) {
        assert p.lower == q.lower;
      }
    }
  }

  /** Without that condition the order is not total: two different pairs whose
      higher-energy members are different transitions at the same wavelength
      are neither equal, smaller nor greater. */
  lemma OrderNotTotal()
    ensures var fe := Transition(Units.Length(500.0, Units.Nanometre), 26, Some("Fe"), 1);
            var ni := Transition(Units.Length(500.0, Units.Nanometre), 28, Some("Ni"), 1);
            var far := Transition(Units.Length(501.0, Units.Nanometre), 26, Some("Fe"), 2);
            var p := Pair(fe, far, None);
            var q := Pair(ni, far, None);
            Valid(p) && Valid(q) && !Eq(p, q) && !Lt(p, q) && !Gt(p, q)
  {
  }
}

=== FILE: units.dfy ===
/** Lengths carrying a unit, standing in for the unit-aware quantities the
    modelled code passes around. Only the units the code converts between are
    modelled; a conversion keeps the physical length and changes the number.
 */
module Units {

  datatype LengthUnit = Angstrom | Nanometre | Centimetre | Metre

  /** How many angstroms one `u` is. */
  function AngstromsPer(u: LengthUnit): (r: real)
    ensures r > 0.0
  {
    match u
    case Angstrom => 1.0
    case Nanometre => 10.0
    case Centimetre => 100000000.0
    case Metre => 10000000000.0
  }

  datatype Length = Length(value: real, unit: LengthUnit) {

    /** The physical length, in angstroms. */
    function InAngstrom(): real {
      value * AngstromsPer(unit)
    }

    /** The same length expressed in unit `u` (the library's `.to(u)`). */
    function To(u: LengthUnit): (r: Length)
      ensures r.unit == u
      ensures r.InAngstrom() == InAngstrom()
    {
      Length(InAngstrom() / AngstromsPer(u), u)
    }
  }

  /** Two lengths are physically equal exactly when their angstrom values are. */
  lemma SameLengthSameValue(a: Length, b: Length)
    requires a.unit == b.unit
    ensures a.InAngstrom() == b.InAngstrom() <==> a.value == b.value
  {
  }

  /** Converting to another unit and back restores the original quantity. */
  lemma ConvertRoundTrip(q: Length, u: LengthUnit)
    ensures q.To(u).To(q.unit) == q
  {
    var back := q.To(u).To(q.unit);
    assert back.InAngstrom() == q.InAngstrom();
    SameLengthSameValue(back, q);
  }
}

=== FILE: wrappers.dfy ===
/** Failure-carrying datatypes shared by the whole model.

    The modelled Python code signals errors by raising exceptions; here a call
    that can raise returns a `Result`, whose `Raise` arm names the exception
    class. A value that the code represents as `None` or as a NaN placeholder is
    an `Option`.
 */
module Wrappers {

  /** The exception classes raised by the modelled code. */
  datatype Exception =
    | KeyError
    | ValueError
    | TypeError
    | IndexError
    | AttributeError
    | AssertionError
    | RuntimeError
    | ZeroDivisionError
    | UnboundLocalError
    | SameWavelengthsError

  datatype Option<+T> = None | Some(value: T) {

    predicate IsFailure() {
      None?
    }

    function PropagateFailure<U>(): Option<U>
      requires None?
    {
      None
    }

    function Extract(): T
      requires Some?
    {
      value
    }

    /** The encapsulated value, or `default` for `None`. */
    function GetOr(default: T): T {
      match this
      case Some(v) => v
      case None => default
    }
  }

  /** Either a value or the exception that the Python code would raise. */
  datatype Result<+T> = Ok(value: T) | Raise(error: Exception) {

    predicate IsFailure() {
      Raise?
    }

    function PropagateFailure<U>(): Result<U>
      requires Raise?
    {
      Raise(error)
    }

    function Extract(): T
      requires Ok?
    {
      value
    }
  }
}
